=== FILE: README.md ===
# narwhal: the SQL mapping layer, modelled in Dafny

narwhal stores plain Python classes in a sqlite database. Its SQL layer does
three jobs, and this project models all three in Dafny:

- **Query builder.** The `Query` class builds predicate fragments. Each one
  is a text with `?` markers plus the tuple of values bound to those markers.
- **Schema derivation.**
  - The type tables map declared field types to storage types and defaults.
  - `MakeColumns` turns a class's declared fields into an ordered column
    list.
  - A `List[...]` field registers two integer columns on the child class.
  - `RegisterTables` assigns table names, and `CreateTable(s)` builds the
    `create table` commands.
- **Store and identity cache.**
  - `Add`, `AddList`, `Update`, `UpdateList` and `Clear` write rows.
  - Each instance gets a key (`dbid`) and is cached under it.
  - The reads (`ProcessRow`, `Select`, `SelectOne`, `SelectAtIndex`,
    `RandomEntries`) return the cached instance for a key when there is
    one, so one row never has two copies in memory.

The store is an immutable record threaded through pure functions. The record
(`Store.Store`) holds:

- the type registry;
- each kind's columns, table name and declaration;
- the identity cache: kind → key → handle;
- a heap of instances indexed by handle, so that identity is handle equality;
- the engine's tables, each a sequence of positional rows with the key first;
- a log of the statements sent (`execute`, `executemany`, `commit`),
  including the selects of the reads, with one entry per item for the
  child-list calls and one for each reference cell handed to its
  converter. The row count that `TableLength` reads before an insert is
  not logged.

The engine's answers to selections are inputs. This covers the result rows
and the random order.

Modules, one per file:

| module | file | what it covers |
|---|---|---|
| `Text` | text.dfy | Marker counting. The source's join loop and its reference definition. Left-to-right concatenation of tuples. |
| `Values` | values.dfy | Field values and the adapter hook. |
| `TypeRegistry` | typeregistry.dfy | `TYPE_TABLE`, `TYPE_DEFAULT`, `RegisterTypeConversion`. |
| `Schema` | schema.dfy | Field types, columns, list registration, `MakeColumns`, the `create table` text. |
| `Query` | query.dfy | The `Query` class. |
| `Store` | store.dfy | The store record, row and command building, `Add`, `Update`, `Clear`, `Commit`, `TableLength`. |
| `Batch` | batch.dfy | `AddList`, and the list order of the items it updates and inserts. |
| `BatchUpdate` | batchupdate.dfy | `UpdateList` and its per-item loop. |
| `Registration` | registration.dfy | `RegisterTables`, `CreateTable`, `CreateTables`. |
| `Reads` | reads.dfy | `CopyRowToData`, `ProcessRow`, the selections and `RandomEntries`. |
| `StoreProperties` | properties.dfy | Properties that relate several operations: key numbering, and a write followed by a read. |

### The source's quirks, modelled as written

Each of these is stated as a property.

- `ChainExprs`, `CreateTable`, `Update` and `UpdateList` index the last
  element. The model therefore requires at least one fragment or column.
- `Update` checks only that `dbid` is present. An instance holding the
  "not stored" sentinel -1 is updated, and the update matches no row
  (`StoreProperties.SentinelUpdateChangesNoRow`).
- `AddList` numbers its new items from 0, whatever the table already holds
  (`StoreProperties.AddListRepeatsKey`).
- In `UpdateList`, the `AddList` call, the batched update, the list updates
  and the commit sit inside the per-item loop. Items waiting for insertion
  are handed to `AddList` again on every later iteration
  (`StoreProperties.UpdateListTwoNew`).

## Model

| member | source | states |
|---|---|---|
| Values.Adapt | narwhal/sql.py:340-341 | A value with an adapter is stored as the adapter's result; any other value is stored as it is. |
| TypeRegistry.Builtin | narwhal/sql.py:95-110 | The built-in type table covers str, int, bool, float, date and datetime. int and bool both map to integer. Every storage type it produces has a default, and the integer default is -1. |
| TypeRegistry.RegisterTypeConversion | narwhal/sql.py:122-125 | The class name maps to its lower-cased name, and that storage type's default becomes the given value. No other entry changes, and the registry stays closed (every storage type keeps a default). |
| Schema.ColumnFor | narwhal/sql.py:200-218 | A field whose class name is in the type table gets that storage type. Otherwise a declared `__sql_type__` is used. A scalar not in the table, a list and an unknown alias contribute no column. |
| Schema.ListColumnsDistinct | narwhal/sql.py:129-137 | The parent-link column `_<parent lower>_<field>_list_id` and the order column `..._list_order` never coincide. |
| Schema.AppendAbsent | narwhal/sql.py:160-163 | After the call the column is present. The list is unchanged if the column was already there, and otherwise gains it at the end. |
| Schema.RegisterList | narwhal/sql.py:139-163 | The child kind ends up with both integer list columns. Its earlier columns remain an unchanged prefix, and nothing else is added. Other kinds are untouched, and nothing changes when both columns were already present. |
| Schema.RegisterListIdempotent | narwhal/sql.py:139-163 | Registering the same list twice gives the same column registry as registering it once. |
| Schema.DeriveColumns | narwhal/sql.py:198-221 | At most one column per field, and every column comes from some field's `ColumnFor`. |
| Schema.DerivedInDeclarationOrder | narwhal/sql.py:198-221 | The derived columns are exactly the recognised fields' columns. Column j comes from a field whose index strictly increases with j, and every recognised field contributes its column. |
| Schema.RegisterListsAddsColumns | narwhal/sql.py:217-218 | Every list field leaves both of its columns registered on its child kind. |
| Schema.RegisterListsOnly | narwhal/sql.py:217-218 | The list registrations add nothing but the list fields' own two columns, each on the field's child kind. |
| Schema.RegisterListsSettled | narwhal/sql.py:139-163 | Once every list field's columns are present, registering the fields again changes nothing. |
| Schema.MakeColumns | narwhal/sql.py:189-221 | Gives the kind's own columns (at most one per field, each from a field) and the column registry after list registration. That registry only extends the one it started from. |
| Schema.MakeColumnsListsIdempotent | narwhal/sql.py:189-221 | Deriving a kind's columns a second time registers no further list columns. |
| Schema.ColumnDecls | narwhal/sql.py:265-269 | One `name type` declaration per column, in column order. |
| Schema.CreateTableCommand | narwhal/sql.py:263-269 | The command is `create table <t> ( dbid integer primary key, ` followed by the declarations joined by `, ` and a closing `)`. The source's loop-and-last-element idiom is proved equal to the reference join. |
| Query.Comparison | narwhal/sql.py:8-42 | `name op ?` bound to one value. The text holds one marker more than the name, so a marker-free name gives a balanced fragment. |
| Query.Equals | narwhal/sql.py:8-12 | Text `name = ?`, values `(val,)`, balanced for a marker-free name. |
| Query.NotEquals | narwhal/sql.py:14-18 | Text `name != ?`, values `(val,)`, balanced for a marker-free name. |
| Query.LessThan | narwhal/sql.py:20-24 | Text `name < ?`, values `(val,)`, balanced for a marker-free name. |
| Query.LessThanEquals | narwhal/sql.py:26-30 | Text `name <= ?`, values `(val,)`, balanced for a marker-free name. |
| Query.GreaterThan | narwhal/sql.py:32-36 | Text `name > ?`, values `(val,)`, balanced for a marker-free name. |
| Query.GreaterThanEquals | narwhal/sql.py:38-42 | Text `name >= ?`, values `(val,)`, balanced for a marker-free name. |
| Query.Between | narwhal/sql.py:44-48 | Text `name between ? and ?`, values `(low, high)` in that order, and two markers more than the name. |
| Query.Like | narwhal/sql.py:50-54 | Text `name like ?`, values `(pattern,)`, balanced for a marker-free name. |
| Query.Not | narwhal/sql.py:56-60 | Text `not (t)` with the values unchanged. It is balanced exactly when its operand is. |
| Query.Parens | narwhal/sql.py:68-71 | Each fragment's text in parentheses, in order. |
| Query.ValuesOf | narwhal/sql.py:69-72 | Each fragment's value tuple, in order. |
| Query.ChainExprs | narwhal/sql.py:62-73 | Needs at least one fragment. The text is the parenthesised texts joined by the separator, and there are as many values as the fragments have together. Balanced fragments and a marker-free separator give a balanced chain. |
| Query.ChainPlaceholders | narwhal/sql.py:62-73 | The chained text of balanced fragments has as many markers as they have values. |
| Query.And | narwhal/sql.py:75-76 | The chain with ` and `, balanced when its parts are. |
| Query.Or | narwhal/sql.py:78-79 | The chain with ` or `, balanced when its parts are. |
| Query.OrderAscending | narwhal/sql.py:81 | `field asc`, adding no marker. |
| Query.OrderDescending | narwhal/sql.py:83 | `field desc`, adding no marker. |
| Query.ChainValuesInOrder | narwhal/sql.py:64-72 | Fragment i's values occupy the chained tuple right after the values of the fragments before it. |
| Query.ChainTextInOrder | narwhal/sql.py:63-71 | Fragment i's parenthesised text follows the text the fragments before it contribute. |
| Query.PlaceholdersBefore | narwhal/sql.py:66-69 | The text the loop accumulates from balanced fragments, each followed by a marker-free separator, holds exactly as many markers as those fragments bind values. |
| Query.ChainBindsInOrder | narwhal/sql.py:62-73 | Marker order matches value order. Fragment i's text comes after exactly as many markers as there are values before fragment i's values, and those values sit at that offset. |
| Store.Connect | narwhal/sql.py:168-175 | A new store over existing tables keeps the given registry and tables, and has an empty cache, no instances, no registered kinds and an empty log. |
| Store.New | narwhal/sql.py:592 | A new instance gets a handle no other instance has, and it has no key. |
| Store.ColumnValues | narwhal/sql.py:334-346 | One value per column: the adapted field value if the instance has the field, otherwise the storage type's default. |
| Store.InsertRow | narwhal/sql.py:330-346 | The insert row is the key followed by one value per column: the adapted field value, or the storage type's default when the field is missing. Its length is the column count plus one. |
| Store.UpdateArgs | narwhal/sql.py:462-482 | The same per-column values as the insert row, with the key moved to the end. |
| Store.InsertCommand | narwhal/sql.py:349-352 | For a kind with columns, the insert command holds exactly one marker per column plus one for the key. |
| Store.InsertCommandJoins | narwhal/sql.py:349-352 | The insert command is `insert into <table> values (` followed by the markers joined with `, ` and a closing parenthesis: one marker per column plus one for the key, and two markers for a kind without columns, because the loop then runs no time. |
| Text.JoinMarkers | narwhal/sql.py:349-352 | The marker loop's text (`?, ` repeated, then a last `?`) is the reference join of one more marker than the loop ran. |
| Store.UpdateCommand | narwhal/sql.py:460-481 | `update t set c1 = ?, ..., cn = ? where dbid = ?`. For plain names that is one marker per column, then one for the key. |
| Store.ApplyUpdate | narwhal/sql.py:481-485 | The engine's update: every row keyed by the last argument takes the other arguments as its values, and no other row changes. |
| Store.ApplyUpdateIdempotent | narwhal/sql.py:485 | Sending the same update twice has the effect of sending it once. |
| Store.LastTarget | narwhal/sql.py:573 | Finds the last tuple of a batch whose key is the row's key. When there is one, no later tuple addresses the row; when there is none, no tuple does. |
| Store.ApplyUpdatesLast | narwhal/sql.py:573 | After a batched update each row is what the last tuple addressing it wrote, or unchanged when no tuple addresses it. |
| Store.ApplyUpdatesAbsorb | narwhal/sql.py:570-573 | A batch that contains every tuple of an earlier batch overrides it: sending both has the effect of sending the later one alone. |
| Store.CommitAll | narwhal/sql.py:299-304 | `Commit` appends a commit to the log and changes nothing else. |
| Store.Bind | narwhal/sql.py:324-328 | The instance gets the key and is cached under it, replacing that entry. Other instances, other entries and other buckets stay as they were. |
| Store.AddFresh | narwhal/sql.py:324-360 | The insert path of `Add`. The instance gets the current row count as its key and is cached under it, its insert row is appended, and the insert, the list hook and an optional commit are logged. Nothing else changes. |
| Store.Rewrite | narwhal/sql.py:455-492 | The update path of `Update`. Rows keyed by the instance's `dbid` take its current values, and the update, the list hook and an optional commit are logged. Instances and the cache are untouched. |
| Store.Update | narwhal/sql.py:432-494 | With `dbid` present (the sentinel included), an immutable kind without force leaves the store unchanged; otherwise the rows are rewritten, with instances and cache unchanged. Without `dbid` the instance is added. |
| Store.Add | narwhal/sql.py:306-360 | An instance whose `dbid` is present and not -1 goes to `Update` without force. Any other instance takes the insert path. |
| Store.Clear | narwhal/sql.py:275-284 | The kind's table is emptied and its cache bucket reset; other tables, buckets and instances stay. The delete and the commit are logged. |
| Batch.UpdateKeyed | narwhal/sql.py:379-384 | The first loop of `AddList` sends each keyed item, in list order, to `Update` without force. It changes no key, no cache entry and no row count. An immutable kind leaves the store as it was. Otherwise the kind's table ends with every keyed item's update arguments applied in list order, and the log gains each item's update, its list hook and the optional commit, in list order. |
| Batch.Pick | narwhal/sql.py:379-384 | The items kept from a list are list items that pass the test, and every list item that passes is kept. |
| Batch.PickInOrder | narwhal/sql.py:379-384 | The kept items (the items `AddList` inserts; the updated and the waiting items of `UpdateList`) are exactly the passing items, each occurrence once, in list order. Kept item j is list item o[j], the positions o strictly increase, and every passing item is at one of them. |
| Batch.AssignKeys | narwhal/sql.py:389-395 | The i-th new item is cached under i and, unless it occurs again later, holds key i. Other instances and buckets are unchanged. |
| Batch.FreshRows | narwhal/sql.py:389-415 | Insert row i is new item i's row with key i. |
| Batch.InsertFresh | narwhal/sql.py:386-430 | The new items are numbered 0..k-1 and cached, their rows are appended in order, and one batched insert, the list hooks and an optional commit are logged. |
| Batch.AddList | narwhal/sql.py:362-430 | An empty list changes nothing. Otherwise the new items get keys 0..k-1 in list order and are cached under them, and the other instances are unchanged. The kind's table is the old one with the keyed items' updates applied in list order, followed by exactly the new items' insert rows. The log holds the keyed items' updates, then one batched insert of those rows, the new items' list hooks and the optional commit. |
| BatchUpdate.Gather | narwhal/sql.py:537-567 | An item with `dbid` adds its update arguments to the batch. An item without one waits for `AddList`. |
| BatchUpdate.UpdateStep | narwhal/sql.py:533-581 | One iteration of the loop gathers the item exactly as `Gather` does. Its writes keep the schema, and instances that do not wait for `AddList` keep their attributes. When nothing waits, no instance or cache entry changes, the table takes every gathered argument tuple again in order, and the log gains one batched update of them all, every gathered item's list hook and the optional commit. The case in which items wait is stated by BatchUpdate.UpdateStepWaiting. |
| BatchUpdate.UpdateStepWaiting | narwhal/sql.py:533-581 | When items wait in an iteration, the kind's table becomes `AddList`'s rows for the waiting items (the keyed items' updates, then the new items' insert rows) with every gathered argument tuple applied after them. The log gains exactly `AddList`'s statements followed by the batched update, the list hooks and the optional commit. What that `AddList` call does to waiting instances is stated by StoreProperties.UpdateStepHeap. |
| BatchUpdate.AddListWaiting | narwhal/sql.py:566-570 | The `AddList` call of an iteration in which every waiting item but the last holds a key: only a last item without a key is inserted, it gets key 0 and the table one row, and every other instance is unchanged. |
| BatchUpdate.StepInserts | narwhal/sql.py:533-581 | One iteration while every waiting item holds a key: an item without `dbid` ends with key 0 and adds one row; any other item adds none; every other instance is unchanged. |
| BatchUpdate.UpdatePassInserts | narwhal/sql.py:533-581 | Over items no one of which comes twice, the loop leaves every item that had no `dbid` with key 0 and every other item with its old `dbid`, and the table grows by one row per item that had no `dbid`. |
| StoreProperties.UpdateStepHeap | narwhal/sql.py:566-570 | The instances an iteration leaves on a new item are those that `AddList` leaves on the waiting items plus that item, because that call sits inside the loop. |
| BatchUpdate.UpdateFlush | narwhal/sql.py:572-581 | The batched update applies every gathered argument tuple to the table in order, and the statement, the list hooks and an optional commit are logged. |
| BatchUpdate.UpdatePass | narwhal/sql.py:533-581 | After the loop every item has been gathered: the updates and the waiting items together number as many as the items, there is one argument tuple per update, each as wide as the kind's columns plus the key, the waiting items are still ready for `AddList`, and the store has changed only in ways that keep the schema. |
| BatchUpdate.UpdatePassGathered | narwhal/sql.py:533-581 | When no item occurs twice, the updates are exactly the items with `dbid` (the sentinel included) and the waiting items exactly those without, both in list order. The gathered arguments are the updates' arguments in that order, and instances outside the list are untouched. |
| BatchUpdate.UpdateList | narwhal/sql.py:496-581 | An empty list, or an immutable kind without force, changes nothing. Otherwise the per-item loop runs. When every item has `dbid`, no instance or cache entry changes and no other table changes. The kind's table then ends as if every item's update arguments had been applied once, in list order. When some items lack `dbid`, each iteration's table and log effect is that of BatchUpdate.UpdateStep and BatchUpdate.UpdateStepWaiting. |
| BatchUpdate.UpdateListInsertsNew | narwhal/sql.py:496-581 | `UpdateList` over items no one of which comes twice, on a kind that accepts the update: every item that had no `dbid` ends with key 0, every other item keeps its `dbid`, instances outside the list are unchanged, and the kind's table grows by exactly one row per item that had no `dbid`. |
| BatchUpdate.UpdateStepKeyed | narwhal/sql.py:533-581 | An iteration on an item with `dbid`, while nothing waits, inserts nothing and changes no instance, cache entry or row count. |
| BatchUpdate.UpdatePassAllKeyed | narwhal/sql.py:533-581 | Over items that all have `dbid`, nothing waits for `AddList` and every item is among the updates, in list order. No instance, cache entry or row count changes. |
| BatchUpdate.UpdatePassAllKeyedRows | narwhal/sql.py:533-581 | Over items that all have `dbid`, the loop gathers every item's update arguments in list order. The table ends as if that batch had been applied once, because each iteration re-sends the earlier tuples and the later sending overrides them. |
| Registration.TableNameFor | narwhal/sql.py:241-243 | A table name set on the class is kept, and so is one given by an earlier registration. Otherwise the name is the lower-cased kind name plus `_table`. |
| Registration.RegisterKind | narwhal/sql.py:230-243 | The kind is registered with an empty cache bucket and its table name; instances, tables and the log are unchanged. |
| Registration.RegisterKindColumns | narwhal/sql.py:236-239 | The kind's column list becomes its old list, then the list columns that its own list fields register on it, then the derived columns in declaration order. Every recognised field's column is there. No other kind's columns shrink, and another kind gains only the list columns of this kind's list fields that name it as child. |
| Registration.RegisterAll | narwhal/sql.py:230-243 | Registering the kinds in order leaves instances, tables and the log alone. |
| Registration.RegisterAllRegisters | narwhal/sql.py:230-234 | Every listed kind ends up registered with an empty bucket. |
| Registration.RegisterTables | narwhal/sql.py:224-243 | Records the kinds in order, registers each with an empty bucket, and sends nothing. |
| Registration.CreateTable | narwhal/sql.py:251-273 | Creates the kind's empty table, then logs the `create table` command and a commit. |
| Registration.EmptyTables | narwhal/sql.py:246-249 | One empty table per listed kind with columns, and nothing else. |
| Registration.CreateAll | narwhal/sql.py:246-249 | The loop adds exactly those empty tables and keeps the existing ones. |
| Registration.CreateTables | narwhal/sql.py:246-249 | Every registered kind with columns gets an empty table. None of those tables may exist beforehand, since the engine would refuse the `create table`. Tables under other names are untouched, and no other table appears. |
| Reads.AssignedKeys | narwhal/sql.py:597-613 | After copying, an attribute exists exactly when it existed before or a cell that is not a reference names it. |
| Reads.AssignedLast | narwhal/sql.py:609-613 | The last non-reference cell of each name decides that attribute's value. |
| Reads.AssignedKept | narwhal/sql.py:602-607 | Attributes that no cell overwrites, reference attributes included, keep their values. |
| Reads.ReferenceEvents | narwhal/sql.py:602-607 | Every reference cell hands its raw key to the reference helper, and nothing else does. |
| Reads.CopyRowToData | narwhal/sql.py:583-616 | The instance takes the row's key and cells, keeps its kind and identity, and has its lists marked as loaded. Nothing else in the store changes. |
| Reads.ProcessRow | narwhal/sql.py:618-639 | Afterwards the row's key maps to the returned instance. A cached key returns the same handle, overwritten from the row, with the cache unchanged. An uncached key gets a new instance cached under it. No other instance changes. |
| Reads.ProcessRowLoads | narwhal/sql.py:618-639 | The returned instance is of the kind, carries the row's key, and holds the last cell of each non-reference column as that attribute's value. |
| Reads.ProcessRows | narwhal/sql.py:665-667 | Row i's key maps to result i, so rows with equal keys give one instance, and earlier cache entries survive. Each result that no later row returns again is of the kind, carries its row's key and holds its row's values. A later row with the same key overwrites the instance. |
| Reads.SelectCommand | narwhal/sql.py:641-649 | For a balanced predicate, the select command holds exactly as many markers as the values it binds. |
| Reads.Select | narwhal/sql.py:651-669 | Sends the select with the predicate's values. It returns one instance per result row, each cached under its row's key and holding that row's key and values, unless a later row with the same key overwrites it. |
| Reads.SelectOne | narwhal/sql.py:671-687 | Returns nothing exactly when the engine returns no row. Otherwise it returns the instance cached under that row's key, which holds the row's key and values. |
| Reads.Lookup | narwhal/sql.py:699-701 | Finds the first row whose key column holds the index, or none if no row does. |
| Reads.RowCells | narwhal/sql.py:597-612 | A stored row's values after the key, named by the kind's columns. |
| Reads.SelectAtIndex | narwhal/sql.py:689-706 | Returns an instance exactly when some row carries the key. That instance is cached under the key, holds the key, and is loaded with the values of the first row carrying it. |
| Reads.RandomLimit | narwhal/sql.py:719 | The limit is `max(1, num)`. |
| Text.Decimal | narwhal/sql.py:719 | The limit is written as a decimal numeral that reads back as the number and has no leading zero. |
| Reads.RandomEntries | narwhal/sql.py:708-727 | Returns the first `max(1, num)` rows of the engine's random order, or fewer if the table is short. Each row goes through `ProcessRow`, so each instance is cached under its row's key and holds that row's key and values. |
| StoreProperties.InsertBindsRow | narwhal/sql.py:330-353 | The insert command has exactly one marker per value of the insert row. |
| StoreProperties.UpdateBindsArgs | narwhal/sql.py:460-485 | The update command has exactly one marker per update argument. |
| StoreProperties.AddFreshNumbered | narwhal/sql.py:324-328 | On a table whose row j carries key j, an insert by `Add` keeps that so, and the new key is its row's position. |
| StoreProperties.ClearThenAdd | narwhal/sql.py:275-328 | After `Clear`, the next `Add` of an instance without a key (or with the sentinel) gives key 0 and leaves its row alone in the table. |
| StoreProperties.ClearThenAddKeyed | narwhal/sql.py:274-323 | `Clear` leaves instance keys alone, so after it an `Add` of an instance stored earlier goes to `Update`. That instance is re-inserted nowhere: the table stays empty and the instance keeps its attributes and old key. |
| StoreProperties.RewriteNumbered | narwhal/sql.py:455-485 | An update keeps every row's key. |
| StoreProperties.SentinelUpdateChangesNoRow | narwhal/sql.py:446-492 | `Update` accepts the sentinel key -1. On a table whose row j carries key j, no row changes, yet the log gains exactly the update command with the item's arguments and key -1, the list hook, and the commit when asked. |
| StoreProperties.AddEach | narwhal/sql.py:306-360 | `Add` over new items one after another keeps the store valid and leaves other instances alone. |
| StoreProperties.AddEachKeys | narwhal/sql.py:324-328 | Sequential `Add`s of N new items to a table of L rows give them keys L to L+N-1 in call order and append N rows, and keep a numbered table numbered. |
| StoreProperties.AddThenSelectAtIndex | narwhal/sql.py:324-328 | A row added to a numbered table is read back by its key as the very instance that was added. |
| StoreProperties.SelectAtIndexCached | narwhal/sql.py:631-634 | Reading a cached key returns the cached instance, loaded from the first row carrying the key. |
| StoreProperties.AddListRepeatsKey | narwhal/sql.py:389-422 | On a numbered table that is not empty, `AddList` of one new item gives it key 0 and appends a row with key 0 after the original first row, then maps 0 to the new item in the cache. |
| StoreProperties.AddListThenSelectAtIndex | narwhal/sql.py:389-395 | A read by key 0 then returns the added instance, loaded with the original first row's values. |
| StoreProperties.UpdateListNumberedRows | narwhal/sql.py:533-581 | `UpdateList` over items that all have `dbid`, with pairwise distinct keys, on a table whose row j carries key j: the row at each item's key holds that key followed by the item's column values. Every row whose key no item carries is as it was, no row is added and no other table changes. |
| StoreProperties.NumberedBatch | narwhal/sql.py:573 | A batched update whose tuples carry pairwise distinct keys, on a table whose row j carries key j, leaves the row at each tuple's key as that tuple writes it and every other row untouched. |
| StoreProperties.AddListOneNew | narwhal/sql.py:389-395 | `AddList` of one new item gives it key 0 and leaves the other instances. |
| StoreProperties.AddListKeyedThenNew | narwhal/sql.py:379-395 | `AddList` of an item keyed 0 and a new item leaves both with key 0. |
| StoreProperties.UpdateListTwoNew | narwhal/sql.py:533-581 | `UpdateList` over two new items leaves both with key 0, because the `AddList` call sits inside the loop. |
| StoreProperties.SameKeySameInstance | narwhal/sql.py:631-638 | Reading the same key twice yields the same instance. |
| StoreProperties.ClearForgetsInstances | narwhal/sql.py:284 | After `Clear`, reading a row makes a new instance, even for a key that was cached before. |

## Left out

- The sqlite connection, cursors and engine errors are abstract. The engine is a map from table name to rows, and `execute`, `executemany` and `commit` are entries in a log.
- The engine's `dbid integer primary key` constraint is not enforced. The model's engine appends a row whose key is already taken. sqlite would raise after the keys and the cache had been assigned. This matters for `AddList` on a table that is not empty and for the second new item of `UpdateList`. `StoreProperties.AddListRepeatsKey` and `StoreProperties.UpdateListTwoNew` state what the in-memory side holds at that point.
- Store.Add, Batch.AddList, BatchUpdate.UpdateList: require the kind to have at least one column (`Store.Ready`, which `Batch.ListReady` and `BatchUpdate.BatchReady` include). With none, the source would send a command with two markers (Store.InsertCommand) and one value, which the engine refuses; `UpdateList` and `Update` would index the last of no columns.
- Batch.AddList and BatchUpdate.UpdateList: the items must all be of one kind. The source takes the kind from the first item, so a mixed list would put instances of other kinds into that kind's cache bucket.
- Batch.AddList: whether an item has a key is read from its attributes. The source's `hasattr` would also see a class-level `dbid`, and such classes are not modelled.
- Schema.ColumnFor: follows the `typing` behaviour of Python before 3.10, where a generic alias such as `List[X]` or `Reference[X]` has no `__name__` and so counts as having the empty name. From Python 3.10 on such an alias does expose `__name__`; then a `List[...]` field reaches `RegisterList` with `var_args` unbound and a `Reference[...]` field gets no column. That behaviour is not modelled. What `get_args`/`get_origin` return for aliases other than `Reference` and `List` is not modelled either.
- Text.Lower: lower-cases ASCII letters only. Python's `str.lower` also handles the rest of Unicode.
- `OrderChain` is left out. It hands plain strings to `ChainExprs`, which indexes them as tuples. `OrderAscending`/`OrderDescending` are modelled.
- `CacheSize`, `DEFAULT_DB` and `Get` are left out. They measure Python object sizes or hold a global singleton.
- sqlite adapters and converters (`register_adapter`/`register_converter`) and `PARSE_DECLTYPES` are left out. A cell read back holds the stored value as it is, and the custom type's converter is not applied.
- A new instance made by `ProcessRow` starts with no attributes. The class constructor's defaults are not modelled.
- Reads.RandomLimit: `num` is an integer. The source's `int(num)` truncation of other numbers is not modelled.
- The `print` warnings for an unknown field type and for a refused update are left out.
- Reads.Select, Reads.SelectOne and Reads.RandomEntries: the engine's answer is an input. Predicate evaluation and `order by random()` are engine behaviour. Reads.Select and Reads.SelectOne therefore state the cache and identity properties of the answer, not that its rows satisfy the predicate.
- Float, date and timestamp values are opaque constants, and no arithmetic on them is modelled.
- The child-list and reference helpers (`__get_lists__`, `__add_to_db__`, `__update_to_db__`, `__mark_lists_from_db__`, `__get_reference__`, `__sql_converter__`) are not part of this model. The log records one `ListsAdded`, `ListsUpdated` or `ListsMarked` entry per item, standing for the loop over that item's lists (sql.py:356-357, 426-427, 488-489, 577-578, 615), and one `ReferenceLoaded` entry per reference cell passed to `__sql_converter__` (sql.py:606); the `__get_lists__` and `__get_reference__` lookups themselves are not logged. A reference cell is recognised by the field's declared `Reference` type.
- Store.Add, Store.Update, Batch.AddList, BatchUpdate.UpdateList: require a default for the storage type of every column the instance lacks. Without one the source raises `KeyError` at sql.py:345, 413, 471 and 551. In `Add` the key has already been assigned and cached when that happens (sql.py:325-328), and the model has no such half-done state.
- Schema.ColumnFor, Schema.RegistersList: a field typed with a plain class named `List` is dropped. In the source that class has `__name__` but no type-table entry and no `__sql_type__`, so it reaches `SQL.RegisterList(data_class, var_args, var_name)` at sql.py:217-218 with `var_args` unbound (an `UnboundLocalError`) or left over from an earlier alias field.
- Store.Connect: starts with no columns, table names or kind declarations. In the source these are class attributes (sql.py:237-243) that outlive a connection, and `__init__` (sql.py:168-175) does not reset them; a second `SQL(...)` followed by `RegisterTables` on the same classes appends the derived columns again. Registration state shared between connections is not modelled.
- BatchUpdate.UpdateList: when some items lack `dbid`, the whole call is stated through its loop (BatchUpdate.UpdatePass, one BatchUpdate.UpdateStep per item) and, for lists without repeated items, through keys and the row count (BatchUpdate.UpdateListInsertsNew). No closed form is given for the final table contents or log, because every iteration re-sends the whole batch gathered so far after its own `AddList` call.
- BatchUpdate.UpdatePass: the exact split into updates and waiting items (BatchUpdate.UpdatePassGathered) is stated only for lists in which no item occurs twice. A repeated new item is seen with a `dbid` on its second occurrence, because the `AddList` inside the loop has given it one.
- StoreProperties.UpdateListNumberedRows: stated for items with pairwise distinct keys on a table whose row j carries key j. With repeated keys the last item carrying a key decides the row (Store.ApplyUpdatesLast).
- Registration.CreateTable, Registration.CreateTables: require the kind's table not to exist yet. The source's `create table` (sql.py:263-273) would make the engine refuse an existing table, and engine errors are not modelled.
- Reads.ProcessRows, Reads.Select, Reads.RandomEntries: state each returned instance's kind, key and row values, not which of its earlier attributes a re-used instance keeps. Reads.ProcessRow and Reads.AssignedKept state that for one row.
- Store.TableLength has no contract of its own. It is the table's row count, and Store.AddFresh and StoreProperties.AddEachKeys state what follows from it.

=== FILE: batch.dfy ===
/** The batched writes of narwhal/sql.py: `AddList` and `UpdateList`. Both
    take the kind, table and columns from the first item; the model asks
    for lists of one kind. */
module Batch {
  import opened Values
  import opened Store

  /** Every handle is allocated and holds an instance of kind `k`. */
  predicate OfKind(s: Store, hs: seq<Handle>, k: string)
  {
    forall i :: 0 <= i < |hs| ==> hs[i] in s.heap && s.heap[hs[i]].kind == k
  }

  /** Every item's row can be built from its attributes or the defaults. */
  predicate AllResolvable(s: Store, hs: seq<Handle>, k: string)
    requires OfKind(s, hs, k) && k in s.columns
  {
    forall i :: 0 <= i < |hs| ==> Resolvable(s.registry, s.columns[k], s.heap[hs[i]].fields)
  }

  /** What `AddList` needs: items of one kind whose table is ready; every
      item is writable, except keyed items of an immutable kind, which
      `Update` refuses without looking at them. */
  predicate ListReady(s: Store, hs: seq<Handle>, k: string)
  {
    && Ready(s, k) && OfKind(s, hs, k)
    && forall i :: 0 <= i < |hs| ==>
         (Keyed(s.heap[hs[i]]) && Blocked(s, k, false)) || Resolvable(s.registry, s.columns[k], s.heap[hs[i]].fields)
  }

  lemma ListReadyPrefix(s: Store, hs: seq<Handle>, k: string, n: nat)
    requires ListReady(s, hs, k) && n <= |hs|
    ensures ListReady(s, hs[..n], k)
  {
    assert forall i :: 0 <= i < n ==> hs[..n][i] == hs[i];
  }

  /** No item comes twice. */
  predicate Distinct(hs: seq<Handle>)
  {
    forall i, j :: 0 <= i < j < |hs| ==> hs[i] != hs[j]
  }

  /** The tests the batched writes sort their items by: a key other than
      the sentinel (`AddList`), or any `dbid` at all (`UpdateList`). */
  datatype Test = WithKey | WithoutKey | WithDbid | WithoutDbid

  predicate Passes(t: Test, item: Instance)
  {
    match t
    case WithKey => Keyed(item)
    case WithoutKey => !Keyed(item)
    case WithDbid => item.dbid.Some?
    case WithoutDbid => item.dbid.None?
  }

  /** Position `i` holds the last occurrence of its item in `fs`: the
      numbering loop of `AddList` leaves that item with key `i`. */
  predicate LastAt(fs: seq<Handle>, i: int)
  {
    0 <= i < |fs| && fs[i] !in fs[i + 1..]
  }

  /** The items that pass a test, in list order. */
  function Pick(s: Store, hs: seq<Handle>, t: Test): (r: seq<Handle>)
    requires forall i :: 0 <= i < |hs| ==> hs[i] in s.heap
    ensures |r| <= |hs|
    ensures forall j :: 0 <= j < |r| ==> r[j] in hs && r[j] in s.heap && Passes(t, s.heap[r[j]])
    ensures forall i :: 0 <= i < |hs| && Passes(t, s.heap[hs[i]]) ==> hs[i] in r
  {
    if |hs| == 0 then []
    else
      var init := Pick(s, hs[..|hs| - 1], t);
      var h := hs[|hs| - 1];
      if Passes(t, s.heap[h]) then init + [h] else init
  }

  /** Where each picked item stands in the list. */
  function PickOrigins(s: Store, hs: seq<Handle>, t: Test): (o: seq<nat>)
    requires forall i :: 0 <= i < |hs| ==> hs[i] in s.heap
    ensures forall j :: 0 <= j < |o| ==> o[j] < |hs|
  {
    if |hs| == 0 then []
    else
      var o := PickOrigins(s, hs[..|hs| - 1], t);
      if Passes(t, s.heap[hs[|hs| - 1]]) then o + [|hs| - 1] else o
  }

  /** Picked item `j` is item `o[j]` of the list. */
  lemma {:induction false} PickOriginsMatch(s: Store, hs: seq<Handle>, t: Test)
    requires forall i :: 0 <= i < |hs| ==> hs[i] in s.heap
    ensures |PickOrigins(s, hs, t)| == |Pick(s, hs, t)|
    ensures forall j :: 0 <= j < |PickOrigins(s, hs, t)| ==> hs[PickOrigins(s, hs, t)[j]] == Pick(s, hs, t)[j]
  {
    if |hs| > 0 {
      var n := |hs|;
      var init := hs[..n - 1];
      PickOriginsMatch(s, init, t);
      var o0 := PickOrigins(s, init, t);
      var r0 := Pick(s, init, t);
      var o := PickOrigins(s, hs, t);
      var r := Pick(s, hs, t);
      assert o[..|o0|] == o0 && r[..|o0|] == r0;
      forall j | 0 <= j < |o|
        ensures hs[o[j]] == r[j]
      {
        if j < |o0| {
          assert o[j] == o0[j] && r[j] == r0[j];
          assert hs[o0[j]] == init[o0[j]];
        }
      }
    }
  }

  /** The origins strictly increase. */
  lemma {:induction false} PickOriginsIncreasing(s: Store, hs: seq<Handle>, t: Test)
    requires forall i :: 0 <= i < |hs| ==> hs[i] in s.heap
    ensures forall j, j' :: 0 <= j < j' < |PickOrigins(s, hs, t)| ==> PickOrigins(s, hs, t)[j] < PickOrigins(s, hs, t)[j']
  {
    if |hs| > 0 {
      PickOriginsIncreasing(s, hs[..|hs| - 1], t);
    }
  }

  /** Every item that passes the test is at one of the origins. */
  lemma {:induction false} PickOriginsComplete(s: Store, hs: seq<Handle>, t: Test)
    requires forall i :: 0 <= i < |hs| ==> hs[i] in s.heap
    ensures forall i :: 0 <= i < |hs| && Passes(t, s.heap[hs[i]]) ==> i in PickOrigins(s, hs, t)
  {
    if |hs| > 0 {
      var n := |hs|;
      PickOriginsComplete(s, hs[..n - 1], t);
      assert forall i :: 0 <= i < n - 1 ==> hs[i] == hs[..n - 1][i];
    }
  }

  /** `Pick` keeps exactly the items that pass, each occurrence once, in
      list order: picked item `j` is item `o[j]`, the positions strictly
      increase, and every item that passes is at one of them. */
  lemma PickInOrder(s: Store, hs: seq<Handle>, t: Test)
    requires forall i :: 0 <= i < |hs| ==> hs[i] in s.heap
    ensures var r := Pick(s, hs, t);
            var o := PickOrigins(s, hs, t);
            && |o| == |r|
            && (forall j :: 0 <= j < |o| ==> hs[o[j]] == r[j])
            && (forall j, j' :: 0 <= j < j' < |o| ==> o[j] < o[j'])
            && (forall i :: 0 <= i < |hs| && Passes(t, s.heap[hs[i]]) ==> i in o)
  {
    PickOriginsMatch(s, hs, t);
    PickOriginsIncreasing(s, hs, t);
    PickOriginsComplete(s, hs, t);
  }

  /** No item passes: nothing is kept. */
  lemma {:induction false} PickNone(s: Store, hs: seq<Handle>, t: Test)
    requires forall i :: 0 <= i < |hs| ==> hs[i] in s.heap && !Passes(t, s.heap[hs[i]])
    ensures Pick(s, hs, t) == []
  {
    if |hs| > 0 {
      PickNone(s, hs[..|hs| - 1], t);
    }
  }

  /** One more item is kept at the end exactly when it passes. */
  lemma PickSnoc(s: Store, hs: seq<Handle>, h: Handle, t: Test)
    requires forall i :: 0 <= i < |hs| ==> hs[i] in s.heap
    requires h in s.heap
    ensures Pick(s, hs + [h], t) == Pick(s, hs, t) + (if Passes(t, s.heap[h]) then [h] else [])
  {
    Text.Snoc(hs, h);
  }

  /** Every item can be updated: it has a `dbid` and its row can be built. */
  predicate Updatable(s: Store, ks: seq<Handle>, k: string)
  {
    && k in s.columns
    && forall j :: 0 <= j < |ks| ==>
         && ks[j] in s.heap && s.heap[ks[j]].dbid.Some?
         && Resolvable(s.registry, s.columns[k], s.heap[ks[j]].fields)
  }

  /** The update arguments of each item, in list order. */
  function UpdateArgsOf(s: Store, ks: seq<Handle>, k: string): (r: seq<seq<Value>>)
    requires Updatable(s, ks, k)
    ensures |r| == |ks|
    ensures forall j :: 0 <= j < |ks| ==>
      r[j] == UpdateArgs(s.registry, s.columns[k], s.heap[ks[j]].fields, s.heap[ks[j]].dbid.value)
  {
    seq(|ks|, j requires 0 <= j < |ks| =>
      UpdateArgs(s.registry, s.columns[k], s.heap[ks[j]].fields, s.heap[ks[j]].dbid.value))
  }

  lemma UpdateArgsOfSnoc(s: Store, ks: seq<Handle>, h: Handle, k: string)
    requires Updatable(s, ks, k)
    requires h in s.heap && s.heap[h].dbid.Some? && Resolvable(s.registry, s.columns[k], s.heap[h].fields)
    ensures Updatable(s, ks + [h], k)
    ensures UpdateArgsOf(s, ks + [h], k) ==
      UpdateArgsOf(s, ks, k) + [UpdateArgs(s.registry, s.columns[k], s.heap[h].fields, s.heap[h].dbid.value)]
  {
    assert forall j :: 0 <= j < |ks| ==> (ks + [h])[j] == ks[j];
  }

  /** What `Update` on each item, in list order, sends: the update, the
      lists and the commit if asked. */
  function UpdateStatements(s: Store, ks: seq<Handle>, k: string, commit: bool): (r: seq<Statement>)
    requires Ready(s, k) && Updatable(s, ks, k)
    ensures |r| == |ks| * (2 + |CommitIf(commit)|)
  {
    if |ks| == 0 then []
    else
      var n := |ks|;
      var h := ks[n - 1];
      var t := s.tableNames[k];
      var args := UpdateArgs(s.registry, s.columns[k], s.heap[h].fields, s.heap[h].dbid.value);
      assert Updatable(s, ks[..n - 1], k);
      UpdateStatements(s, ks[..n - 1], k, commit) + ([Execute(UpdateCommand(t, s.columns[k]), args), ListsUpdated(h)] + CommitIf(commit))
  }

  /** When the kind accepts updates, its keyed items can all be updated. */
  lemma KeyedUpdatable(s: Store, hs: seq<Handle>, k: string)
    requires ListReady(s, hs, k) && !Blocked(s, k, false)
    ensures Updatable(s, Pick(s, hs, WithKey), k)
  {
    var ks := Pick(s, hs, WithKey);
    forall j | 0 <= j < |ks|
      ensures Resolvable(s.registry, s.columns[k], s.heap[ks[j]].fields)
    {
      var i :| 0 <= i < |hs| && hs[i] == ks[j];
    }
  }

  /** The table of kind `k` after the first loop of `AddList`: untouched
      when the kind is immutable, otherwise every keyed item's update
      applied in list order. */
  function KeyedRows(s: Store, hs: seq<Handle>, k: string): seq<Row>
    requires ListReady(s, hs, k)
  {
    var t := s.tableNames[k];
    if Blocked(s, k, false) then s.tables[t]
    else
      KeyedUpdatable(s, hs, k);
      ApplyUpdates(s.tables[t], UpdateArgsOf(s, Pick(s, hs, WithKey), k))
  }

  /** What the first loop of `AddList` sends: nothing when the kind is
      immutable, otherwise each keyed item's update in list order. */
  function KeyedLog(s: Store, hs: seq<Handle>, k: string, commit: bool): seq<Statement>
    requires ListReady(s, hs, k)
  {
    if Blocked(s, k, false) then []
    else
      KeyedUpdatable(s, hs, k);
      UpdateStatements(s, Pick(s, hs, WithKey), k, commit)
  }

  /** The first loop of `AddList`: each keyed item, in list order, goes to
      `Update` without `force`. Keys, the cache and the row counts do not
      change; the kind's table takes the keyed items' updates in list order
      and the log their statements, unless the kind is immutable. */
  function UpdateKeyed(s: Store, hs: seq<Handle>, k: string, commit: bool): (r: Store)
    requires Valid(s) && ListReady(s, hs, k)
    ensures Valid(r) && Preserves(s, r)
    ensures r.heap == s.heap && r.cache == s.cache
    ensures forall u :: u in s.tables ==> |r.tables[u]| == |s.tables[u]|
    ensures Blocked(s, k, false) ==> r == s
    ensures r.tables == s.tables[s.tableNames[k] := KeyedRows(s, hs, k)]
    ensures r.log == s.log + KeyedLog(s, hs, k, commit)
    decreases |hs|
  {
    if |hs| == 0 then
      KeyedNone(s, hs, k, commit);
      s
    else
      var n := |hs|;
      ListReadyPrefix(s, hs, k, n - 1);
      var s1 := UpdateKeyed(s, hs[..n - 1], k, commit);
      var r := UpdateIfKeyed(s1, hs[n - 1], k, commit);
      PreservesTransitive(s, s1, r);
      KeyedStepEffect(s, hs, k, commit, s1, r);
      r
  }

  /** One round of the first loop of `AddList`: `Update` without `force`
      when the item is keyed, nothing otherwise. */
  function UpdateIfKeyed(s: Store, h: Handle, k: string, commit: bool): (r: Store)
    requires Valid(s) && Ready(s, k) && h in s.heap && s.heap[h].kind == k
    requires (Keyed(s.heap[h]) && Blocked(s, k, false)) || Resolvable(s.registry, s.columns[k], s.heap[h].fields)
    ensures Valid(r) && Preserves(s, r)
    ensures r.heap == s.heap && r.cache == s.cache
    ensures forall u :: u in s.tables ==> |r.tables[u]| == |s.tables[u]|
    ensures !(Keyed(s.heap[h]) && !Blocked(s, k, false)) ==> r == s
    ensures Keyed(s.heap[h]) && !Blocked(s, k, false) ==>
      var t := s.tableNames[k];
      var a := UpdateArgs(s.registry, s.columns[k], s.heap[h].fields, s.heap[h].dbid.value);
      && r.tables == s.tables[t := ApplyUpdate(s.tables[t], a)]
      && r.log == s.log + ([Execute(UpdateCommand(t, s.columns[k]), a), ListsUpdated(h)] + CommitIf(commit))
  {
    if Keyed(s.heap[h]) then Update(s, h, false, commit) else s
  }

  /** The table and the log after one more round of the first loop. */
  lemma KeyedStepEffect(s: Store, hs: seq<Handle>, k: string, commit: bool, s1: Store, r: Store)
    requires ListReady(s, hs, k) && |hs| > 0 && ListReady(s, hs[..|hs| - 1], k)
    requires Preserves(s, s1) && s1.heap == s.heap
    requires s1.tables == s.tables[s.tableNames[k] := KeyedRows(s, hs[..|hs| - 1], k)]
    requires s1.log == s.log + KeyedLog(s, hs[..|hs| - 1], k, commit)
    requires !(Keyed(s.heap[hs[|hs| - 1]]) && !Blocked(s, k, false)) ==> r == s1
    requires Keyed(s.heap[hs[|hs| - 1]]) && !Blocked(s, k, false) ==>
      var h := hs[|hs| - 1];
      var t := s.tableNames[k];
      var a := UpdateArgs(s.registry, s.columns[k], s.heap[h].fields, s.heap[h].dbid.value);
      && r.tables == s1.tables[t := ApplyUpdate(s1.tables[t], a)]
      && r.log == s1.log + ([Execute(UpdateCommand(t, s.columns[k]), a), ListsUpdated(h)] + CommitIf(commit))
    ensures r.tables == s.tables[s.tableNames[k] := KeyedRows(s, hs, k)]
    ensures r.log == s.log + KeyedLog(s, hs, k, commit)
  {
    if Blocked(s, k, false) {
      KeyedNone(s, hs, k, commit);
      KeyedNone(s, hs[..|hs| - 1], k, commit);
    } else if Keyed(s.heap[hs[|hs| - 1]]) {
      KeyedStepTables(s, hs, k, s1, r);
      KeyedStepLog(s, hs, k, commit, s1, r);
    } else {
      KeyedSkip(s, hs, k, commit);
    }
  }

  lemma KeyedStepTables(s: Store, hs: seq<Handle>, k: string, s1: Store, r: Store)
    requires ListReady(s, hs, k) && |hs| > 0 && ListReady(s, hs[..|hs| - 1], k)
    requires Keyed(s.heap[hs[|hs| - 1]]) && !Blocked(s, k, false)
    requires s1.tables == s.tables[s.tableNames[k] := KeyedRows(s, hs[..|hs| - 1], k)]
    requires var h := hs[|hs| - 1];
             var t := s.tableNames[k];
             r.tables == s1.tables[t := ApplyUpdate(s1.tables[t], UpdateArgs(s.registry, s.columns[k], s.heap[h].fields, s.heap[h].dbid.value))]
    ensures r.tables == s.tables[s.tableNames[k] := KeyedRows(s, hs, k)]
  {
    KeyedRowsStep(s, hs, k);
  }

  lemma KeyedStepLog(s: Store, hs: seq<Handle>, k: string, commit: bool, s1: Store, r: Store)
    requires ListReady(s, hs, k) && |hs| > 0 && ListReady(s, hs[..|hs| - 1], k)
    requires Keyed(s.heap[hs[|hs| - 1]]) && !Blocked(s, k, false)
    requires s1.log == s.log + KeyedLog(s, hs[..|hs| - 1], k, commit)
    requires var h := hs[|hs| - 1];
             var t := s.tableNames[k];
             var a := UpdateArgs(s.registry, s.columns[k], s.heap[h].fields, s.heap[h].dbid.value);
             r.log == s1.log + ([Execute(UpdateCommand(t, s.columns[k]), a), ListsUpdated(h)] + CommitIf(commit))
    ensures r.log == s.log + KeyedLog(s, hs, k, commit)
  {
    var h := hs[|hs| - 1];
    var t := s.tableNames[k];
    var a := UpdateArgs(s.registry, s.columns[k], s.heap[h].fields, s.heap[h].dbid.value);
    KeyedLogStep(s, hs, k, commit);
    Text.Associative(s.log, KeyedLog(s, hs[..|hs| - 1], k, commit),
                     [Execute(UpdateCommand(t, s.columns[k]), a), ListsUpdated(h)] + CommitIf(commit));
  }

  /** An empty list, or an immutable kind: the first loop changes nothing. */
  lemma KeyedNone(s: Store, hs: seq<Handle>, k: string, commit: bool)
    requires ListReady(s, hs, k) && (|hs| == 0 || Blocked(s, k, false))
    ensures s.tables[s.tableNames[k] := KeyedRows(s, hs, k)] == s.tables
    ensures KeyedLog(s, hs, k, commit) == []
  {
  }

  /** An item without a key adds nothing to the first loop. */
  lemma KeyedSkip(s: Store, hs: seq<Handle>, k: string, commit: bool)
    requires ListReady(s, hs, k) && |hs| > 0 && !Keyed(s.heap[hs[|hs| - 1]])
    requires ListReady(s, hs[..|hs| - 1], k)
    ensures KeyedRows(s, hs, k) == KeyedRows(s, hs[..|hs| - 1], k)
    ensures KeyedLog(s, hs, k, commit) == KeyedLog(s, hs[..|hs| - 1], k, commit)
  {
    assert Pick(s, hs, WithKey) == Pick(s, hs[..|hs| - 1], WithKey);
  }

  lemma KeyedRowsStep(s: Store, hs: seq<Handle>, k: string)
    requires ListReady(s, hs, k) && |hs| > 0 && !Blocked(s, k, false)
    requires ListReady(s, hs[..|hs| - 1], k) && Keyed(s.heap[hs[|hs| - 1]])
    ensures var h := hs[|hs| - 1];
            KeyedRows(s, hs, k) ==
              ApplyUpdate(KeyedRows(s, hs[..|hs| - 1], k), UpdateArgs(s.registry, s.columns[k], s.heap[h].fields, s.heap[h].dbid.value))
  {
    var n := |hs|;
    var h := hs[n - 1];
    var ks := Pick(s, hs[..n - 1], WithKey);
    assert Pick(s, hs, WithKey) == ks + [h];
    KeyedUpdatable(s, hs[..n - 1], k);
    KeyedUpdatable(s, hs, k);
    var a := UpdateArgs(s.registry, s.columns[k], s.heap[h].fields, s.heap[h].dbid.value);
    UpdateArgsOfSnoc(s, ks, h, k);
    ApplyUpdatesSnoc(s.tables[s.tableNames[k]], UpdateArgsOf(s, ks, k), a);
  }

  lemma KeyedLogStep(s: Store, hs: seq<Handle>, k: string, commit: bool)
    requires ListReady(s, hs, k) && |hs| > 0 && !Blocked(s, k, false)
    requires ListReady(s, hs[..|hs| - 1], k) && Keyed(s.heap[hs[|hs| - 1]])
    ensures var h := hs[|hs| - 1];
            var a := UpdateArgs(s.registry, s.columns[k], s.heap[h].fields, s.heap[h].dbid.value);
            KeyedLog(s, hs, k, commit) ==
              KeyedLog(s, hs[..|hs| - 1], k, commit) + ([Execute(UpdateCommand(s.tableNames[k], s.columns[k]), a), ListsUpdated(h)] + CommitIf(commit))
  {
    var n := |hs|;
    var h := hs[n - 1];
    var ks := Pick(s, hs[..n - 1], WithKey);
    assert Pick(s, hs, WithKey) == ks + [h];
    KeyedUpdatable(s, hs[..n - 1], k);
    KeyedUpdatable(s, hs, k);
    Text.Snoc(ks, h);
  }

  /** The items `AddList` inserts: those without a key, in list order. */
  function Fresh(s: Store, hs: seq<Handle>): seq<Handle>
    requires forall i :: 0 <= i < |hs| ==> hs[i] in s.heap
  {
    Pick(s, hs, WithoutKey)
  }

  /** What the numbering loop of `AddList` leaves behind, from `s` to `r`:
      item `i` is cached under `i` in bucket `k`, holds key `i` unless it
      comes again later in the list, and other instances and buckets are as
      they were. */
  predicate KeysAssigned(s: Store, r: Store, fs: seq<Handle>, k: string)
  {
    && k in r.cache
    && (forall i :: 0 <= i < |fs| ==> i in r.cache[k] && r.cache[k][i] == fs[i])
    && (forall i {:trigger LastAt(fs, i)} :: 0 <= i < |fs| && LastAt(fs, i) ==> fs[i] in r.heap && r.heap[fs[i]].dbid == Some(i))
    && (forall g :: g in s.heap && g !in fs ==> g in r.heap && r.heap[g] == s.heap[g])
    && (forall j :: j in s.cache && j != k ==> j in r.cache && r.cache[j] == s.cache[j])
  }

  /** The second loop of `AddList`: the `i`-th fresh item gets key `i` and is
      cached under it, whatever the table already holds. */
  function AssignKeys(s: Store, fs: seq<Handle>, k: string): (r: Store)
    requires Valid(s) && k in s.cache && OfKind(s, fs, k)
    ensures Valid(r) && Preserves(s, r)
    ensures r.tables == s.tables && r.log == s.log
    ensures KeysAssigned(s, r, fs, k)
    decreases |fs|
  {
    if |fs| == 0 then s
    else
      var n := |fs|;
      var init := fs[..n - 1];
      assert OfKind(s, init, k) by {
        assert forall i :: 0 <= i < n - 1 ==> init[i] == fs[i];
      }
      var s1 := AssignKeys(s, init, k);
      assert fs[n - 1] in s1.heap && s1.heap[fs[n - 1]].kind in s1.cache;
      var r := Bind(s1, fs[n - 1], n - 1);
      PreservesTransitive(s, s1, r);
      assert forall i :: 0 <= i < n ==> fs[i] in s1.heap by {
        assert s1.heap.Keys == s.heap.Keys;
      }
      AssignStep(s, s1, r, fs, k);
      r
  }

  /** One more round of the numbering loop: `r` is `s1` with the last item
      bound to the last number. */
  lemma AssignStep(s: Store, s1: Store, r: Store, fs: seq<Handle>, k: string)
    requires |fs| > 0 && KeysAssigned(s, s1, fs[..|fs| - 1], k) && k in r.cache
    requires forall i :: 0 <= i < |fs| ==> fs[i] in s1.heap
    requires fs[|fs| - 1] in r.heap && r.heap[fs[|fs| - 1]].dbid == Some(|fs| - 1)
    requires forall g :: g in s1.heap && g != fs[|fs| - 1] ==> g in r.heap && r.heap[g] == s1.heap[g]
    requires |fs| - 1 in r.cache[k] && r.cache[k][|fs| - 1] == fs[|fs| - 1]
    requires forall e :: e in s1.cache[k] && e != |fs| - 1 ==> e in r.cache[k] && r.cache[k][e] == s1.cache[k][e]
    requires forall j :: j in s1.cache && j != k ==> j in r.cache && r.cache[j] == s1.cache[j]
    ensures KeysAssigned(s, r, fs, k)
  {
    var n := |fs|;
    KeysStep(fs, s1.heap, r.heap);
    CachedStep(fs, s1.cache[k], r.cache[k]);
    forall g | g in s.heap && g !in fs
      ensures g in r.heap && r.heap[g] == s.heap[g]
    {
      assert g !in fs[..n - 1];
    }
  }

  /** Numbering one more item keeps the keys of the items before it that
      do not come again. */
  lemma KeysStep(fs: seq<Handle>, before: map<Handle, Instance>, after: map<Handle, Instance>)
    requires |fs| > 0 && forall i :: 0 <= i < |fs| ==> fs[i] in before
    requires var init := fs[..|fs| - 1];
             forall i {:trigger LastAt(init, i)} :: 0 <= i < |init| && LastAt(init, i) ==> before[init[i]].dbid == Some(i)
    requires fs[|fs| - 1] in after && after[fs[|fs| - 1]].dbid == Some(|fs| - 1)
    requires forall g :: g in before && g != fs[|fs| - 1] ==> g in after && after[g] == before[g]
    ensures forall i {:trigger LastAt(fs, i)} :: 0 <= i < |fs| && LastAt(fs, i) ==> fs[i] in after && after[fs[i]].dbid == Some(i)
  {
    var n := |fs|;
    var init := fs[..n - 1];
    forall i | LastAt(fs, i)
      ensures after[fs[i]].dbid == Some(i)
    {
      if i < n - 1 {
        assert fs[n - 1] == fs[i + 1..][n - 2 - i];
        assert init[i] == fs[i];
        assert init[i + 1..] == fs[i + 1..n - 1];
        assert LastAt(init, i);
      }
    }
  }

  /** Caching one more item under the next number keeps the entries for
      the numbers before it. */
  lemma CachedStep(fs: seq<Handle>, before: map<int, Handle>, after: map<int, Handle>)
    requires |fs| > 0
    requires forall i :: 0 <= i < |fs| - 1 ==> i in before && before[i] == fs[i]
    requires |fs| - 1 in after && after[|fs| - 1] == fs[|fs| - 1]
    requires forall e :: e in before && e != |fs| - 1 ==> e in after && after[e] == before[e]
    ensures forall i :: 0 <= i < |fs| ==> i in after && after[i] == fs[i]
  {
  }

  /** The rows `AddList` inserts: fresh item `i` with key `i`. */
  function FreshRows(s: Store, fs: seq<Handle>, k: string): (r: seq<Row>)
    requires OfKind(s, fs, k) && k in s.columns && AllResolvable(s, fs, k)
    ensures |r| == |fs|
    ensures forall i :: 0 <= i < |fs| ==> r[i] == InsertRow(s.registry, s.columns[k], s.heap[fs[i]].fields, i)
  {
    seq(|fs|, i requires 0 <= i < |fs| => InsertRow(s.registry, s.columns[k], s.heap[fs[i]].fields, i))
  }

  function ListsAddedAll(hs: seq<Handle>): (r: seq<Statement>)
    ensures |r| == |hs| && forall i :: 0 <= i < |hs| ==> r[i] == ListsAdded(hs[i])
  {
    seq(|hs|, i requires 0 <= i < |hs| => ListsAdded(hs[i]))
  }

  function ListsUpdatedAll(hs: seq<Handle>): (r: seq<Statement>)
    ensures |r| == |hs| && forall i :: 0 <= i < |hs| ==> r[i] == ListsUpdated(hs[i])
  {
    seq(|hs|, i requires 0 <= i < |hs| => ListsUpdated(hs[i]))
  }

  /** The rows the second loop of `AddList` inserts. */
  function FreshInserts(s: Store, hs: seq<Handle>, k: string): seq<Row>
    requires ListReady(s, hs, k)
  {
    FreshOfKind(s, hs, k);
    FreshRows(s, Fresh(s, hs), k)
  }

  /** The kind's table after `AddList` of a non-empty list: the keyed
      items' updates, then the new items' rows. */
  function AddListRows(s: Store, hs: seq<Handle>, k: string): seq<Row>
    requires ListReady(s, hs, k)
  {
    KeyedRows(s, hs, k) + FreshInserts(s, hs, k)
  }

  /** What `AddList` of a non-empty list sends: the keyed items' updates,
      one batched insert of the new rows, the new items' lists and the
      commit if asked. */
  function AddListLog(s: Store, hs: seq<Handle>, k: string, commit: bool): seq<Statement>
    requires ListReady(s, hs, k)
  {
    KeyedLog(s, hs, k, commit)
    + ([ExecuteMany(InsertCommand(s.tableNames[k], |s.columns[k]|), FreshInserts(s, hs, k))] + ListsAddedAll(Fresh(s, hs)) + CommitIf(commit))
  }

  /** The precondition of `AddList`, on the kind of its first item. */
  predicate AddListReady(s: Store, hs: seq<Handle>)
  {
    |hs| > 0 ==> hs[0] in s.heap && ListReady(s, hs, s.heap[hs[0]].kind)
  }

  /** `AddList`: keyed items are updated one by one; the others are numbered
      from 0 in list order (not from the table's row count, so that keys
      collide with existing rows when the table is not empty), cached,
      inserted with one batched statement, and their lists stored. */
  function AddList(s: Store, hs: seq<Handle>, commit: bool): (r: Store)
    requires Valid(s) && AddListReady(s, hs)
    ensures Valid(r) && Preserves(s, r)
    ensures |hs| == 0 ==> r == s
    ensures |hs| > 0 ==>
      var k := s.heap[hs[0]].kind;
      var t := s.tableNames[k];
      var fs := Fresh(s, hs);
      && (forall i :: 0 <= i < |fs| ==> i in r.cache[k] && r.cache[k][i] == fs[i])
      && (forall i {:trigger LastAt(fs, i)} :: 0 <= i < |fs| && LastAt(fs, i) ==> r.heap[fs[i]].dbid == Some(i))
      && (forall g :: g in s.heap && g !in fs ==> r.heap[g] == s.heap[g])
      && |r.tables[t]| == |s.tables[t]| + |fs|
      && r.tables[t][|s.tables[t]|..] == FreshInserts(s, hs, k)
    ensures |hs| > 0 ==>
      var k := s.heap[hs[0]].kind;
      var t := s.tableNames[k];
      var fs := Fresh(s, hs);
      && r.tables == s.tables[t := KeyedRows(s, hs, k) + FreshInserts(s, hs, k)]
      && r.log == s.log + KeyedLog(s, hs, k, commit)
                  + ([ExecuteMany(InsertCommand(t, |s.columns[k]|), FreshInserts(s, hs, k))] + ListsAddedAll(fs) + CommitIf(commit))
  {
    if |hs| == 0 then s
    else
      var k := s.heap[hs[0]].kind;
      var s1 := UpdateKeyed(s, hs, k, commit);
      FreshOfKind(s, hs, k);
      var r := InsertFresh(s1, Fresh(s, hs), k, commit);
      PreservesTransitive(s, s1, r);
      AddListEffect(s, s1, r, hs, k, commit);
      r
  }

  /** The two loops of `AddList` put together: the updates of the first,
      then the batched insert of the second. */
  lemma AddListEffect(s: Store, s1: Store, r: Store, hs: seq<Handle>, k: string, commit: bool)
    requires Valid(s) && ListReady(s, hs, k)
    requires Preserves(s, s1) && s1.heap == s.heap
    requires s1.tables == s.tables[s.tableNames[k] := KeyedRows(s, hs, k)]
    requires s1.log == s.log + KeyedLog(s, hs, k, commit)
    requires OfKind(s1, Fresh(s, hs), k) && AllResolvable(s1, Fresh(s, hs), k)
    requires OfKind(s, Fresh(s, hs), k) && AllResolvable(s, Fresh(s, hs), k)
    requires var fs := Fresh(s, hs);
             && r.tables == s1.tables[s1.tableNames[k] := s1.tables[s1.tableNames[k]] + FreshRows(s1, fs, k)]
             && r.log == s1.log + ([ExecuteMany(InsertCommand(s1.tableNames[k], |s1.columns[k]|), FreshRows(s1, fs, k))] + ListsAddedAll(fs) + CommitIf(commit))
    ensures var t := s.tableNames[k];
            var fs := Fresh(s, hs);
            && r.tables == s.tables[t := KeyedRows(s, hs, k) + FreshInserts(s, hs, k)]
            && r.log == s.log + KeyedLog(s, hs, k, commit)
                        + ([ExecuteMany(InsertCommand(t, |s.columns[k]|), FreshInserts(s, hs, k))] + ListsAddedAll(fs) + CommitIf(commit))
  {
    var fs := Fresh(s, hs);
    assert FreshRows(s1, fs, k) == FreshInserts(s, hs, k);
  }

  /** The insert half of `AddList`: fresh item `i` gets key `i`, is cached
      under it, and its row is appended with key `i`; one batched insert
      carries all the rows. */
  function InsertFresh(s: Store, fs: seq<Handle>, k: string, commit: bool): (r: Store)
    requires Valid(s) && Ready(s, k) && OfKind(s, fs, k) && AllResolvable(s, fs, k)
    ensures Valid(r) && Preserves(s, r)
    ensures forall i :: 0 <= i < |fs| ==> i in r.cache[k] && r.cache[k][i] == fs[i]
    ensures forall i {:trigger LastAt(fs, i)} :: 0 <= i < |fs| && LastAt(fs, i) ==> r.heap[fs[i]].dbid == Some(i)
    ensures forall g :: g in s.heap && g !in fs ==> r.heap[g] == s.heap[g]
    ensures r.tables == s.tables[s.tableNames[k] := s.tables[s.tableNames[k]] + FreshRows(s, fs, k)]
    ensures var t := s.tableNames[k];
            r.log == s.log + ([ExecuteMany(InsertCommand(t, |s.columns[k]|), FreshRows(s, fs, k))] + ListsAddedAll(fs) + CommitIf(commit))
  {
    var t := s.tableNames[k];
    var cols := s.columns[k];
    var s1 := AssignKeys(s, fs, k);
    var rows := FreshRows(s, fs, k);
    var stmts := [ExecuteMany(InsertCommand(t, |cols|), rows)] + ListsAddedAll(fs) + CommitIf(commit);
    var r := Perform(s1, t, s.tables[t] + rows, stmts);
    PreservesTransitive(s, s1, r);
    r
  }

  /** The fresh items of a ready list are of its kind and writable. */
  lemma FreshOfKind(s: Store, hs: seq<Handle>, k: string)
    requires ListReady(s, hs, k)
    ensures OfKind(s, Fresh(s, hs), k) && AllResolvable(s, Fresh(s, hs), k)
  {
    var fs := Fresh(s, hs);
    forall j | 0 <= j < |fs|
      ensures fs[j] in s.heap && s.heap[fs[j]].kind == k
      ensures Resolvable(s.registry, s.columns[k], s.heap[fs[j]].fields)
    {
      var i :| 0 <= i < |hs| && hs[i] == fs[j];
    }
  }
}

=== FILE: batchupdate.dfy ===
/** The batched update of narwhal/sql.py, `UpdateList`: its per-item loop
    sorts the items by `dbid`, calls `AddList` on the waiting ones and
    re-sends every gathered update, in every iteration. */
module BatchUpdate {
  import opened Values
  import opened Store
  import opened Batch

  /** What the per-item loop of `UpdateList` needs: items of one kind whose
      table is ready and whose rows can all be built. */
  predicate BatchReady(s: Store, hs: seq<Handle>, k: string)
  {
    Ready(s, k) && OfKind(s, hs, k) && AllResolvable(s, hs, k)
  }

  /** Every argument tuple has `n` values. */
  predicate Sized(args: seq<seq<Value>>, n: nat)
  {
    forall j :: 0 <= j < |args| ==> |args[j]| == n
  }

  lemma BatchReadyStep(s: Store, gs: seq<Handle>, next: seq<Handle>, h: Handle, k: string)
    requires BatchReady(s, gs, k)
    requires h in s.heap && s.heap[h].kind == k && Resolvable(s.registry, s.columns[k], s.heap[h].fields)
    requires next == gs || next == gs + [h]
    ensures BatchReady(s, next, k)
  {
  }

  lemma BatchReadyPrefix(s: Store, hs: seq<Handle>, k: string, n: nat)
    requires BatchReady(s, hs, k) && n <= |hs|
    ensures BatchReady(s, hs[..n], k)
  {
    assert forall i :: 0 <= i < n ==> hs[..n][i] == hs[i];
  }

  lemma BatchReadyPreserved(s: Store, r: Store, hs: seq<Handle>, k: string)
    requires BatchReady(s, hs, k) && Preserves(s, r)
    ensures BatchReady(r, hs, k)
  {
    assert OfKind(r, hs, k) by {
      forall i | 0 <= i < |hs|
        ensures hs[i] in r.heap && r.heap[hs[i]].kind == k
      {
        assert hs[i] in s.heap && s.heap[hs[i]].kind == k;
        assert forall h :: h in s.heap ==> r.heap[h].kind == s.heap[h].kind;
      }
    }
    forall i | 0 <= i < |hs|
      ensures Resolvable(r.registry, r.columns[k], r.heap[hs[i]].fields)
    {
      assert hs[i] in s.heap;
      assert forall h :: h in s.heap ==> r.heap[h].fields == s.heap[h].fields;
    }
  }

  /** A ready batch is a list `AddList` accepts. */
  lemma BatchAddListReady(s: Store, gs: seq<Handle>, k: string)
    requires BatchReady(s, gs, k)
    ensures AddListReady(s, gs)
  {
  }

  /** The state the loop of `UpdateList` carries from item to item: the
      store, the update arguments gathered so far, the items they belong to,
      and the items without a key, waiting for `AddList`. */
  datatype Pass = Pass(store: Store, args: seq<seq<Value>>, updated: seq<Handle>, pending: seq<Handle>)

  /** The first half of one iteration of the loop of `UpdateList`: the
      item joins the updates if it has a `dbid` (the sentinel included) and
      the waiting list otherwise. */
  function Gather(p: Pass, h: Handle, k: string): (q: Pass)
    requires Ready(p.store, k) && h in p.store.heap
    requires Resolvable(p.store.registry, p.store.columns[k], p.store.heap[h].fields)
    requires Sized(p.args, |p.store.columns[k]| + 1) && |p.args| == |p.updated|
    ensures q.store == p.store
    ensures Sized(q.args, |p.store.columns[k]| + 1) && |q.args| == |q.updated|
    ensures |q.updated| + |q.pending| == |p.updated| + |p.pending| + 1
    ensures p.store.heap[h].dbid.Some? ==>
      && q.updated == p.updated + [h] && q.pending == p.pending
      && q.args == p.args + [UpdateArgs(p.store.registry, p.store.columns[k], p.store.heap[h].fields, p.store.heap[h].dbid.value)]
    ensures p.store.heap[h].dbid.None? ==> q.updated == p.updated && q.pending == p.pending + [h] && q.args == p.args
  {
    var st := p.store;
    if st.heap[h].dbid.Some? then
      p.(args := p.args + [UpdateArgs(st.registry, st.columns[k], st.heap[h].fields, st.heap[h].dbid.value)],
         updated := p.updated + [h])
    else p.(pending := p.pending + [h])
  }

  /** One iteration of the loop of `UpdateList`: the item is gathered;
      then, still inside the loop, every waiting item goes to `AddList`,
      every gathered update is sent again as one batch, the lists of every
      updated item are stored and the change committed if asked. */
  function UpdateStep(p: Pass, h: Handle, k: string, commit: bool): (q: Pass)
    requires Valid(p.store) && Ready(p.store, k)
    requires h in p.store.heap && p.store.heap[h].kind == k
    requires Resolvable(p.store.registry, p.store.columns[k], p.store.heap[h].fields)
    requires BatchReady(p.store, p.pending, k)
    requires Sized(p.args, |p.store.columns[k]| + 1) && |p.args| == |p.updated|
    ensures Valid(q.store) && Preserves(p.store, q.store)
    ensures q.(store := p.store) == Gather(p, h, k)
    ensures forall g :: g in p.store.heap && g !in q.pending ==> q.store.heap[g] == p.store.heap[g]
    ensures var t := p.store.tableNames[k];
            q.pending == [] ==>
              && q.store.heap == p.store.heap && q.store.cache == p.store.cache
              && q.store.tables == p.store.tables[t := ApplyUpdates(p.store.tables[t], q.args)]
              && q.store.log == p.store.log + ([ExecuteMany(UpdateCommand(t, p.store.columns[k]), q.args)] + ListsUpdatedAll(q.updated) + CommitIf(commit))
  {
    var st := p.store;
    var g := Gather(p, h, k);
    BatchReadyStep(st, p.pending, g.pending, h, k);
    BatchAddListReady(st, g.pending, k);
    var s1 := AddList(st, g.pending, commit);
    var s2 := UpdateFlush(s1, k, g.args, g.updated, commit);
    PreservesTransitive(st, s1, s2);
    g.(store := s2)
  }

  /** An iteration in which items wait: the kind's table takes `AddList`'s
      rows for them and then every gathered update, and the log gains
      `AddList`'s statements and then the batch's. */
  lemma UpdateStepWaiting(p: Pass, h: Handle, k: string, commit: bool)
    requires Valid(p.store) && Ready(p.store, k)
    requires h in p.store.heap && p.store.heap[h].kind == k
    requires Resolvable(p.store.registry, p.store.columns[k], p.store.heap[h].fields)
    requires BatchReady(p.store, p.pending, k)
    requires Sized(p.args, |p.store.columns[k]| + 1) && |p.args| == |p.updated|
    ensures var q := UpdateStep(p, h, k, commit);
            q.pending != [] ==> BatchReady(p.store, q.pending, k) && WaitingDone(p.store, q, k, commit)
  {
    var st := p.store;
    var g := Gather(p, h, k);
    StepStore(p, h, k, commit);
    if g.pending != [] {
      WaitingAfter(st, g, k, commit);
    }
  }

  /** `WaitingEffect` for the gathered state `g` of an iteration. */
  lemma WaitingAfter(st: Store, g: Pass, k: string, commit: bool)
    requires Valid(st) && Ready(st, k) && BatchReady(st, g.pending, k) && g.pending != []
    requires Sized(g.args, |st.columns[k]| + 1)
    ensures AddListReady(st, g.pending)
    ensures WaitingDone(st, g.(store := UpdateFlush(AddList(st, g.pending, commit), k, g.args, g.updated, commit)), k, commit)
  {
    BatchAddListReady(st, g.pending, k);
    var s1 := AddList(st, g.pending, commit);
    var s2 := UpdateFlush(s1, k, g.args, g.updated, commit);
    assert st.heap[g.pending[0]].kind == k;
    WaitingEffect(st, g.pending, k, commit, s1, s2, g.args, g.updated);
  }

  /** An iteration's store is the batched update applied after `AddList`
      of the waiting items. */
  lemma StepStore(p: Pass, h: Handle, k: string, commit: bool)
    requires Valid(p.store) && Ready(p.store, k)
    requires h in p.store.heap && p.store.heap[h].kind == k
    requires Resolvable(p.store.registry, p.store.columns[k], p.store.heap[h].fields)
    requires BatchReady(p.store, p.pending, k)
    requires Sized(p.args, |p.store.columns[k]| + 1) && |p.args| == |p.updated|
    ensures var g := Gather(p, h, k);
            && BatchReady(p.store, g.pending, k) && AddListReady(p.store, g.pending)
            && UpdateStep(p, h, k, commit).store
               == UpdateFlush(AddList(p.store, g.pending, commit), k, g.args, g.updated, commit)
  {
    var g := Gather(p, h, k);
    BatchReadyStep(p.store, p.pending, g.pending, h, k);
    BatchAddListReady(p.store, g.pending, k);
  }

  /** The iteration `q` from `st`, in which items wait: the kind's table is
      `AddList`'s rows for the waiting items with every gathered update
      applied after them, and the log is `AddList`'s statements followed by
      the batched update, the updated items' list hooks and the optional
      commit. */
  predicate WaitingDone(st: Store, q: Pass, k: string, commit: bool)
  {
    && ListReady(st, q.pending, k)
    && (forall j :: 0 <= j < |q.args| ==> |q.args[j]| > 0)
    && var t := st.tableNames[k];
       && q.store.tables == st.tables[t := ApplyUpdates(AddListRows(st, q.pending, k), q.args)]
       && q.store.log == st.log + AddListLog(st, q.pending, k, commit)
                         + ([ExecuteMany(UpdateCommand(t, st.columns[k]), q.args)] + ListsUpdatedAll(q.updated) + CommitIf(commit))
  }

  /** The `AddList` call and the batched update of one iteration in which
      items wait: the table takes `AddList`'s rows and then the batch, and
      the log `AddList`'s statements and then the batch's. */
  lemma WaitingEffect(st: Store, pending: seq<Handle>, k: string, commit: bool, s1: Store, s2: Store,
                      args: seq<seq<Value>>, updated: seq<Handle>)
    requires ListReady(st, pending, k)
    requires forall j :: 0 <= j < |args| ==> |args[j]| > 0
    requires var t := st.tableNames[k];
             && s1.tables == st.tables[t := KeyedRows(st, pending, k) + FreshInserts(st, pending, k)]
             && s1.log == st.log + KeyedLog(st, pending, k, commit)
                          + ([ExecuteMany(InsertCommand(t, |st.columns[k]|), FreshInserts(st, pending, k))] + ListsAddedAll(Fresh(st, pending)) + CommitIf(commit))
    requires var t := st.tableNames[k];
             && s2.tables == s1.tables[t := ApplyUpdates(s1.tables[t], args)]
             && s2.log == s1.log + ([ExecuteMany(UpdateCommand(t, st.columns[k]), args)] + ListsUpdatedAll(updated) + CommitIf(commit))
    ensures var t := st.tableNames[k];
            && s2.tables == st.tables[t := ApplyUpdates(AddListRows(st, pending, k), args)]
            && s2.log == st.log + AddListLog(st, pending, k, commit)
                         + ([ExecuteMany(UpdateCommand(t, st.columns[k]), args)] + ListsUpdatedAll(updated) + CommitIf(commit))
  {
    Text.Associative(st.log, KeyedLog(st, pending, k, commit),
      [ExecuteMany(InsertCommand(st.tableNames[k], |st.columns[k]|), FreshInserts(st, pending, k))] + ListsAddedAll(Fresh(st, pending)) + CommitIf(commit));
  }

  /** The tail of one iteration: the gathered updates sent as one batch,
      the engine applying them in order, the updated items' lists stored. */
  function UpdateFlush(s: Store, k: string, args: seq<seq<Value>>, updated: seq<Handle>, commit: bool): (r: Store)
    requires Valid(s) && Ready(s, k)
    requires Sized(args, |s.columns[k]| + 1)
    ensures Valid(r) && Preserves(s, r) && r.heap == s.heap && r.cache == s.cache
    ensures var t := s.tableNames[k];
            && r.tables == s.tables[t := ApplyUpdates(s.tables[t], args)]
            && r.log == s.log + ([ExecuteMany(UpdateCommand(t, s.columns[k]), args)] + ListsUpdatedAll(updated) + CommitIf(commit))
  {
    var t := s.tableNames[k];
    Perform(s, t, ApplyUpdates(s.tables[t], args),
            [ExecuteMany(UpdateCommand(t, s.columns[k]), args)] + ListsUpdatedAll(updated) + CommitIf(commit))
  }

  /** The loop of `UpdateList` over the first `|hs|` items. */
  function UpdatePass(s: Store, hs: seq<Handle>, k: string, commit: bool): (p: Pass)
    requires Valid(s) && BatchReady(s, hs, k)
    ensures Valid(p.store) && Preserves(s, p.store)
    ensures BatchReady(s, p.pending, k)
    ensures |p.args| == |p.updated| && |p.updated| + |p.pending| == |hs|
    ensures Sized(p.args, |s.columns[k]| + 1)
    decreases |hs|
  {
    if |hs| == 0 then
      Pass(s, [], [], [])
    else
      var n := |hs|;
      BatchReadyPrefix(s, hs, k, n - 1);
      var p := UpdatePass(s, hs[..n - 1], k, commit);
      BatchReadyPreserved(s, p.store, hs, k);
      BatchReadyPreserved(s, p.store, p.pending, k);
      var q := UpdateStep(p, hs[n - 1], k, commit);
      var g := Gather(p, hs[n - 1], k);
      assert q.pending == g.pending && q.args == g.args && q.updated == g.updated;
      PreservesTransitive(s, p.store, q.store);
      BatchReadyStep(s, p.pending, q.pending, hs[n - 1], k);
      q
  }

  /** After the loop over items no one of which comes twice, the items
      with a `dbid` (the sentinel included) are exactly the updates and
      the others exactly the waiting items, both in list order; the
      gathered arguments are the updates' arguments in that order; the
      instances outside the list are untouched. */
  lemma {:induction false} UpdatePassGathered(s: Store, hs: seq<Handle>, k: string, commit: bool)
    requires Valid(s) && BatchReady(s, hs, k) && Distinct(hs)
    ensures Gathered(s, hs, k, UpdatePass(s, hs, k, commit))
    decreases |hs|
  {
    if |hs| == 0 {
      GatheredNone(s, hs, k);
    } else {
      var n := |hs|;
      BatchReadyPrefix(s, hs, k, n - 1);
      DistinctPrefix(hs);
      UpdatePassGathered(s, hs[..n - 1], k, commit);
      UpdatePassUnfold(s, hs, k, commit);
      var p := UpdatePass(s, hs[..n - 1], k, commit);
      GatheredStep(s, hs, k, p, UpdateStep(p, hs[n - 1], k, commit));
    }
  }

  /** What the loop has gathered after the items `hs`, when no item comes
      twice: the items with a `dbid` (the sentinel included) are the
      updates and the others wait, both in list order; the arguments are
      the updates' arguments; the instances the loop has not reached are
      untouched. */
  predicate Gathered(s: Store, hs: seq<Handle>, k: string, p: Pass)
    requires BatchReady(s, hs, k)
  {
    && p.updated == Pick(s, hs, WithDbid)
    && p.pending == Pick(s, hs, WithoutDbid)
    && Updatable(s, p.updated, k) && p.args == UpdateArgsOf(s, p.updated, k)
    && forall g :: g in s.heap && g !in hs ==> g in p.store.heap && p.store.heap[g] == s.heap[g]
  }

  lemma GatheredNone(s: Store, hs: seq<Handle>, k: string)
    requires BatchReady(s, hs, k) && |hs| == 0
    ensures Gathered(s, hs, k, Pass(s, [], [], []))
  {
  }

  lemma DistinctPrefix(hs: seq<Handle>)
    requires Distinct(hs) && |hs| > 0
    ensures Distinct(hs[..|hs| - 1]) && hs[|hs| - 1] !in hs[..|hs| - 1]
  {
  }

  /** One more iteration on an item the loop has not met before: it is
      gathered by the `dbid` it had at the start. */
  lemma GatheredStep(s: Store, hs: seq<Handle>, k: string, p: Pass, q: Pass)
    requires BatchReady(s, hs, k) && |hs| > 0 && Distinct(hs[..|hs| - 1]) && hs[|hs| - 1] !in hs[..|hs| - 1]
    requires BatchReady(s, hs[..|hs| - 1], k) && Gathered(s, hs[..|hs| - 1], k, p)
    requires Preserves(s, p.store) && Ready(p.store, k) && hs[|hs| - 1] in p.store.heap
    requires Resolvable(p.store.registry, p.store.columns[k], p.store.heap[hs[|hs| - 1]].fields)
    requires Sized(p.args, |p.store.columns[k]| + 1) && |p.args| == |p.updated|
    requires q.(store := p.store) == Gather(p, hs[|hs| - 1], k)
    requires forall g :: g in p.store.heap && g !in q.pending ==> g in q.store.heap && q.store.heap[g] == p.store.heap[g]
    ensures Gathered(s, hs, k, q)
  {
    var n := |hs|;
    var init := hs[..n - 1];
    var h := hs[n - 1];
    assert p.store.heap[h] == s.heap[h];
    assert q.pending == Pick(s, hs, WithoutDbid);
    if s.heap[h].dbid.Some? {
      UpdateArgsOfSnoc(s, p.updated, h, k);
    }
    forall g | g in s.heap && g !in hs
      ensures g in q.store.heap && q.store.heap[g] == s.heap[g]
    {
      assert g !in init;
      assert g !in q.pending;
    }
  }

  /** What `UpdateList` needs, on the kind of its first item: nothing more
      when that kind refuses the update. */
  predicate UpdateListReady(s: Store, hs: seq<Handle>, force: bool)
  {
    |hs| > 0 ==>
      && hs[0] in s.heap && s.heap[hs[0]].kind in s.kinds
      && (!Blocked(s, s.heap[hs[0]].kind, force) ==> BatchReady(s, hs, s.heap[hs[0]].kind))
  }

  /** `UpdateList`: nothing for an empty list or an immutable kind without
      `force`; otherwise the per-item loop. */
  function UpdateList(s: Store, hs: seq<Handle>, force: bool, commit: bool): (r: Store)
    requires Valid(s) && UpdateListReady(s, hs, force)
    ensures Valid(r) && Preserves(s, r)
    ensures |hs| == 0 ==> r == s
    ensures |hs| > 0 && Blocked(s, s.heap[hs[0]].kind, force) ==> r == s
    ensures |hs| > 0 && !Blocked(s, s.heap[hs[0]].kind, force) ==>
      r == UpdatePass(s, hs, s.heap[hs[0]].kind, commit).store
    ensures |hs| > 0 && !Blocked(s, s.heap[hs[0]].kind, force) && (forall i :: 0 <= i < |hs| ==> s.heap[hs[i]].dbid.Some?) ==>
      UpdatedInPlace(s, hs, s.heap[hs[0]].kind, r)
  {
    if |hs| == 0 then s
    else
      var k := s.heap[hs[0]].kind;
      if Blocked(s, k, force) then s
      else if forall i :: 0 <= i < |hs| ==> s.heap[hs[i]].dbid.Some? then
        AllKeyedEffect(s, hs, k, commit);
        UpdatePass(s, hs, k, commit).store
      else UpdatePass(s, hs, k, commit).store
  }

  /** The `AddList` call of an iteration, when every waiting item but the
      last already holds a key: only a last item without a key is
      inserted, as the single new item, so it gets key 0 and the table one
      row; every other instance stays as it was. */
  lemma AddListWaiting(st: Store, ws: seq<Handle>, k: string, commit: bool)
    requires Valid(st) && BatchReady(st, ws, k)
    requires forall i :: 0 <= i < |ws| - 1 ==> Keyed(st.heap[ws[i]])
    ensures AddListReady(st, ws)
    ensures var r := AddList(st, ws, commit);
            var t := st.tableNames[k];
            var isNew := |ws| > 0 && !Keyed(st.heap[ws[|ws| - 1]]);
            && |r.tables[t]| == |st.tables[t]| + (if isNew then 1 else 0)
            && (forall g :: g in st.heap && !(isNew && g == ws[|ws| - 1]) ==> r.heap[g] == st.heap[g])
            && (isNew ==> r.heap[ws[|ws| - 1]].dbid == Some(0))
  {
    BatchAddListReady(st, ws, k);
    FreshWaiting(st, ws);
    if |ws| > 0 {
      assert st.heap[ws[0]].kind == k;
      var fs := Fresh(st, ws);
      if |fs| > 0 {
        assert LastAt(fs, 0);
      }
    }
  }

  /** Waiting items of which all but the last hold a key: `AddList` finds
      at most that last item new. */
  lemma FreshWaiting(st: Store, ws: seq<Handle>)
    requires forall i :: 0 <= i < |ws| ==> ws[i] in st.heap
    requires forall i :: 0 <= i < |ws| - 1 ==> Keyed(st.heap[ws[i]])
    ensures Fresh(st, ws) == if |ws| > 0 && !Keyed(st.heap[ws[|ws| - 1]]) then [ws[|ws| - 1]] else []
  {
    if |ws| > 0 {
      var n := |ws|;
      var init := ws[..n - 1];
      assert ws == init + [ws[n - 1]];
      PickNone(st, init, WithoutKey);
      PickSnoc(st, init, ws[n - 1], WithoutKey);
    }
  }

  /** The keys an item list holds after the loop of `UpdateList` in `r`:
      an item that had no `dbid` holds key 0, any other item its old
      `dbid`. */
  predicate KeysAfterPass(s: Store, hs: seq<Handle>, r: Store)
    requires forall i :: 0 <= i < |hs| ==> hs[i] in s.heap
  {
    forall i :: 0 <= i < |hs| ==>
      hs[i] in r.heap && r.heap[hs[i]].dbid == (if s.heap[hs[i]].dbid.None? then Some(0) else s.heap[hs[i]].dbid)
  }

  /** Over items no one of which comes twice, the loop inserts every item
      that had no `dbid` exactly once, in the iteration that reaches it:
      the `AddList` call there sees it as the only new item, because the
      earlier waiting items already hold keys. So it ends with key 0, the
      other items keep their `dbid`, and the table grows by one row per
      such item. */
  lemma {:induction false} UpdatePassInserts(s: Store, hs: seq<Handle>, k: string, commit: bool)
    requires Valid(s) && BatchReady(s, hs, k) && Distinct(hs)
    ensures var p := UpdatePass(s, hs, k, commit);
            var t := s.tableNames[k];
            && KeysAfterPass(s, hs, p.store)
            && |p.store.tables[t]| == |s.tables[t]| + |Pick(s, hs, WithoutDbid)|
    decreases |hs|
  {
    if |hs| > 0 {
      var n := |hs|;
      var init := hs[..n - 1];
      BatchReadyPrefix(s, hs, k, n - 1);
      DistinctPrefix(hs);
      UpdatePassInserts(s, init, k, commit);
      UpdatePassUnfold(s, hs, k, commit);
      UpdatePassGathered(s, init, k, commit);
      var p := UpdatePass(s, init, k, commit);
      var h := hs[n - 1];
      assert p.store.heap[h] == s.heap[h];
      WaitingKeyed(s, init, p.store);
      StepInserts(p, h, k, commit);
      InsertsStep(s, hs, s.tableNames[k], p.store, UpdatePass(s, hs, k, commit).store);
    }
  }

  /** One iteration of `UpdatePassInserts`, from the store `st` the loop
      over all items but the last leaves to the store `r` the iteration on
      the last leaves. */
  lemma InsertsStep(s: Store, hs: seq<Handle>, t: string, st: Store, r: Store)
    requires |hs| > 0 && forall i :: 0 <= i < |hs| ==> hs[i] in s.heap
    requires hs[|hs| - 1] !in hs[..|hs| - 1]
    requires KeysAfterPass(s, hs[..|hs| - 1], st)
    requires t in s.tables && t in st.tables && t in r.tables
    requires |st.tables[t]| == |s.tables[t]| + |Pick(s, hs[..|hs| - 1], WithoutDbid)|
    requires var h := hs[|hs| - 1];
             var isNew := s.heap[h].dbid.None?;
             && h in st.heap && st.heap[h] == s.heap[h]
             && |r.tables[t]| == |st.tables[t]| + (if isNew then 1 else 0)
             && (forall g :: g in st.heap && !(isNew && g == h) ==> g in r.heap && r.heap[g] == st.heap[g])
             && (isNew ==> h in r.heap && r.heap[h].dbid == Some(0))
    ensures KeysAfterPass(s, hs, r)
    ensures |r.tables[t]| == |s.tables[t]| + |Pick(s, hs, WithoutDbid)|
  {
    var n := |hs|;
    var init := hs[..n - 1];
    var h := hs[n - 1];
    forall i | 0 <= i < n
      ensures hs[i] in r.heap
      ensures r.heap[hs[i]].dbid == (if s.heap[hs[i]].dbid.None? then Some(0) else s.heap[hs[i]].dbid)
    {
      if i < n - 1 {
        assert hs[i] == init[i] && hs[i] != h;
      }
    }
  }

  /** After the loop over `hs`, every waiting item holds a key. */
  lemma WaitingKeyed(s: Store, hs: seq<Handle>, r: Store)
    requires forall i :: 0 <= i < |hs| ==> hs[i] in s.heap
    requires KeysAfterPass(s, hs, r)
    ensures forall i :: 0 <= i < |Pick(s, hs, WithoutDbid)| ==> Keyed(r.heap[Pick(s, hs, WithoutDbid)[i]])
  {
    var ws := Pick(s, hs, WithoutDbid);
    forall i | 0 <= i < |ws|
      ensures Keyed(r.heap[ws[i]])
    {
      var j :| 0 <= j < |hs| && hs[j] == ws[i];
    }
  }

  /** One iteration while every waiting item holds a key: an item without
      `dbid` is inserted alone with key 0 and adds one row; every other
      instance stays as it was. */
  lemma StepInserts(p: Pass, h: Handle, k: string, commit: bool)
    requires Valid(p.store) && Ready(p.store, k)
    requires h in p.store.heap && p.store.heap[h].kind == k
    requires Resolvable(p.store.registry, p.store.columns[k], p.store.heap[h].fields)
    requires BatchReady(p.store, p.pending, k)
    requires Sized(p.args, |p.store.columns[k]| + 1) && |p.args| == |p.updated|
    requires forall i :: 0 <= i < |p.pending| ==> Keyed(p.store.heap[p.pending[i]])
    ensures var q := UpdateStep(p, h, k, commit);
            var st := p.store;
            var t := st.tableNames[k];
            var isNew := st.heap[h].dbid.None?;
            && |q.store.tables[t]| == |st.tables[t]| + (if isNew then 1 else 0)
            && (forall g :: g in st.heap && !(isNew && g == h) ==> g in q.store.heap && q.store.heap[g] == st.heap[g])
            && (isNew ==> h in q.store.heap && q.store.heap[h].dbid == Some(0))
  {
    var st := p.store;
    var g := Gather(p, h, k);
    assert forall i :: 0 <= i < |g.pending| - 1 ==> g.pending[i] == p.pending[i];
    BatchReadyStep(st, p.pending, g.pending, h, k);
    AddListWaiting(st, g.pending, k, commit);
  }

  /** `UpdateList` over items no one of which comes twice, when the kind
      accepts the update: every item that had no `dbid` ends with key 0,
      every other item keeps its `dbid`, instances outside the list are
      untouched, and the kind's table grows by one row per item that had
      no `dbid`. */
  lemma UpdateListInsertsNew(s: Store, hs: seq<Handle>, force: bool, commit: bool)
    requires Valid(s) && |hs| > 0 && UpdateListReady(s, hs, force) && Distinct(hs)
    requires !Blocked(s, s.heap[hs[0]].kind, force)
    ensures var k := s.heap[hs[0]].kind;
            var r := UpdateList(s, hs, force, commit);
            var t := s.tableNames[k];
            && KeysAfterPass(s, hs, r)
            && (forall g :: g in s.heap && g !in hs ==> g in r.heap && r.heap[g] == s.heap[g])
            && |r.tables[t]| == |s.tables[t]| + |Pick(s, hs, WithoutDbid)|
  {
    var k := s.heap[hs[0]].kind;
    UpdatePassInserts(s, hs, k, commit);
    UpdatePassGathered(s, hs, k, commit);
  }

  /** No instance, no cache entry and no table length changes. */
  predicate SameShape(s: Store, r: Store)
  {
    && r.heap == s.heap && r.cache == s.cache && r.tables.Keys == s.tables.Keys
    && forall u :: u in s.tables ==> |r.tables[u]| == |s.tables[u]|
  }

  lemma SameShapeTransitive(s: Store, t: Store, u: Store)
    requires SameShape(s, t) && SameShape(t, u)
    ensures SameShape(s, u)
  {
  }

  /** One iteration of the loop of `UpdateList` on an item with `dbid`
      while nothing waits: nothing is inserted. */
  lemma UpdateStepKeyed(p: Pass, h: Handle, k: string, commit: bool)
    requires Valid(p.store) && Ready(p.store, k)
    requires h in p.store.heap && p.store.heap[h].kind == k && p.store.heap[h].dbid.Some?
    requires Resolvable(p.store.registry, p.store.columns[k], p.store.heap[h].fields)
    requires p.pending == [] && Sized(p.args, |p.store.columns[k]| + 1) && |p.args| == |p.updated|
    ensures var q := UpdateStep(p, h, k, commit);
            q.pending == [] && q.updated == p.updated + [h] && SameShape(p.store, q.store)
  {
    var q := UpdateStep(p, h, k, commit);
    assert q.pending == [];
    UpdatesKeepShape(p.store, q.store, p.store.tableNames[k], q.args);
  }

  /** Updates applied to one table change no instance, cache entry or row
      count. */
  lemma UpdatesKeepShape(s: Store, r: Store, t: string, args: seq<seq<Value>>)
    requires t in s.tables && forall j :: 0 <= j < |args| ==> |args[j]| > 0
    requires r.heap == s.heap && r.cache == s.cache
    requires r.tables == s.tables[t := ApplyUpdates(s.tables[t], args)]
    ensures SameShape(s, r)
  {
  }

  /** An item list of one kind whose every item has `dbid` (the sentinel
      included): nothing waits for `AddList`, so nothing is inserted, no
      instance or cache entry changes and no table grows; every item is
      among the updates, in list order. */
  lemma {:induction false} UpdatePassAllKeyed(s: Store, hs: seq<Handle>, k: string, commit: bool)
    requires Valid(s) && BatchReady(s, hs, k)
    requires forall i :: 0 <= i < |hs| ==> s.heap[hs[i]].dbid.Some?
    ensures var p := UpdatePass(s, hs, k, commit);
            p.pending == [] && p.updated == hs && SameShape(s, p.store)
    decreases |hs|
  {
    if |hs| > 0 {
      var n := |hs|;
      var init := hs[..n - 1];
      BatchReadyPrefix(s, hs, k, n - 1);
      UpdatePassAllKeyed(s, init, k, commit);
      var p := UpdatePass(s, init, k, commit);
      assert p.store.heap == s.heap;
      UpdateStepKeyed(p, hs[n - 1], k, commit);
      UpdatePassUnfold(s, hs, k, commit);
      Text.SplitLast(hs);
      SameShapeTransitive(s, p.store, UpdateStep(p, hs[n - 1], k, commit).store);
    }
  }

  /** The loop over `hs` is the loop over all items but the last, then one
      iteration on the last. */
  lemma UpdatePassUnfold(s: Store, hs: seq<Handle>, k: string, commit: bool)
    requires Valid(s) && BatchReady(s, hs, k) && |hs| > 0
    ensures BatchReady(s, hs[..|hs| - 1], k)
    ensures var p := UpdatePass(s, hs[..|hs| - 1], k, commit);
            && BatchReady(p.store, hs, k) && BatchReady(p.store, p.pending, k)
            && UpdatePass(s, hs, k, commit) == UpdateStep(p, hs[|hs| - 1], k, commit)
  {
    var n := |hs|;
    BatchReadyPrefix(s, hs, k, n - 1);
    var p := UpdatePass(s, hs[..n - 1], k, commit);
    BatchReadyPreserved(s, p.store, hs, k);
    BatchReadyPreserved(s, p.store, p.pending, k);
  }

  /** An item list of one kind whose every item has `dbid`: the loop sends
      every item's update arguments, in list order, and the table ends as
      if the whole batch had been applied once; the batches re-sent by the
      earlier iterations are overridden by the later ones. */
  lemma {:induction false} UpdatePassAllKeyedRows(s: Store, hs: seq<Handle>, k: string, commit: bool)
    requires Valid(s) && BatchReady(s, hs, k)
    requires forall i :: 0 <= i < |hs| ==> s.heap[hs[i]].dbid.Some?
    ensures Updatable(s, hs, k)
    ensures var p := UpdatePass(s, hs, k, commit);
            var t := s.tableNames[k];
            && p.args == UpdateArgsOf(s, hs, k)
            && p.store.tables == s.tables[t := ApplyUpdates(s.tables[t], p.args)]
    decreases |hs|
  {
    var t := s.tableNames[k];
    if |hs| > 0 {
      var n := |hs|;
      var init := hs[..n - 1];
      var h := hs[n - 1];
      BatchReadyPrefix(s, hs, k, n - 1);
      UpdatePassAllKeyedRows(s, init, k, commit);
      UpdatePassAllKeyed(s, init, k, commit);
      var p := UpdatePass(s, init, k, commit);
      UpdatePassUnfold(s, hs, k, commit);
      var q := UpdateStep(p, h, k, commit);
      assert q.args == p.args + [UpdateArgs(s.registry, s.columns[k], s.heap[h].fields, s.heap[h].dbid.value)];
      AllKeyedStep(s, hs, k, p, q);
    } else {
      assert s.tables[t := s.tables[t]] == s.tables;
    }
  }

  /** `r` is `s` with every item's update applied to the kind's table, in
      list order, as one batch: no instance, cache entry or other table
      changes. */
  predicate UpdatedInPlace(s: Store, hs: seq<Handle>, k: string, r: Store)
  {
    && k in s.tableNames && s.tableNames[k] in s.tables && Updatable(s, hs, k)
    && r.heap == s.heap && r.cache == s.cache
    && r.tables == s.tables[s.tableNames[k] := ApplyUpdates(s.tables[s.tableNames[k]], UpdateArgsOf(s, hs, k))]
  }

  lemma AllKeyedEffect(s: Store, hs: seq<Handle>, k: string, commit: bool)
    requires Valid(s) && BatchReady(s, hs, k)
    requires forall i :: 0 <= i < |hs| ==> s.heap[hs[i]].dbid.Some?
    ensures UpdatedInPlace(s, hs, k, UpdatePass(s, hs, k, commit).store)
  {
    UpdatePassAllKeyed(s, hs, k, commit);
    UpdatePassAllKeyedRows(s, hs, k, commit);
  }

  /** One more iteration of the loop over items that all have `dbid`. */
  lemma AllKeyedStep(s: Store, hs: seq<Handle>, k: string, p: Pass, q: Pass)
    requires BatchReady(s, hs, k) && |hs| > 0
    requires forall i :: 0 <= i < |hs| ==> s.heap[hs[i]].dbid.Some?
    requires Updatable(s, hs[..|hs| - 1], k) && p.args == UpdateArgsOf(s, hs[..|hs| - 1], k)
    requires var t := s.tableNames[k];
             p.store.tables == s.tables[t := ApplyUpdates(s.tables[t], p.args)]
    requires var h := hs[|hs| - 1];
             q.args == p.args + [UpdateArgs(s.registry, s.columns[k], s.heap[h].fields, s.heap[h].dbid.value)]
    requires var t := s.tableNames[k];
             q.store.tables == p.store.tables[t := ApplyUpdates(p.store.tables[t], q.args)]
    ensures Updatable(s, hs, k) && q.args == UpdateArgsOf(s, hs, k)
    ensures var t := s.tableNames[k];
            q.store.tables == s.tables[t := ApplyUpdates(s.tables[t], q.args)]
  {
    var n := |hs|;
    var h := hs[n - 1];
    var t := s.tableNames[k];
    var a := UpdateArgs(s.registry, s.columns[k], s.heap[h].fields, s.heap[h].dbid.value);
    Text.SplitLast(hs);
    UpdateArgsOfSnoc(s, hs[..n - 1], h, k);
    ResendAbsorbed(s.tables, t, s.tables[t], p.store.tables, q.store.tables, p.args, a);
  }

  /** Sending the batch again with one more tuple leaves the table as if
      the longer batch alone had been sent. */
  lemma ResendAbsorbed(base: map<string, seq<Row>>, t: string, rows: seq<Row>, before: map<string, seq<Row>>,
                       after: map<string, seq<Row>>, args: seq<seq<Value>>, a: seq<Value>)
    requires |a| > 0 && forall i :: 0 <= i < |args| ==> |args[i]| > 0
    requires before == base[t := ApplyUpdates(rows, args)]
    requires after == before[t := ApplyUpdates(before[t], args + [a])]
    ensures after == base[t := ApplyUpdates(rows, args + [a])]
  {
    assert forall i :: 0 <= i < |args| ==> (args + [a])[i] == args[i];
    ApplyUpdatesAbsorb(rows, args, args + [a]);
  }
}

=== FILE: properties.dfy ===
/** Properties of the store of narwhal/sql.py that relate several of its
    operations: how `Add` numbers rows, what `Clear`, `AddList`, `Update`
    and `UpdateList` do to those numbers, and how the identity cache ties a
    write to a later read. */
module StoreProperties {
  import opened Values
  import opened TypeRegistry
  import opened Schema
  import opened Text
  import opened Store
  import opened Batch
  import opened BatchUpdate
  import opened Reads

  /** The insert command has one marker per value of the insert row. */
  lemma InsertBindsRow(reg: Registry, table: string, cols: seq<Column>, fields: map<string, Value>, dbid: int)
    requires |cols| > 0 && NoPlaceholders(table) && Resolvable(reg, cols, fields)
    ensures Placeholders(InsertCommand(table, |cols|)) == |InsertRow(reg, cols, fields, dbid)|
  {
  }

  /** The update command has one marker per update argument, the key's
      marker last as the key is the last argument. */
  lemma UpdateBindsArgs(reg: Registry, table: string, cols: seq<Column>, fields: map<string, Value>, dbid: int)
    requires |cols| > 0 && NoPlaceholders(table) && PlainNames(cols) && Resolvable(reg, cols, fields)
    ensures Placeholders(UpdateCommand(table, cols)) == |UpdateArgs(reg, cols, fields, dbid)|
  {
  }

  /** The row at position `j` carries key `j`: what a table holds when every
      row was written by `Add` since the table was created or cleared. */
  predicate Numbered(rows: seq<Row>)
  {
    forall j :: 0 <= j < |rows| ==> |rows[j]| > 0 && rows[j][0] == Int(j)
  }

  /** Inserting through `Add` keeps a numbered table numbered, and the new
      instance's key is the position of its row. */
  lemma AddFreshNumbered(s: Store, h: Handle, commit: bool)
    requires Valid(s) && Writable(s, h)
    requires Numbered(s.tables[s.tableNames[s.heap[h].kind]])
    ensures var t := s.tableNames[s.heap[h].kind];
            var r := AddFresh(s, h, commit);
            && Numbered(r.tables[t])
            && |r.tables[t]| == |s.tables[t]| + 1
            && r.heap[h].dbid == Some(|r.tables[t]| - 1)
  {
    var t := s.tableNames[s.heap[h].kind];
    var r := AddFresh(s, h, commit);
    var rows := r.tables[t];
    forall j | 0 <= j < |rows|
      ensures |rows[j]| > 0 && rows[j][0] == Int(j)
    {
      if j < |s.tables[t]| {
        assert rows[j] == s.tables[t][j];
      }
    }
  }

  /** A cleared table is numbered, and the next `Add` of an instance
      without a key inserts it with key 0 as the table's only row. */
  lemma ClearThenAdd(s: Store, h: Handle, commit: bool)
    requires Valid(s) && Writable(s, h) && !Keyed(s.heap[h])
    ensures var k := s.heap[h].kind;
            var c := Clear(s, k);
            && Numbered(c.tables[s.tableNames[k]])
            && AddReady(c, h)
            && Add(c, h, commit).heap[h].dbid == Some(0)
            && Add(c, h, commit).tables[s.tableNames[k]] == [InsertRow(s.registry, s.columns[k], s.heap[h].fields, 0)]
  {
    var k := s.heap[h].kind;
    var c := Clear(s, k);
    PreservesWritable(s, c, h);
  }

  /** `Clear` leaves instance keys alone, so the next `Add` of an instance
      stored before it goes to `Update`: the update addresses a row that is
      gone, the table stays empty and the instance keeps its old key. */
  lemma ClearThenAddKeyed(s: Store, h: Handle, commit: bool)
    requires Valid(s) && AddReady(s, h) && Keyed(s.heap[h])
    requires s.tableNames[s.heap[h].kind] in s.tables
    ensures var k := s.heap[h].kind;
            var c := Clear(s, k);
            && AddReady(c, h)
            && Add(c, h, commit).heap[h] == s.heap[h]
            && Add(c, h, commit).tables[s.tableNames[k]] == []
  {
    var k := s.heap[h].kind;
    var c := Clear(s, k);
    if !Blocked(s, k, false) {
      PreservesWritable(s, c, h);
    }
  }

  /** An update keeps every row's key, so it keeps a numbered table
      numbered. */
  lemma RewriteNumbered(s: Store, h: Handle, commit: bool)
    requires Valid(s) && Writable(s, h) && s.heap[h].dbid.Some?
    requires Numbered(s.tables[s.tableNames[s.heap[h].kind]])
    ensures Numbered(Rewrite(s, h, commit).tables[s.tableNames[s.heap[h].kind]])
  {
    var t := s.tableNames[s.heap[h].kind];
    var rows := Rewrite(s, h, commit).tables[t];
    forall j | 0 <= j < |rows|
      ensures |rows[j]| > 0 && rows[j][0] == Int(j)
    {
      assert |s.tables[t][j]| > 0 && s.tables[t][j][0] == Int(j);
    }
  }

  /** `Update` accepts the sentinel key, which no row of a numbered table
      carries: the statement is sent and the lists stored, but no row
      changes. */
  lemma SentinelUpdateChangesNoRow(s: Store, h: Handle, commit: bool)
    requires Valid(s) && Writable(s, h) && s.heap[h].dbid == Some(Unsaved)
    requires Numbered(s.tables[s.tableNames[s.heap[h].kind]])
    ensures Update(s, h, true, commit).tables == s.tables
    ensures var k := s.heap[h].kind;
            Update(s, h, true, commit).log
            == s.log + ([Execute(UpdateCommand(s.tableNames[k], s.columns[k]), UpdateArgs(s.registry, s.columns[k], s.heap[h].fields, Unsaved)),
                         ListsUpdated(h)] + CommitIf(commit))
  {
    var k := s.heap[h].kind;
    var t := s.tableNames[k];
    var args := UpdateArgs(s.registry, s.columns[k], s.heap[h].fields, Unsaved);
    var rows := s.tables[t];
    var after := ApplyUpdate(rows, args);
    forall j | 0 <= j < |rows|
      ensures after[j] == rows[j]
    {
      assert rows[j][0] == Int(j) != Int(Unsaved);
    }
    assert after == rows;
  }

  /** Items `Add` inserts one after another: of one kind, never stored,
      writable, pairwise distinct. */
  predicate FreshBatch(s: Store, hs: seq<Handle>, k: string)
  {
    && Ready(s, k)
    && (forall i :: 0 <= i < |hs| ==>
          && hs[i] in s.heap && s.heap[hs[i]].kind == k && !Keyed(s.heap[hs[i]])
          && Resolvable(s.registry, s.columns[k], s.heap[hs[i]].fields))
    && (forall i, j :: 0 <= i < j < |hs| ==> hs[i] != hs[j])
  }

  /** After the first item is added, the rest are still a fresh batch. */
  lemma FreshBatchStep(s: Store, hs: seq<Handle>, k: string, r: Store)
    requires Valid(s) && FreshBatch(s, hs, k) && |hs| > 0
    requires Preserves(s, r)
    requires forall g :: g in s.heap && g != hs[0] ==> r.heap[g] == s.heap[g]
    ensures FreshBatch(r, hs[1..], k)
  {
    var rest := hs[1..];
    forall i | 0 <= i < |rest|
      ensures rest[i] in r.heap && r.heap[rest[i]] == s.heap[rest[i]]
    {
      assert rest[i] == hs[i + 1] != hs[0];
    }
  }

  /** `Add` called on each item in turn; on an item that was never stored
      `Add` is its insert path. */
  function AddEach(s: Store, hs: seq<Handle>, k: string, commit: bool): (r: Store)
    requires Valid(s) && FreshBatch(s, hs, k)
    ensures Valid(r) && Preserves(s, r)
    ensures forall g :: g in s.heap && g !in hs ==> r.heap[g] == s.heap[g]
    decreases |hs|
  {
    if |hs| == 0 then s
    else
      var s1 := AddFresh(s, hs[0], commit);
      FreshBatchStep(s, hs, k, s1);
      var r := AddEach(s1, hs[1..], k, commit);
      PreservesTransitive(s, s1, r);
      r
  }

  /** Adding `N` fresh items to a table of `L` rows gives them the keys
      `L` to `L + N - 1` in call order, appends `N` rows and keeps a
      numbered table numbered. */
  lemma {:induction false} AddEachKeys(s: Store, hs: seq<Handle>, k: string, commit: bool)
    requires Valid(s) && FreshBatch(s, hs, k)
    ensures var t := s.tableNames[k];
            var r := AddEach(s, hs, k, commit);
            && |r.tables[t]| == |s.tables[t]| + |hs|
            && KeysFrom(r.heap, hs, |s.tables[t]|)
            && (Numbered(s.tables[t]) ==> Numbered(r.tables[t]))
    decreases |hs|
  {
    if |hs| > 0 {
      var t := s.tableNames[k];
      var n := |s.tables[t]|;
      var s1 := AddFresh(s, hs[0], commit);
      assert s.heap[hs[0]].kind == k && s1.tableNames[k] == t;
      assert s1.tables[t] == s.tables[t] + [InsertRow(s.registry, s.columns[k], s.heap[hs[0]].fields, n)];
      assert s1.heap[hs[0]].dbid == Some(n);
      FreshBatchStep(s, hs, k, s1);
      if Numbered(s.tables[t]) {
        AddFreshNumbered(s, hs[0], commit);
      }
      var rest := hs[1..];
      AddEachKeys(s1, rest, k, commit);
      var r := AddEach(s1, rest, k, commit);
      AddEachUnfold(s, hs, k, commit);
      assert |r.tables[t]| == n + 1 + |rest|;
      assert KeysFrom(r.heap, rest, n + 1);
      KeysShift(hs, n, s1.heap, r.heap);
    }
  }

  lemma AddEachUnfold(s: Store, hs: seq<Handle>, k: string, commit: bool)
    requires Valid(s) && FreshBatch(s, hs, k) && |hs| > 0
    ensures Writable(s, hs[0])
    ensures && FreshBatch(AddFresh(s, hs[0], commit), hs[1..], k)
            && AddEach(s, hs, k, commit) == AddEach(AddFresh(s, hs[0], commit), hs[1..], k, commit)
  {
    FreshBatchStep(s, hs, k, AddFresh(s, hs[0], commit));
  }

  /** Item `i` holds key `n + i`. */
  predicate KeysFrom(heap: map<Handle, Instance>, hs: seq<Handle>, n: int)
  {
    forall i :: 0 <= i < |hs| ==> hs[i] in heap && heap[hs[i]].dbid == Some(n + i)
  }

  /** The keys of the first item and of the rest, put together. */
  lemma KeysShift(hs: seq<Handle>, n: int, before: map<Handle, Instance>, after: map<Handle, Instance>)
    requires |hs| > 0 && (forall i, j :: 0 <= i < j < |hs| ==> hs[i] != hs[j])
    requires hs[0] in before && before[hs[0]].dbid == Some(n)
    requires KeysFrom(after, hs[1..], n + 1)
    requires forall g :: g in before && g !in hs[1..] ==> g in after && after[g] == before[g]
    ensures KeysFrom(after, hs, n)
  {
    assert hs[0] !in hs[1..] by {
      forall j | 0 <= j < |hs| - 1
        ensures hs[1..][j] != hs[0]
      {
        assert hs[1..][j] == hs[j + 1];
      }
    }
    var h0 := hs[0];
    assert h0 in before && h0 !in hs[1..];
    assert h0 in after && after[h0] == before[h0];
    forall i | 0 <= i < |hs|
      ensures hs[i] in after && after[hs[i]].dbid == Some(n + i)
    {
      if i > 0 {
        assert hs[i] == hs[1..][i - 1];
        assert after[hs[1..][i - 1]].dbid == Some(n + 1 + (i - 1));
      }
    }
  }

  /** A row added to a numbered table is read back by key as the very
      instance that was added, with the key it was given. */
  lemma AddThenSelectAtIndex(s: Store, h: Handle, commit: bool)
    requires Valid(s) && Writable(s, h)
    requires Numbered(s.tables[s.tableNames[s.heap[h].kind]])
    ensures var k := s.heap[h].kind;
            var n := |s.tables[s.tableNames[k]]|;
            var r := AddFresh(s, h, commit);
            var f := SelectAtIndex(r, k, n);
            && f.handle == Some(h)
            && f.store.heap[h].dbid == Some(n)
  {
    var k := s.heap[h].kind;
    var t := s.tableNames[k];
    var n := |s.tables[t]|;
    var r := AddFresh(s, h, commit);
    AddFreshNumbered(s, h, commit);
    var rows := r.tables[t];
    assert |rows| == n + 1 && rows[n][0] == Int(n);
    var j := Lookup(rows, n);
    assert Numbered(rows);
    assert j == Some(n);
    var s1 := r.(log := r.log + [Execute("select * from " + t + " where dbid = " + "?", [Int(n)])]);
    var row := ResultRow(n, RowCells(r.columns[k], rows[n]));
    assert n in s1.cache[k] && s1.cache[k][n] == h;
    assert ProcessRow(s1, k, row).handle == h;
  }

  /** A read by key of a cached key returns the cached instance, loaded
      with the first row that carries the key. */
  lemma SelectAtIndexCached(s: Store, k: string, index: int, j: nat)
    requires Valid(s) && Readable(s, k) && index in s.cache[k]
    requires Lookup(s.tables[s.tableNames[k]], index) == Some(j)
    ensures var f := SelectAtIndex(s, k, index);
            var h := s.cache[k][index];
            && f.handle == Some(h)
            && f.store.heap[h] == Instance(k, Some(index), Assigned(s.heap[h].fields, s.kinds[k], RowCells(s.columns[k], s.tables[s.tableNames[k]][j])))
  {
    var t := s.tableNames[k];
    var s1 := s.(log := s.log + [Execute("select * from " + t + " where dbid = " + "?", [Int(index)])]);
    assert s1.cache == s.cache && s1.heap == s.heap && s1.kinds == s.kinds;
  }

  /** `AddList` numbers its fresh items from 0 whatever the table holds:
      on a numbered table that is not empty, the inserted row carries the
      key of the first row (a key the `dbid integer primary key` column of
      the engine refuses a second time; the model's engine appends the
      row), and the identity cache now maps that key to the added
      instance. */
  lemma AddListRepeatsKey(s: Store, h: Handle, commit: bool)
    requires Valid(s) && Writable(s, h) && !Keyed(s.heap[h])
    requires Numbered(s.tables[s.tableNames[s.heap[h].kind]])
    requires |s.tables[s.tableNames[s.heap[h].kind]]| > 0
    ensures var k := s.heap[h].kind;
            var t := s.tableNames[k];
            var r := AddList(s, [h], commit);
            var n := |s.tables[t]|;
            && |r.tables[t]| == n + 1
            && r.tables[t][0] == s.tables[t][0] && r.tables[t][n][0] == Int(0)
            && r.heap[h].dbid == Some(0)
            && 0 in r.cache[k] && r.cache[k][0] == h
            && Lookup(r.tables[t], 0) == Some(0)
  {
    var k := s.heap[h].kind;
    var t := s.tableNames[k];
    var n := |s.tables[t]|;
    var fs := Fresh(s, [h]);
    assert fs == [h] by {
      assert h in fs;
      assert forall j :: 0 <= j < |fs| ==> fs[j] == h;
    }
    assert LastAt(fs, 0);
    var r := AddList(s, [h], commit);
    assert r.tables[t][n..] == FreshRows(s, fs, k);
    assert r.tables[t][n] == FreshRows(s, fs, k)[0];
    assert r.tables[t][0] == s.tables[t][0] by {
      assert [h][..0] == [];
      assert UpdateKeyed(s, [h], k, commit) == s;
      assert r == InsertFresh(s, fs, k, commit);
    }
  }

  /** After `AddList` has repeated the first row's key, a read by that key
      returns the added instance loaded with the first row's values. */
  lemma AddListThenSelectAtIndex(s: Store, h: Handle, commit: bool)
    requires Valid(s) && Writable(s, h) && !Keyed(s.heap[h])
    requires Numbered(s.tables[s.tableNames[s.heap[h].kind]])
    requires |s.tables[s.tableNames[s.heap[h].kind]]| > 0
    ensures var k := s.heap[h].kind;
            var t := s.tableNames[k];
            var r := AddList(s, [h], commit);
            var f := SelectAtIndex(r, k, 0);
            && f.handle == Some(h)
            && f.store.heap[h] == Instance(k, Some(0), Assigned(r.heap[h].fields, s.kinds[k], RowCells(s.columns[k], s.tables[t][0])))
  {
    var k := s.heap[h].kind;
    var r := AddList(s, [h], commit);
    AddListRepeatsKey(s, h, commit);
    assert r.kinds == s.kinds && r.columns == s.columns && r.tableNames == s.tableNames;
    SelectAtIndexCached(r, k, 0, 0);
  }

  /** `UpdateList` over items that all have `dbid`, with pairwise distinct
      keys, on a numbered table: the row at each item's key now holds that
      item's column values, every row whose key no item carries is as it
      was, no row is added and no other table changes. */
  lemma UpdateListNumberedRows(s: Store, hs: seq<Handle>, force: bool, commit: bool)
    requires Valid(s) && |hs| > 0 && UpdateListReady(s, hs, force)
    requires !Blocked(s, s.heap[hs[0]].kind, force)
    requires forall i :: 0 <= i < |hs| ==> s.heap[hs[i]].dbid.Some?
    requires forall i, j :: 0 <= i < j < |hs| ==> s.heap[hs[i]].dbid != s.heap[hs[j]].dbid
    requires Numbered(s.tables[s.tableNames[s.heap[hs[0]].kind]])
    ensures var k := s.heap[hs[0]].kind;
            var r := UpdateList(s, hs, force, commit);
            && InPlaceRows(s, hs, k, r)
            && (forall u :: u in s.tables && u != s.tableNames[k] ==> u in r.tables && r.tables[u] == s.tables[u])
  {
    var k := s.heap[hs[0]].kind;
    var r := UpdateList(s, hs, force, commit);
    InPlaceNumbered(s, hs, k, r);
  }

  /** The rows of the kind's table after the items' updates: the row at
      each item's key holds that item's column values, every row whose key
      no item carries is as it was, and no row is added. */
  predicate InPlaceRows(s: Store, hs: seq<Handle>, k: string, r: Store)
    requires k in s.tableNames && s.tableNames[k] in s.tables && s.tableNames[k] in r.tables && k in s.columns
    requires forall i :: 0 <= i < |hs| ==> hs[i] in s.heap && s.heap[hs[i]].dbid.Some?
    requires forall i :: 0 <= i < |hs| ==> Resolvable(s.registry, s.columns[k], s.heap[hs[i]].fields)
  {
    var t := s.tableNames[k];
    var rows := s.tables[t];
    && |r.tables[t]| == |rows|
    && (forall i :: 0 <= i < |hs| && 0 <= s.heap[hs[i]].dbid.value < |rows| ==>
          r.tables[t][s.heap[hs[i]].dbid.value] ==
            [Int(s.heap[hs[i]].dbid.value)] + ColumnValues(s.registry, s.columns[k], s.heap[hs[i]].fields))
    && (forall j :: 0 <= j < |rows| && (forall i :: 0 <= i < |hs| ==> s.heap[hs[i]].dbid != Some(j)) ==>
          r.tables[t][j] == rows[j])
  }

  lemma InPlaceNumbered(s: Store, hs: seq<Handle>, k: string, r: Store)
    requires UpdatedInPlace(s, hs, k, r)
    requires forall i, j :: 0 <= i < j < |hs| ==> s.heap[hs[i]].dbid != s.heap[hs[j]].dbid
    requires Numbered(s.tables[s.tableNames[k]])
    ensures InPlaceRows(s, hs, k, r)
    ensures forall u :: u in s.tables && u != s.tableNames[k] ==> u in r.tables && r.tables[u] == s.tables[u]
  {
    var t := s.tableNames[k];
    var rows := s.tables[t];
    var args := UpdateArgsOf(s, hs, k);
    assert forall i :: 0 <= i < |hs| ==> args[i][|args[i]| - 1] == Int(s.heap[hs[i]].dbid.value);
    NumberedBatch(rows, args);
    forall i | 0 <= i < |hs|
      ensures Written(args[i]) == [Int(s.heap[hs[i]].dbid.value)] + ColumnValues(s.registry, s.columns[k], s.heap[hs[i]].fields)
    {
      Text.Snoc(ColumnValues(s.registry, s.columns[k], s.heap[hs[i]].fields), Int(s.heap[hs[i]].dbid.value));
    }
    forall j | 0 <= j < |rows| && (forall i :: 0 <= i < |hs| ==> s.heap[hs[i]].dbid != Some(j))
      ensures r.tables[t][j] == rows[j]
    {
      assert forall i :: 0 <= i < |args| ==> args[i][|args[i]| - 1] != Int(j);
    }
  }

  /** A batch whose tuples carry pairwise distinct keys, applied to a
      numbered table: the row at each tuple's key is what the tuple writes,
      and a row whose key no tuple carries is untouched. */
  lemma NumberedBatch(rows: seq<Row>, args: seq<seq<Value>>)
    requires Numbered(rows)
    requires forall i :: 0 <= i < |args| ==> |args[i]| > 0
    requires forall i, j :: 0 <= i < j < |args| ==> args[i][|args[i]| - 1] != args[j][|args[j]| - 1]
    ensures |ApplyUpdates(rows, args)| == |rows|
    ensures forall i, d :: 0 <= i < |args| && 0 <= d < |rows| && args[i][|args[i]| - 1] == Int(d) ==>
      ApplyUpdates(rows, args)[d] == Written(args[i])
    ensures forall j :: 0 <= j < |rows| && (forall i :: 0 <= i < |args| ==> args[i][|args[i]| - 1] != Int(j)) ==>
      ApplyUpdates(rows, args)[j] == rows[j]
  {
    ApplyUpdatesLast(rows, args);
    forall i, d | 0 <= i < |args| && 0 <= d < |rows| && args[i][|args[i]| - 1] == Int(d)
      ensures LastTarget(rows[d], args) == Some(i)
    {
      assert Targets(rows[d], args[i]);
    }
    forall j | 0 <= j < |rows| && (forall i :: 0 <= i < |args| ==> args[i][|args[i]| - 1] != Int(j))
      ensures LastTarget(rows[j], args).None?
    {
    }
  }

  /** Two distinct items of one kind, both writable. */
  predicate Pair(s: Store, a: Handle, b: Handle, k: string)
  {
    && Ready(s, k) && a != b
    && a in s.heap && s.heap[a].kind == k && Resolvable(s.registry, s.columns[k], s.heap[a].fields)
    && b in s.heap && s.heap[b].kind == k && Resolvable(s.registry, s.columns[k], s.heap[b].fields)
  }

  lemma PairReady(s: Store, a: Handle, b: Handle, k: string)
    requires Pair(s, a, b, k)
    ensures BatchReady(s, [a], k) && BatchReady(s, [a, b], k)
  {
  }

  /** The store an iteration of the loop of `UpdateList` leaves has the
      instances the `AddList` call inside it leaves. */
  lemma UpdateStepHeap(p: Pass, h: Handle, k: string, commit: bool)
    requires Valid(p.store) && Ready(p.store, k)
    requires h in p.store.heap && p.store.heap[h].kind == k
    requires Resolvable(p.store.registry, p.store.columns[k], p.store.heap[h].fields)
    requires BatchReady(p.store, p.pending, k)
    requires Sized(p.args, |p.store.columns[k]| + 1) && |p.args| == |p.updated|
    ensures AddListReady(p.store, p.pending + [h])
    ensures p.store.heap[h].dbid.None? ==>
      UpdateStep(p, h, k, commit).store.heap == AddList(p.store, p.pending + [h], commit).heap
  {
    BatchReadyStep(p.store, p.pending, p.pending + [h], h, k);
    BatchAddListReady(p.store, p.pending + [h], k);
  }

  /** `AddList` of one new item gives it key 0 and leaves the other
      instances. */
  lemma AddListOneNew(s: Store, a: Handle, commit: bool)
    requires Valid(s) && AddListReady(s, [a]) && s.heap[a].dbid.None?
    ensures var r := AddList(s, [a], commit);
            && r.heap[a].dbid == Some(0)
            && forall g :: g in s.heap && g != a ==> r.heap[g] == s.heap[g]
  {
    var fs := Fresh(s, [a]);
    assert fs == [a] by {
      assert a in fs;
      assert forall j :: 0 <= j < |fs| ==> fs[j] == a;
    }
    assert LastAt(fs, 0);
  }

  /** `AddList` of an item with key 0 and a new item: the first keeps its
      key (it is updated), the second is numbered from 0 again. */
  lemma AddListKeyedThenNew(s: Store, a: Handle, b: Handle, commit: bool)
    requires Valid(s) && AddListReady(s, [a, b]) && a != b && a in s.heap && b in s.heap
    requires s.heap[a].dbid == Some(0) && s.heap[b].dbid.None?
    ensures var r := AddList(s, [a, b], commit);
            r.heap[a].dbid == Some(0) && r.heap[b].dbid == Some(0)
  {
    var fs := Fresh(s, [a, b]);
    assert fs == [b] by {
      assert [a, b][..1] == [a];
      assert Fresh(s, [a]) == [];
    }
    assert LastAt(fs, 0);
  }

  /** Two new items passed to `UpdateList` both end with key 0: the first
      is numbered 0 by the `AddList` of the first iteration; in the second
      it is keyed, so the `AddList` of that iteration updates it and
      numbers the second item from 0 again (its insert then repeats key 0,
      which the engine's primary key refuses). */
  lemma UpdateListTwoNew(s: Store, a: Handle, b: Handle, commit: bool)
    requires Valid(s) && a in s.heap && Pair(s, a, b, s.heap[a].kind)
    requires s.heap[a].dbid.None? && s.heap[b].dbid.None?
    ensures var r := UpdateList(s, [a, b], true, commit);
            r.heap[a].dbid == Some(0) && r.heap[b].dbid == Some(0)
  {
    var k := s.heap[a].kind;
    PairReady(s, a, b, k);
    var p1 := FirstIteration(s, a, b, k, commit);
    UpdatePassUnfold(s, [a, b], k, commit);
    Text.AppendSingletons(a, b);
    SecondIteration(p1, a, b, k, commit);
    var q := UpdateStep(p1, b, k, commit);
    assert UpdatePass(s, [a, b], k, commit).store.heap == q.store.heap;
    assert !Blocked(s, k, true);
  }

  /** The first iteration of `UpdateList` over `[a, b]`. */
  lemma FirstIteration(s: Store, a: Handle, b: Handle, k: string, commit: bool) returns (p: Pass)
    requires Valid(s) && Pair(s, a, b, k)
    requires s.heap[a].dbid.None? && s.heap[b].dbid.None?
    ensures BatchReady(s, [a], k) && p == UpdatePass(s, [a], k, commit)
    ensures Valid(p.store) && Pair(p.store, a, b, k)
    ensures p.pending == [a] && p.updated == [] && p.args == []
    ensures p.store.heap[a].dbid == Some(0) && p.store.heap[b].dbid.None?
  {
    PairReady(s, a, b, k);
    UpdatePassUnfold(s, [a], k, commit);
    assert [a][..0] == [];
    var p0 := Pass(s, [], [], []);
    assert UpdatePass(s, [a][..0], k, commit) == p0;
    UpdateStepHeap(p0, a, k, commit);
    AddListOneNew(s, a, commit);
    p := UpdatePass(s, [a], k, commit);
    assert p.pending == [a];
  }

  /** The second iteration of `UpdateList` over `[a, b]`. */
  lemma SecondIteration(p: Pass, a: Handle, b: Handle, k: string, commit: bool)
    requires Valid(p.store) && Pair(p.store, a, b, k)
    requires p.pending == [a] && p.updated == [] && p.args == []
    requires p.store.heap[a].dbid == Some(0) && p.store.heap[b].dbid.None?
    ensures var q := UpdateStep(p, b, k, commit);
            q.store.heap[a].dbid == Some(0) && q.store.heap[b].dbid == Some(0)
  {
    PairReady(p.store, a, b, k);
    UpdateStepHeap(p, b, k, commit);
    Text.AppendSingletons(a, b);
    AddListKeyedThenNew(p.store, a, b, commit);
  }

  /** The same `dbid` read twice yields the same instance. */
  lemma SameKeySameInstance(s: Store, k: string, row1: ResultRow, row2: ResultRow)
    requires Valid(s) && k in s.kinds && k in s.cache && row1.dbid == row2.dbid
    ensures var f := ProcessRow(s, k, row1);
            ProcessRow(f.store, k, row2).handle == f.handle
  {
  }

  /** After `Clear`, a read makes a new instance even for a key that was
      cached before. */
  lemma ClearForgetsInstances(s: Store, k: string, row: ResultRow)
    requires Valid(s) && Registered(s, k) && s.tableNames[k] in s.tables
    ensures var c := Clear(s, k);
            ProcessRow(c, k, row).handle !in s.heap
  {
  }
}

=== FILE: query.dfy ===
/** The query builder (class `Query` of narwhal/sql.py): pure construction of
    predicate fragments, each a text with `?` markers and the tuple of
    values bound to those markers, in marker order. */
module Query {
  import opened Values
  import opened Text

  datatype Fragment = Fragment(text: string, values: seq<Value>)

  /** A fragment is balanced when its text has exactly one marker per bound
      value; only then can the engine bind it. */
  predicate Balanced(f: Fragment)
  {
    Placeholders(f.text) == |f.values|
  }

  predicate AllBalanced(es: seq<Fragment>)
  {
    forall i :: 0 <= i < |es| ==> Balanced(es[i])
  }

  /** `name op ?` bound to one value; the shape shared by the comparisons. */
  function Comparison(name: string, op: string, val: Value): (r: Fragment)
    requires NoPlaceholders(op)
    ensures r.text == name + " " + op + " ?"
    ensures r.values == [val]
    ensures Placeholders(r.text) == Placeholders(name) + 1
    ensures NoPlaceholders(name) ==> Balanced(r)
  {
    PlaceholdersAppend(name, " " + op + " ?");
    PlaceholdersAppend(" " + op, " ?");
    PlaceholdersAppend(" ", op);
    Fragment(name + " " + op + " ?", [val])
  }

  function Equals(name: string, val: Value): (r: Fragment)
    ensures r.text == name + " = ?" && r.values == [val]
    ensures NoPlaceholders(name) ==> Balanced(r)
  {
    Comparison(name, "=", val)
  }

  function NotEquals(name: string, val: Value): (r: Fragment)
    ensures r.text == name + " != ?" && r.values == [val]
    ensures NoPlaceholders(name) ==> Balanced(r)
  {
    Comparison(name, "!=", val)
  }

  function LessThan(name: string, val: Value): (r: Fragment)
    ensures r.text == name + " < ?" && r.values == [val]
    ensures NoPlaceholders(name) ==> Balanced(r)
  {
    Comparison(name, "<", val)
  }

  function LessThanEquals(name: string, val: Value): (r: Fragment)
    ensures r.text == name + " <= ?" && r.values == [val]
    ensures NoPlaceholders(name) ==> Balanced(r)
  {
    Comparison(name, "<=", val)
  }

  function GreaterThan(name: string, val: Value): (r: Fragment)
    ensures r.text == name + " > ?" && r.values == [val]
    ensures NoPlaceholders(name) ==> Balanced(r)
  {
    Comparison(name, ">", val)
  }

  function GreaterThanEquals(name: string, val: Value): (r: Fragment)
    ensures r.text == name + " >= ?" && r.values == [val]
    ensures NoPlaceholders(name) ==> Balanced(r)
  {
    Comparison(name, ">=", val)
  }

  function Like(name: string, pattern: Value): (r: Fragment)
    ensures r.text == name + " like ?" && r.values == [pattern]
    ensures NoPlaceholders(name) ==> Balanced(r)
  {
    Comparison(name, "like", pattern)
  }

  /** `name between ? and ?` bound to the two bounds, lower bound first. */
  function Between(name: string, low: Value, high: Value): (r: Fragment)
    ensures r.text == name + " between ? and ?"
    ensures r.values == [low, high]
    ensures Placeholders(r.text) == Placeholders(name) + 2
    ensures NoPlaceholders(name) ==> Balanced(r)
  {
    PlaceholdersAppend(name, " between ? and ?");
    Fragment(name + " between ? and ?", [low, high])
  }

  /** Negation wraps the text and keeps the bound values as they are. */
  function Not(e: Fragment): (r: Fragment)
    ensures r.text == "not (" + e.text + ")"
    ensures r.values == e.values
    ensures Placeholders(r.text) == Placeholders(e.text)
    ensures Balanced(r) <==> Balanced(e)
  {
    PlaceholdersAppend("not (", e.text);
    PlaceholdersAppend("not (" + e.text, ")");
    Fragment("not (" + e.text + ")", e.values)
  }

  function Paren(s: string): string
  {
    "(" + s + ")"
  }

  /** The texts of the fragments, each in parentheses. */
  function Parens(es: seq<Fragment>): (r: seq<string>)
    ensures |r| == |es|
    ensures forall i :: 0 <= i < |es| ==> r[i] == Paren(es[i].text)
  {
    seq(|es|, i requires 0 <= i < |es| => Paren(es[i].text))
  }

  /** The value tuples of the fragments. */
  function ValuesOf(es: seq<Fragment>): (r: seq<seq<Value>>)
    ensures |r| == |es|
    ensures forall i :: 0 <= i < |es| ==> r[i] == es[i].values
  {
    seq(|es|, i requires 0 <= i < |es| => es[i].values)
  }

  /** Chaining: each fragment's text in parentheses, joined by `sep`; the
      value tuples concatenated left to right. The source indexes the last
      fragment, so at least one fragment is required. */
  function ChainExprs(es: seq<Fragment>, sep: string): (r: Fragment)
    requires |es| > 0
    ensures r.text == Join(Parens(es), sep)
    ensures |r.values| == TotalLength(ValuesOf(es))
    ensures NoPlaceholders(sep) && AllBalanced(es) ==> Balanced(r)
  {
    LoopJoinIsJoin(Parens(es), sep);
    FlattenLength(ValuesOf(es));
    ChainPlaceholders(es, sep);
    Fragment(LoopJoin(Parens(es), sep), Flatten(ValuesOf(es)))
  }

  lemma ChainPlaceholders(es: seq<Fragment>, sep: string)
    requires |es| > 0
    ensures NoPlaceholders(sep) && AllBalanced(es) ==>
      Placeholders(LoopJoin(Parens(es), sep)) == TotalLength(ValuesOf(es))
  {
    if NoPlaceholders(sep) && AllBalanced(es) {
      PlaceholdersLoopJoin(Parens(es), sep);
      SumPlaceholdersParens(es);
    }
  }

  function And(es: seq<Fragment>): (r: Fragment)
    requires |es| > 0
    ensures r.text == Join(Parens(es), " and ")
    ensures |r.values| == TotalLength(ValuesOf(es))
    ensures AllBalanced(es) ==> Balanced(r)
  {
    ChainExprs(es, " and ")
  }

  function Or(es: seq<Fragment>): (r: Fragment)
    requires |es| > 0
    ensures r.text == Join(Parens(es), " or ")
    ensures |r.values| == TotalLength(ValuesOf(es))
    ensures AllBalanced(es) ==> Balanced(r)
  {
    ChainExprs(es, " or ")
  }

  /** Raw ordering text; the field name is trusted and not parameterized. */
  function OrderAscending(field: string): (r: string)
    ensures r == field + " asc"
    ensures Placeholders(r) == Placeholders(field)
  {
    PlaceholdersAppend(field, " asc");
    field + " asc"
  }

  function OrderDescending(field: string): (r: string)
    ensures r == field + " desc"
    ensures Placeholders(r) == Placeholders(field)
  {
    PlaceholdersAppend(field, " desc");
    field + " desc"
  }

  lemma {:induction false} SumPlaceholdersParens(es: seq<Fragment>)
    requires AllBalanced(es)
    ensures SumPlaceholders(Parens(es)) == TotalLength(ValuesOf(es))
  {
    if |es| > 0 {
      var n := |es|;
      assert Parens(es)[..n - 1] == Parens(es[..n - 1]);
      assert ValuesOf(es)[..n - 1] == ValuesOf(es[..n - 1]);
      SumPlaceholdersParens(es[..n - 1]);
      PlaceholdersAppend("(", es[n - 1].text);
      PlaceholdersAppend("(" + es[n - 1].text, ")");
    }
  }

  /** The values of fragment `i` sit in the chained tuple right after the
      values of the fragments before it. */
  lemma ChainValuesInOrder(es: seq<Fragment>, sep: string, i: nat)
    requires i < |es|
    ensures var start := |Flatten(ValuesOf(es[..i]))|;
            && start + |es[i].values| <= |ChainExprs(es, sep).values|
            && ChainExprs(es, sep).values[start..start + |es[i].values|] == es[i].values
  {
    var V := ValuesOf(es);
    assert ChainExprs(es, sep).values == Flatten(V);
    assert V[..i] == ValuesOf(es[..i]);
    FlattenSlice(V, i);
  }

  /** The text of fragment `i` follows the text contributed by the
      fragments before it. */
  lemma ChainTextInOrder(es: seq<Fragment>, sep: string, i: nat)
    requires i < |es|
    ensures Accumulate(Parens(es[..i]), sep) + Paren(es[i].text) <= ChainExprs(es, sep).text
  {
    var P := Parens(es);
    assert ChainExprs(es, sep).text == LoopJoin(P, sep);
    assert P[..i] == Parens(es[..i]);
    LoopJoinPart(P, sep, i);
  }

  /** The text contributed by balanced fragments holds exactly as many
      markers as those fragments bind values. */
  lemma PlaceholdersBefore(es: seq<Fragment>, sep: string)
    requires AllBalanced(es) && NoPlaceholders(sep)
    ensures Placeholders(Accumulate(Parens(es), sep)) == |Flatten(ValuesOf(es))|
  {
    PlaceholdersAccumulate(Parens(es), sep);
    SumPlaceholdersParens(es);
    FlattenLength(ValuesOf(es));
  }

  /** Marker order matches value order: the k-th marker of a chain of
      balanced fragments is bound to the k-th value, because fragment `i`'s
      text comes after exactly as many markers as there are values before
      fragment `i`'s values. */
  lemma ChainBindsInOrder(es: seq<Fragment>, sep: string, i: nat)
    requires i < |es|
    requires AllBalanced(es) && NoPlaceholders(sep)
    ensures var r := ChainExprs(es, sep);
            var before := Accumulate(Parens(es[..i]), sep);
            var start := |Flatten(ValuesOf(es[..i]))|;
            && before + Paren(es[i].text) <= r.text
            && Placeholders(before) == start
            && start + |es[i].values| <= |r.values|
            && r.values[start..start + |es[i].values|] == es[i].values
  {
    ChainTextInOrder(es, sep, i);
    PrefixBalanced(es, i);
    PlaceholdersBefore(es[..i], sep);
    ChainValuesInOrder(es, sep, i);
  }

  lemma PrefixBalanced(es: seq<Fragment>, i: nat)
    requires i <= |es|
    requires AllBalanced(es)
    ensures AllBalanced(es[..i])
  {
  }
}

=== FILE: reads.dfy ===
/** The read side of narwhal/sql.py: copying a result row into an instance
    (`CopyRowToData`), the identity cache on reads (`ProcessRow`) and the
    selections built on it (`Select`, `SelectOne`, `SelectAtIndex`,
    `RandomEntries`). The engine's answer to a selection is an input: the
    model does not evaluate predicates or random order. */
module Reads {
  import opened Values
  import opened Text
  import opened Schema
  import opened Store
  import opened Query

  /** One named column of a result row. */
  datatype Cell = Cell(name: string, value: Value)

  /** A result row: its `dbid` and its other columns in table order. */
  datatype ResultRow = ResultRow(dbid: int, cells: seq<Cell>)

  /** A read that yields one instance. */
  datatype Fetched = Fetched(store: Store, handle: Handle)

  /** A read that yields at most one instance. */
  datatype Found = Found(store: Store, handle: Option<Handle>)

  /** A read that yields a list of instances, in result order. */
  datatype Selected = Selected(store: Store, handles: seq<Handle>)

  /** A declared reference field: its column holds the referenced key, which
      goes to the reference's converter instead of the attribute. */
  predicate IsReference(decl: KindDecl, name: string)
  {
    exists i :: 0 <= i < |decl.fields| && decl.fields[i].name == name && decl.fields[i].ftype.Reference?
  }

  /** Cell `i` is the last cell of its name. */
  predicate LastOf(cells: seq<Cell>, i: int)
  {
    0 <= i < |cells| && forall j :: i < j < |cells| ==> cells[j].name != cells[i].name
  }

  /** The attributes after copying the cells in order: each cell that is not
      a reference overwrites its attribute; reference cells leave the
      attributes alone. */
  function Assigned(fields: map<string, Value>, decl: KindDecl, cells: seq<Cell>): (r: map<string, Value>)
    decreases |cells|
  {
    if |cells| == 0 then fields
    else
      var prev := Assigned(fields, decl, cells[..|cells| - 1]);
      var c := cells[|cells| - 1];
      if IsReference(decl, c.name) then prev else prev[c.name := c.value]
  }

  /** An attribute exists after the copy exactly when it existed before or
      a cell that is not a reference names it. */
  lemma {:induction false} AssignedKeys(fields: map<string, Value>, decl: KindDecl, cells: seq<Cell>)
    ensures forall nm :: nm in Assigned(fields, decl, cells) <==>
      nm in fields || exists i :: 0 <= i < |cells| && cells[i].name == nm && !IsReference(decl, nm)
    decreases |cells|
  {
    if |cells| > 0 {
      var n := |cells|;
      var init := cells[..n - 1];
      AssignedKeys(fields, decl, init);
      assert forall i :: 0 <= i < n - 1 ==> init[i] == cells[i];
    }
  }

  /** The last cell of each name that is not a reference decides the
      attribute. */
  lemma {:induction false} AssignedLast(fields: map<string, Value>, decl: KindDecl, cells: seq<Cell>)
    ensures forall i :: LastOf(cells, i) && !IsReference(decl, cells[i].name) ==>
      cells[i].name in Assigned(fields, decl, cells) && Assigned(fields, decl, cells)[cells[i].name] == cells[i].value
    decreases |cells|
  {
    if |cells| > 0 {
      var n := |cells|;
      var init := cells[..n - 1];
      AssignedLast(fields, decl, init);
      forall i | LastOf(cells, i) && !IsReference(decl, cells[i].name) && i < n - 1
        ensures LastOf(init, i)
      {
        assert init[i] == cells[i];
        forall j | i < j < n - 1
          ensures init[j].name != init[i].name
        {
          assert init[j] == cells[j];
        }
      }
    }
  }

  /** Attributes that no cell overwrites keep their value. */
  lemma {:induction false} AssignedKept(fields: map<string, Value>, decl: KindDecl, cells: seq<Cell>)
    ensures forall nm :: nm in fields && (IsReference(decl, nm) || forall i :: 0 <= i < |cells| ==> cells[i].name != nm) ==>
      nm in Assigned(fields, decl, cells) && Assigned(fields, decl, cells)[nm] == fields[nm]
    decreases |cells|
  {
    if |cells| > 0 {
      var n := |cells|;
      var init := cells[..n - 1];
      AssignedKept(fields, decl, init);
      forall nm | nm in fields && (IsReference(decl, nm) || forall i :: 0 <= i < |cells| ==> cells[i].name != nm)
        ensures IsReference(decl, nm) || forall i :: 0 <= i < |init| ==> init[i].name != nm
      {
        if !IsReference(decl, nm) {
          forall i | 0 <= i < |init|
            ensures init[i].name != nm
          {
            assert init[i] == cells[i];
          }
        }
      }
    }
  }

  /** The calls into the reference helpers that copying the cells makes, in
      cell order: one per reference cell, with the raw key. */
  function ReferenceEvents(h: Handle, decl: KindDecl, cells: seq<Cell>): (r: seq<Statement>)
    ensures |r| <= |cells|
    ensures forall e :: e in r ==> e.ReferenceLoaded? && e.item == h && IsReference(decl, e.field)
    ensures forall i :: 0 <= i < |cells| && IsReference(decl, cells[i].name) ==>
      ReferenceLoaded(h, cells[i].name, cells[i].value) in r
    decreases |cells|
  {
    if |cells| == 0 then []
    else
      var n := |cells|;
      var init := cells[..n - 1];
      assert forall i :: 0 <= i < n - 1 ==> init[i] == cells[i];
      var c := cells[n - 1];
      ReferenceEvents(h, decl, init) + (if IsReference(decl, c.name) then [ReferenceLoaded(h, c.name, c.value)] else [])
  }

  /** `CopyRowToData` into instance `h`: its key becomes the row's `dbid`,
      the cells are copied in order, and then its lists are marked as
      loaded from the engine. The kind and identity of `h` do not change. */
  function CopyRowToData(s: Store, h: Handle, decl: KindDecl, row: ResultRow): (r: Store)
    requires Valid(s) && h in s.heap
    ensures Valid(r)
    ensures r.heap == s.heap[h := Instance(s.heap[h].kind, Some(row.dbid), Assigned(s.heap[h].fields, decl, row.cells))]
    ensures r.log == s.log + (ReferenceEvents(h, decl, row.cells) + [ListsMarked(h)])
    ensures r == s.(heap := r.heap, log := r.log)
  {
    var item := s.heap[h];
    var r := s.(heap := s.heap[h := Instance(item.kind, Some(row.dbid), Assigned(item.fields, decl, row.cells))],
                log := s.log + (ReferenceEvents(h, decl, row.cells) + [ListsMarked(h)]));
    assert forall k, d :: k in r.cache && d in r.cache[k] ==> r.cache[k][d] in r.heap && r.heap[r.cache[k][d]].kind == k by {
      forall k, d | k in r.cache && d in r.cache[k]
        ensures r.cache[k][d] in r.heap && r.heap[r.cache[k][d]].kind == k
      {
        assert s.cache[k][d] in s.heap && s.heap[s.cache[k][d]].kind == k;
      }
    }
    r
  }

  /** `ProcessRow`: a row whose `dbid` is cached for the kind is copied into
      the cached instance, which is returned; otherwise a new instance of
      the kind is allocated, filled from the row and cached under the
      `dbid`. */
  function ProcessRow(s: Store, k: string, row: ResultRow): (r: Fetched)
    requires Valid(s) && k in s.kinds && k in s.cache
    ensures Valid(r.store)
    ensures r.handle in r.store.heap && r.store.heap[r.handle].kind == k
    ensures k in r.store.cache && row.dbid in r.store.cache[k] && r.store.cache[k][row.dbid] == r.handle
    ensures row.dbid in s.cache[k] ==>
      && r.handle == s.cache[k][row.dbid]
      && r.store.cache == s.cache && r.store.next == s.next
      && r.store.heap[r.handle] == Instance(k, Some(row.dbid), Assigned(s.heap[r.handle].fields, s.kinds[k], row.cells))
    ensures row.dbid !in s.cache[k] ==>
      && r.handle == s.next && r.handle !in s.heap && r.store.next == s.next + 1
      && r.store.cache == s.cache[k := s.cache[k][row.dbid := r.handle]]
      && r.store.heap[r.handle] == Instance(k, Some(row.dbid), Assigned(map[], s.kinds[k], row.cells))
    ensures forall g :: g in s.heap && g != r.handle ==> g in r.store.heap && r.store.heap[g] == s.heap[g]
    ensures r.store.heap.Keys == s.heap.Keys + {r.handle}
    ensures r.store.log == s.log + (ReferenceEvents(r.handle, s.kinds[k], row.cells) + [ListsMarked(r.handle)])
    ensures r.store == s.(heap := r.store.heap, cache := r.store.cache, next := r.store.next, log := r.store.log)
  {
    var decl := s.kinds[k];
    if row.dbid in s.cache[k] then
      var h := s.cache[k][row.dbid];
      Fetched(CopyRowToData(s, h, decl, row), h)
    else
      var a := New(s, k, map[]);
      var s1 := CopyRowToData(a.store, a.handle, decl, row);
      var r := s1.(cache := s1.cache[k := s1.cache[k][row.dbid := a.handle]]);
      CacheValid(s1, k, row.dbid, a.handle, r);
      Fetched(r, a.handle)
  }

  /** Caching an instance of kind `k` in bucket `k` keeps the store valid. */
  lemma CacheValid(s: Store, k: string, d: int, h: Handle, r: Store)
    requires Valid(s) && k in s.cache && h in s.heap && s.heap[h].kind == k
    requires r == s.(cache := s.cache[k := s.cache[k][d := h]])
    ensures Valid(r)
  {
    forall j, e | j in r.cache && e in r.cache[j]
      ensures r.cache[j][e] in r.heap && r.heap[r.cache[j][e]].kind == j
    {
      if j != k || e != d {
        assert r.cache[j][e] == s.cache[j][e];
      }
    }
  }

  /** What a read changes, from `s` to `r`, with `k` the kind read: the
      schema and the tables stay, bucket `k` only gains entries, other
      buckets stay, no instance changes kind, and the log only grows. */
  predicate Grows(s: Store, r: Store, k: string)
  {
    && r.registry == s.registry && r.columns == s.columns && r.tableNames == s.tableNames
    && r.kinds == s.kinds && r.registered == s.registered && r.tables == s.tables
    && k in s.cache && k in r.cache && r.cache.Keys == s.cache.Keys
    && (forall d :: d in s.cache[k] ==> d in r.cache[k] && r.cache[k][d] == s.cache[k][d])
    && (forall j :: j in s.cache && j != k ==> r.cache[j] == s.cache[j])
    && (forall g :: g in s.heap ==> g in r.heap && r.heap[g].kind == s.heap[g].kind)
    && s.next <= r.next && s.log <= r.log
  }

  lemma GrowsTransitive(s: Store, t: Store, u: Store, k: string)
    requires Grows(s, t, k) && Grows(t, u, k)
    ensures Grows(s, u, k)
  {
  }

  /** Processing one row grows the store. */
  lemma ProcessRowGrows(s: Store, k: string, row: ResultRow)
    requires Valid(s) && k in s.kinds && k in s.cache
    ensures Grows(s, ProcessRow(s, k, row).store, k)
  {
  }

  /** Instance `inst` holds row `row` of kind `k`: its key is the row's
      `dbid` and the last cell of each name that is not a reference is the
      value of its attribute. */
  ghost predicate Loaded(inst: Instance, k: string, decl: KindDecl, row: ResultRow)
  {
    && inst.kind == k && inst.dbid == Some(row.dbid)
    && forall i :: LastOf(row.cells, i) && !IsReference(decl, row.cells[i].name) ==>
         row.cells[i].name in inst.fields && inst.fields[row.cells[i].name] == row.cells[i].value
  }

  /** The instance `ProcessRow` returns holds the row. */
  lemma ProcessRowLoads(s: Store, k: string, row: ResultRow)
    requires Valid(s) && k in s.kinds && k in s.cache
    ensures var f := ProcessRow(s, k, row);
            Loaded(f.store.heap[f.handle], k, s.kinds[k], row)
  {
    var f := ProcessRow(s, k, row);
    if row.dbid in s.cache[k] {
      AssignedLast(s.heap[f.handle].fields, s.kinds[k], row.cells);
    } else {
      AssignedLast(map[], s.kinds[k], row.cells);
    }
  }

  /** The loop over the rows of one selection: each row through
      `ProcessRow`, in order, collecting the instances. Two rows with the
      same `dbid` yield the same instance. */
  method ProcessRows(s: Store, k: string, rows: seq<ResultRow>) returns (r: Selected)
    requires Valid(s) && k in s.kinds && k in s.cache
    ensures Valid(r.store) && Grows(s, r.store, k) && |r.handles| == |rows|
    ensures forall i :: 0 <= i < |rows| ==> rows[i].dbid in r.store.cache[k] && r.store.cache[k][rows[i].dbid] == r.handles[i]
    ensures LoadedRows(r.store.heap, r.handles, k, s.kinds[k], rows)
  {
    var st := s;
    var hs: seq<Handle> := [];
    var n := 0;
    while n < |rows|
      invariant 0 <= n <= |rows| && Processed(s, k, rows[..n], st, hs)
    {
      var f := ProcessRow(st, k, rows[n]);
      ProcessedStep(s, k, rows[..n], st, hs, rows[n]);
      TakeOneMore(rows, n);
      st, hs, n := f.store, hs + [f.handle], n + 1;
    }
    assert rows[..n] == rows;
    r := Selected(st, hs);
  }

  /** What the loop of `ProcessRows` keeps after the rows `done`: the store
      `st` grew from `s`, each row's `dbid` is cached to its instance, and
      the instances hold their rows. */
  ghost predicate Processed(s: Store, k: string, done: seq<ResultRow>, st: Store, hs: seq<Handle>)
  {
    && Valid(st) && k in s.kinds && Grows(s, st, k) && |hs| == |done|
    && (forall i :: 0 <= i < |done| ==> done[i].dbid in st.cache[k] && st.cache[k][done[i].dbid] == hs[i])
    && LoadedRows(st.heap, hs, k, s.kinds[k], done)
  }

  /** One turn of the loop of `ProcessRows`. */
  lemma ProcessedStep(s: Store, k: string, done: seq<ResultRow>, st: Store, hs: seq<Handle>, row: ResultRow)
    requires Processed(s, k, done, st, hs)
    ensures var f := ProcessRow(st, k, row);
            Processed(s, k, done + [row], f.store, hs + [f.handle])
  {
    var f := ProcessRow(st, k, row);
    ProcessRowGrows(st, k, row);
    ProcessRowLoads(st, k, row);
    GrowsTransitive(s, st, f.store, k);
    EntriesStep(done + [row], hs, f.handle, st.cache[k], f.store.cache[k]);
    LoadedStep(st.heap, f.store.heap, hs, f.handle, k, s.kinds[k], done, row);
  }

  /** Every returned instance that no later row returns again holds its
      row: it is allocated, of kind `k`, keyed by the row's `dbid`, and
      carries the row's values. A later row with the same instance
      overwrites it. */
  ghost predicate LoadedRows(heap: map<Handle, Instance>, hs: seq<Handle>, k: string, decl: KindDecl, rows: seq<ResultRow>)
  {
    && |hs| == |rows|
    && (forall i :: 0 <= i < |hs| ==> hs[i] in heap)
    && forall i :: 0 <= i < |hs| && (forall j :: i < j < |hs| ==> hs[j] != hs[i]) ==> Loaded(heap[hs[i]], k, decl, rows[i])
  }

  /** One more row: only its instance changes, and it now holds the row. */
  lemma LoadedStep(before: map<Handle, Instance>, after: map<Handle, Instance>, hs: seq<Handle>, h: Handle,
                   k: string, decl: KindDecl, rows: seq<ResultRow>, row: ResultRow)
    requires LoadedRows(before, hs, k, decl, rows)
    requires h in after && Loaded(after[h], k, decl, row)
    requires forall g :: g in before && g != h ==> g in after && after[g] == before[g]
    ensures LoadedRows(after, hs + [h], k, decl, rows + [row])
  {
    var hs2, rows2 := hs + [h], rows + [row];
    forall i | 0 <= i < |hs2| && (forall j :: i < j < |hs2| ==> hs2[j] != hs2[i])
      ensures Loaded(after[hs2[i]], k, decl, rows2[i])
    {
      if i < |hs| {
        assert hs2[|hs|] != hs2[i];
        assert forall j :: i < j < |hs| ==> hs[j] == hs2[j];
        assert Loaded(before[hs[i]], k, decl, rows[i]);
      }
    }
  }

  /** The entries cached for the rows before `|hs|` survive a bucket that
      only gains entries, and the next row's entry is the next handle. */
  lemma EntriesStep(rows: seq<ResultRow>, hs: seq<Handle>, h: Handle, before: map<int, Handle>, after: map<int, Handle>)
    requires |hs| < |rows|
    requires forall i :: 0 <= i < |hs| ==> rows[i].dbid in before && before[rows[i].dbid] == hs[i]
    requires forall d :: d in before ==> d in after && after[d] == before[d]
    requires rows[|hs|].dbid in after && after[rows[|hs|].dbid] == h
    ensures forall i :: 0 <= i < |hs| + 1 ==> rows[i].dbid in after && after[rows[i].dbid] == (hs + [h])[i]
  {
  }

  /** The text `ExecuteSelect` sends: the table, the predicate and an
      optional ordering. */
  function SelectCommand(table: string, where: Fragment, orderby: string): (r: string)
    ensures NoPlaceholders(table) && NoPlaceholders(orderby) && Balanced(where) ==>
      Placeholders(r) == |where.values|
  {
    SelectPlaceholders(table, where.text, orderby);
    "select * from " + table + " where " + where.text + (if orderby != "" then " order by " + orderby else "")
  }

  lemma SelectPlaceholders(table: string, text: string, orderby: string)
    ensures Placeholders("select * from " + table + " where " + text + (if orderby != "" then " order by " + orderby else ""))
         == Placeholders(table) + Placeholders(text) + Placeholders(orderby)
  {
    CommandLiterals();
    var tail := if orderby != "" then " order by " + orderby else "";
    if orderby != "" {
      PlaceholdersAppend(" order by ", orderby);
    } else {
      assert multiset(orderby) == multiset{};
    }
    PlaceholdersAppend("select * from ", table);
    PlaceholdersAppend("select * from " + table, " where ");
    PlaceholdersAppend("select * from " + table + " where ", text);
    PlaceholdersAppend("select * from " + table + " where " + text, tail);
  }

  /** What a read needs: the kind is registered and its table exists. */
  predicate Readable(s: Store, k: string)
  {
    Registered(s, k) && s.tableNames[k] in s.tables
  }

  /** `Select`: the selection is sent with the predicate's values bound, and
      every row of the engine's answer goes through `ProcessRow`, so a row
      whose `dbid` is already cached yields the cached instance. */
  method Select(s: Store, k: string, where: Fragment, orderby: string, answer: seq<ResultRow>) returns (r: Selected)
    requires Valid(s) && Readable(s, k)
    ensures Valid(r.store) && Grows(s, r.store, k) && |r.handles| == |answer|
    ensures forall i :: 0 <= i < |answer| ==> answer[i].dbid in r.store.cache[k] && r.store.cache[k][answer[i].dbid] == r.handles[i]
    ensures s.log + [Execute(SelectCommand(s.tableNames[k], where, orderby), where.values)] <= r.store.log
    ensures LoadedRows(r.store.heap, r.handles, k, s.kinds[k], answer)
  {
    var s1 := s.(log := s.log + [Execute(SelectCommand(s.tableNames[k], where, orderby), where.values)]);
    r := ProcessRows(s1, k, answer);
    GrowsTransitive(s, s1, r.store, k);
  }

  /** `SelectOne`: the selection without ordering; nothing when the engine
      answers no row, else the first row through `ProcessRow`. */
  function SelectOne(s: Store, k: string, where: Fragment, answer: Option<ResultRow>): (r: Found)
    requires Valid(s) && Readable(s, k)
    ensures Valid(r.store) && Grows(s, r.store, k)
    ensures answer.None? <==> r.handle.None?
    ensures answer.Some? ==>
      answer.value.dbid in r.store.cache[k] && r.store.cache[k][answer.value.dbid] == r.handle.value
    ensures s.log + [Execute(SelectCommand(s.tableNames[k], where, ""), where.values)] <= r.store.log
    ensures answer.Some? ==> Loaded(r.store.heap[r.handle.value], k, s.kinds[k], answer.value)
  {
    var s1 := s.(log := s.log + [Execute(SelectCommand(s.tableNames[k], where, ""), where.values)]);
    match answer
    case None => Found(s1, None)
    case Some(row) =>
      var f := ProcessRow(s1, k, row);
      ProcessRowGrows(s1, k, row);
      ProcessRowLoads(s1, k, row);
      GrowsTransitive(s, s1, f.store, k);
      Found(f.store, Some(f.handle))
  }

  /** The first row of `rows` whose key column holds `index`. */
  function Lookup(rows: seq<Row>, index: int): (r: Option<nat>)
    ensures r.Some? ==> r.value < |rows| && |rows[r.value]| > 0 && rows[r.value][0] == Int(index)
    ensures r.Some? ==> forall i :: 0 <= i < r.value ==> !(|rows[i]| > 0 && rows[i][0] == Int(index))
    ensures r.None? ==> forall i :: 0 <= i < |rows| ==> !(|rows[i]| > 0 && rows[i][0] == Int(index))
    decreases |rows|
  {
    if |rows| == 0 then None
    else if |rows[0]| > 0 && rows[0][0] == Int(index) then Some(0)
    else
      match Lookup(rows[1..], index)
      case None => None
      case Some(j) => Some(j + 1)
  }

  /** The cells of a stored row: the row's values after the key, named by
      the kind's columns, as far as both go. */
  function RowCells(cols: seq<Column>, row: Row): (r: seq<Cell>)
    requires |row| > 0
    ensures |r| == if |cols| < |row| - 1 then |cols| else |row| - 1
    ensures forall i :: 0 <= i < |r| ==> r[i] == Cell(cols[i].name, row[i + 1])
  {
    var n := if |cols| < |row| - 1 then |cols| else |row| - 1;
    seq(n, i requires 0 <= i < n => Cell(cols[i].name, row[i + 1]))
  }

  /** `SelectAtIndex`: the row whose primary key is `index`, through
      `ProcessRow`; nothing when the table has no such row. */
  function SelectAtIndex(s: Store, k: string, index: int): (r: Found)
    requires Valid(s) && Readable(s, k)
    ensures Valid(r.store) && Grows(s, r.store, k)
    ensures var rows := s.tables[s.tableNames[k]];
      (r.handle.Some? <==> exists i :: 0 <= i < |rows| && |rows[i]| > 0 && rows[i][0] == Int(index))
    ensures r.handle.Some? ==>
      && index in r.store.cache[k] && r.store.cache[k][index] == r.handle.value
      && r.store.heap[r.handle.value].dbid == Some(index)
    ensures var rows := s.tables[s.tableNames[k]];
      r.handle.Some? ==>
        && Lookup(rows, index).Some?
        && Loaded(r.store.heap[r.handle.value], k, s.kinds[k],
                  ResultRow(index, RowCells(s.columns[k], rows[Lookup(rows, index).value])))
    ensures s.log + [Execute("select * from " + s.tableNames[k] + " where dbid = " + "?", [Int(index)])] <= r.store.log
  {
    var t := s.tableNames[k];
    var s1 := s.(log := s.log + [Execute("select * from " + t + " where dbid = " + "?", [Int(index)])]);
    match Lookup(s.tables[t], index)
    case None => Found(s1, None)
    case Some(j) =>
      var row := s.tables[t][j];
      var f := ProcessRow(s1, k, ResultRow(index, RowCells(s.columns[k], row)));
      ProcessRowGrows(s1, k, ResultRow(index, RowCells(s.columns[k], row)));
      ProcessRowLoads(s1, k, ResultRow(index, RowCells(s.columns[k], row)));
      GrowsTransitive(s, s1, f.store, k);
      Found(f.store, Some(f.handle))
  }

  /** The `limit` of `RandomEntries`: at least one row is asked for. */
  function RandomLimit(num: int): (r: nat)
    ensures r >= 1 && r >= num
    ensures r == num || r == 1
  {
    if num < 1 then 1 else num
  }

  /** The text `RandomEntries` sends. */
  function RandomCommand(table: string, num: int): string
  {
    "select * from " + table + " order by random() limit " + Decimal(RandomLimit(num))
  }

  /** `RandomEntries`: the engine orders the rows at random (`shuffled` is
      its order) and keeps the first `RandomLimit(num)` of them; each kept
      row goes through `ProcessRow`. */
  method RandomEntries(s: Store, k: string, num: int, shuffled: seq<ResultRow>) returns (r: Selected)
    requires Valid(s) && Readable(s, k)
    ensures Valid(r.store) && Grows(s, r.store, k)
    ensures |r.handles| == if |shuffled| < RandomLimit(num) then |shuffled| else RandomLimit(num)
    ensures 1 <= |shuffled| ==> 1 <= |r.handles|
    ensures forall i :: 0 <= i < |r.handles| ==> shuffled[i].dbid in r.store.cache[k] && r.store.cache[k][shuffled[i].dbid] == r.handles[i]
    ensures s.log + [Execute(RandomCommand(s.tableNames[k], num), [])] <= r.store.log
    ensures LoadedRows(r.store.heap, r.handles, k, s.kinds[k], shuffled[..|r.handles|])
  {
    var n := if |shuffled| < RandomLimit(num) then |shuffled| else RandomLimit(num);
    var s1 := s.(log := s.log + [Execute(RandomCommand(s.tableNames[k], num), [])]);
    r := ProcessRows(s1, k, shuffled[..n]);
    GrowsTransitive(s, s1, r.store, k);
  }
}

=== FILE: registration.dfy ===
/** Kind registration and table creation of narwhal/sql.py
    (`RegisterTables`, `CreateTables`, `CreateTable`). */
module Registration {
  import opened Values
  import opened Text
  import opened TypeRegistry
  import opened Schema
  import opened Store

  /** The table name a kind ends up with: one set on the class itself, else
      the one an earlier registration gave it, else the lower-cased kind
      name with the `_table` suffix. */
  function TableNameFor(s: Store, decl: KindDecl): (r: string)
    ensures decl.tableName.Some? ==> r == decl.tableName.value
    ensures decl.tableName.None? && decl.name in s.tableNames ==> r == s.tableNames[decl.name]
    ensures decl.tableName.None? && decl.name !in s.tableNames ==> r == Lower(decl.name) + "_table"
  {
    if decl.tableName.Some? then decl.tableName.value
    else if decl.name in s.tableNames then s.tableNames[decl.name]
    else DefaultTableName(decl.name)
  }

  /** Registering one kind: its bucket of the identity cache is reset; its
      column list (created empty if missing) receives, in place, the list
      columns its own list fields register on it, then its derived columns;
      its list fields register their columns on the child kinds. */
  function RegisterKind(s: Store, decl: KindDecl): (r: Store)
    requires Valid(s)
    ensures Valid(r)
    ensures Registered(r, decl.name) && r.kinds == s.kinds[decl.name := decl]
    ensures forall j :: Registered(s, j) ==> Registered(r, j)
    ensures r.cache == s.cache[decl.name := map[]]
    ensures r.tableNames == s.tableNames[decl.name := TableNameFor(s, decl)]
    ensures r.heap == s.heap && r.next == s.next && r.tables == s.tables && r.log == s.log
    ensures r.registry == s.registry && r.registered == s.registered
  {
    var k := decl.name;
    var cols0 := s.columns[k := ColumnsOf(s.columns, k)];
    var made := MakeColumns(s.registry, cols0, k, decl.fields);
    var own := made.columns[k] + made.derived;
    s.(columns := made.columns[k := own],
       tableNames := s.tableNames[k := TableNameFor(s, decl)],
       kinds := s.kinds[k := decl],
       cache := s.cache[k := map[]])
  }

  /** Registration keeps every column list it had and extends the kind's
      own: what it held before (the list columns of other kinds pointing
      at it included), then the list columns of its own list fields whose
      child is the kind itself, then the derived columns in declaration
      order. Every other kind gains only the list columns of `decl`'s list
      fields naming it as child. */
  lemma RegisterKindColumns(s: Store, decl: KindDecl)
    requires Valid(s)
    ensures var r := RegisterKind(s, decl);
            var k := decl.name;
            var own := RegisterLists(s.registry, s.columns[k := ColumnsOf(s.columns, k)], k, decl.fields)[k];
            && r.columns[k] == own + DeriveColumns(s.registry, decl.fields)
            && ColumnsOf(s.columns, k) <= own
            && (forall c :: c in own ==> c in ColumnsOf(s.columns, k) || ListColumnOf(s.registry, k, decl.fields, k, c))
            && (forall i :: 0 <= i < |decl.fields| && ColumnFor(s.registry, decl.fields[i]).Some? ==>
                  ColumnFor(s.registry, decl.fields[i]).value in r.columns[k])
            && (forall j :: j in s.columns ==> j in r.columns && s.columns[j] <= r.columns[j])
            && (forall j, c :: j != k && c in ColumnsOf(r.columns, j) ==>
                  c in ColumnsOf(s.columns, j) || ListColumnOf(s.registry, k, decl.fields, j, c))
  {
    var k := decl.name;
    var cols0 := s.columns[k := ColumnsOf(s.columns, k)];
    var made := MakeColumns(s.registry, cols0, k, decl.fields);
    DerivedPresent(s.registry, decl.fields);
    RegisterListsOnly(s.registry, cols0, k, decl.fields);
    assert k in cols0 && cols0[k] <= made.columns[k];
    assert forall j :: j != k ==> ColumnsOf(cols0, j) == ColumnsOf(s.columns, j);
    assert ColumnsOf(cols0, k) == ColumnsOf(s.columns, k);
    assert forall j :: j != k ==> ColumnsOf(RegisterKind(s, decl).columns, j) == ColumnsOf(made.columns, j);
  }

  /** Every recognised field's column is among the derived columns. */
  lemma DerivedPresent(reg: Registry, fields: seq<Field>)
    ensures forall i :: 0 <= i < |fields| && ColumnFor(reg, fields[i]).Some? ==>
              ColumnFor(reg, fields[i]).value in DeriveColumns(reg, fields)
  {
    forall i | 0 <= i < |fields| && ColumnFor(reg, fields[i]).Some?
      ensures ColumnFor(reg, fields[i]).value in DeriveColumns(reg, fields)
    {
      OriginsComplete(reg, fields);
      OriginsMatch(reg, fields);
      var j :| 0 <= j < |Origins(reg, fields)| && Origins(reg, fields)[j] == i;
      assert Some(DeriveColumns(reg, fields)[j]) == ColumnFor(reg, fields[i]);
    }
  }

  function Names(decls: seq<KindDecl>): (r: seq<string>)
    ensures |r| == |decls| && forall i :: 0 <= i < |decls| ==> r[i] == decls[i].name
  {
    seq(|decls|, i requires 0 <= i < |decls| => decls[i].name)
  }

  /** The kinds in order, each registered after the ones before it. */
  function RegisterAll(s: Store, decls: seq<KindDecl>): (r: Store)
    requires Valid(s)
    ensures Valid(r)
    ensures r.heap == s.heap && r.next == s.next && r.tables == s.tables && r.log == s.log
    ensures r.registry == s.registry && r.registered == s.registered
    decreases |decls|
  {
    if |decls| == 0 then s
    else
      var n := |decls|;
      RegisterKind(RegisterAll(s, decls[..n - 1]), decls[n - 1])
  }

  /** After the loop every listed kind is registered with an empty cache
      bucket, whatever the order of the list. */
  lemma {:induction false} RegisterAllRegisters(s: Store, decls: seq<KindDecl>)
    requires Valid(s)
    ensures forall i :: 0 <= i < |decls| ==>
              Registered(RegisterAll(s, decls), decls[i].name) && RegisterAll(s, decls).cache[decls[i].name] == map[]
    decreases |decls|
  {
    if |decls| > 0 {
      var n := |decls|;
      var init := decls[..n - 1];
      RegisterAllRegisters(s, init);
      var s1 := RegisterAll(s, init);
      var r := RegisterAll(s, decls);
      assert r == RegisterKind(s1, decls[n - 1]);
      forall i | 0 <= i < n
        ensures Registered(r, decls[i].name) && r.cache[decls[i].name] == map[]
      {
        if i < n - 1 {
          assert init[i] == decls[i];
          assert Registered(s1, decls[i].name) && s1.cache[decls[i].name] == map[];
        }
      }
    }
  }

  /** `RegisterTables`: records the kinds for `CreateTables` and registers
      each. Nothing is sent to the engine. */
  function RegisterTables(s: Store, decls: seq<KindDecl>): (r: Store)
    requires Valid(s)
    ensures Valid(r) && r.registered == Names(decls)
    ensures forall i :: 0 <= i < |decls| ==> Registered(r, decls[i].name) && r.cache[decls[i].name] == map[]
    ensures r.heap == s.heap && r.tables == s.tables && r.log == s.log
  {
    RegisterAllRegisters(s, decls);
    RegisterAll(s, decls).(registered := Names(decls))
  }

  /** `CreateTable`: creates the kind's empty table and commits. The source
      indexes the last column, so the kind needs at least one; the engine
      refuses a table that exists. */
  function CreateTable(s: Store, k: string): (r: Store)
    requires Valid(s) && Registered(s, k) && |s.columns[k]| > 0 && s.tableNames[k] !in s.tables
    ensures Valid(r)
    ensures r.tables == s.tables[s.tableNames[k] := []]
    ensures r.log == s.log + [Execute(CreateTableCommand(s.tableNames[k], s.columns[k]), []), Commit]
    ensures r == s.(tables := r.tables, log := r.log)
  {
    var t := s.tableNames[k];
    s.(tables := s.tables[t := []], log := s.log + [Execute(CreateTableCommand(t, s.columns[k]), []), Commit])
  }

  /** The kinds that `CreateTables` creates a table for: those with columns. */
  predicate HasColumns(s: Store, k: string)
  {
    k in s.columns && |s.columns[k]| > 0
  }

  /** The tables `CreateTables` creates are new and pairwise distinct. */
  predicate Creatable(s: Store, ks: seq<string>)
  {
    && (forall i :: 0 <= i < |ks| ==> Registered(s, ks[i]))
    && (forall i :: 0 <= i < |ks| && HasColumns(s, ks[i]) ==> s.tableNames[ks[i]] !in s.tables)
    && (forall i, j :: 0 <= i < j < |ks| && HasColumns(s, ks[i]) && HasColumns(s, ks[j]) ==>
          s.tableNames[ks[i]] != s.tableNames[ks[j]])
  }

  /** The empty tables the loop of `CreateTables` adds for `ks`: one per
      kind with columns, under the kind's table name. */
  function EmptyTables(s: Store, ks: seq<string>): (r: map<string, seq<Row>>)
    requires forall i :: 0 <= i < |ks| ==> ks[i] in s.tableNames
    ensures forall i :: 0 <= i < |ks| && HasColumns(s, ks[i]) ==> s.tableNames[ks[i]] in r
    ensures forall u :: u in r ==> r[u] == [] && exists i :: 0 <= i < |ks| && HasColumns(s, ks[i]) && u == s.tableNames[ks[i]]
    decreases |ks|
  {
    if |ks| == 0 then map[]
    else
      var n := |ks|;
      var init := ks[..n - 1];
      assert forall i :: 0 <= i < n - 1 ==> init[i] == ks[i];
      var prev := EmptyTables(s, init);
      if HasColumns(s, ks[n - 1]) then prev[s.tableNames[ks[n - 1]] := []] else prev
  }

  lemma MergeUpdate<V>(a: map<string, V>, b: map<string, V>, t: string, v: V)
    ensures (a + b)[t := v] == a + b[t := v]
  {
  }

  /** The loop of `CreateTables` over the given kinds, in order. */
  function CreateAll(s: Store, ks: seq<string>): (r: Store)
    requires Valid(s) && Creatable(s, ks)
    ensures Valid(r) && r == s.(tables := r.tables, log := r.log) && s.log <= r.log
    ensures r.tables == s.tables + EmptyTables(s, ks)
    decreases |ks|
  {
    if |ks| == 0 then s
    else
      var n := |ks|;
      var init := ks[..n - 1];
      assert forall i :: 0 <= i < n - 1 ==> init[i] == ks[i];
      var s1 := CreateAll(s, init);
      var k := ks[n - 1];
      if HasColumns(s1, k) then
        assert s1.tableNames[k] !in s1.tables by {
          forall i | 0 <= i < n - 1 && HasColumns(s, init[i])
            ensures s.tableNames[init[i]] != s.tableNames[k]
          {
            assert init[i] == ks[i];
          }
        }
        var r := CreateTable(s1, k);
        assert s1.tableNames == s.tableNames && HasColumns(s, k);
        MergeUpdate(s.tables, EmptyTables(s, init), s.tableNames[k], []);
        r
      else s1
  }

  /** `CreateTables`: a table for every registered kind that has columns;
      the tables already there are left as they are. */
  function CreateTables(s: Store): (r: Store)
    requires Valid(s) && Creatable(s, s.registered)
    ensures Valid(r) && r == s.(tables := r.tables, log := r.log)
    ensures forall i :: 0 <= i < |s.registered| && HasColumns(s, s.registered[i]) ==>
              s.tableNames[s.registered[i]] in r.tables && r.tables[s.tableNames[s.registered[i]]] == []
    ensures forall u :: u in s.tables ==> u in r.tables && r.tables[u] == s.tables[u]
    ensures forall u :: u in r.tables ==> u in s.tables || exists i :: 0 <= i < |s.registered| && HasColumns(s, s.registered[i]) && u == s.tableNames[s.registered[i]]
  {
    CreateAll(s, s.registered)
  }
}

=== FILE: schema.dfy ===
/** Schema derivation of narwhal/sql.py: declared fields become an ordered
    column list, `List[...]` fields register two synthetic integer columns on
    the child kind, and the `create table` command is built from the
    columns. Python reflection over annotations is replaced by an explicit
    description of each declared field type. */
module Schema {
  import opened Values
  import opened Text
  import opened TypeRegistry

  /** The declared type of a field, as the source's annotation inspection
      classifies it. A plain class carries its name; a generic alias
      (`Reference[X]`, `List[X]`, anything else) has no name of its own and
      is classified by its origin. */
  datatype FieldType =
    | Scalar(className: string)                   // a class without its own storage type
    | Custom(className: string, sqlType: string)  // a class that declares `__sql_type__`
    | Reference(sqlType: string)                  // `Reference[X]`: origin declares `__sql_type__`
    | ListOf(child: string)                       // `List[X]`: ordered children of kind X
    | Other                                       // any other generic alias

  datatype Field = Field(name: string, ftype: FieldType)

  datatype Column = Column(name: string, sqlType: string)

  /** An entity kind: its name, its fields in declaration order, a table
      name set on the class itself (if any) and the immutability flag. */
  datatype KindDecl = KindDecl(name: string, fields: seq<Field>, tableName: Option<string>, immutable: bool)

  /** The name the type-table lookup sees: a class's name, the empty string
      for a generic alias. */
  function ClassName(t: FieldType): string
  {
    match t
    case Scalar(n) => n
    case Custom(n, _) => n
    case _ => ""
  }

  /** The column one field contributes, if any: the type table first, then a
      declared storage type; lists and unrecognised types contribute none. */
  function ColumnFor(reg: Registry, f: Field): (r: Option<Column>)
    ensures ClassName(f.ftype) in reg.typeTable ==> r == Some(Column(f.name, reg.typeTable[ClassName(f.ftype)]))
    ensures ClassName(f.ftype) !in reg.typeTable && f.ftype.Custom? ==> r == Some(Column(f.name, f.ftype.sqlType))
    ensures ClassName(f.ftype) !in reg.typeTable && f.ftype.Reference? ==> r == Some(Column(f.name, f.ftype.sqlType))
    ensures f.ftype.Scalar? && f.ftype.className !in reg.typeTable ==> r == None
    ensures (f.ftype.ListOf? || f.ftype.Other?) && "" !in reg.typeTable ==> r == None
  {
    var cn := ClassName(f.ftype);
    if cn in reg.typeTable then Some(Column(f.name, reg.typeTable[cn]))
    else match f.ftype
      case Custom(_, t) => Some(Column(f.name, t))
      case Reference(t) => Some(Column(f.name, t))
      case _ => None
  }

  /** Whether the field registers a child list instead of a column. */
  predicate RegistersList(reg: Registry, f: Field)
  {
    ColumnFor(reg, f).None? && f.ftype.ListOf?
  }

  /** Base name of the two list columns: `_<parent lower>_<field>_list`. */
  function ListIdentifier(parent: string, field: string): string
  {
    "_" + Lower(parent) + "_" + field + "_list"
  }

  function MakeListId(base: string): string
  {
    base + "_id"
  }

  function MakeListOrder(base: string): string
  {
    base + "_order"
  }

  function ListIdColumn(parent: string, field: string): Column
  {
    Column(MakeListId(ListIdentifier(parent, field)), "integer")
  }

  function ListOrderColumn(parent: string, field: string): Column
  {
    Column(MakeListOrder(ListIdentifier(parent, field)), "integer")
  }

  /** The parent-link and order columns never coincide. */
  lemma ListColumnsDistinct(parent: string, field: string)
    ensures ListIdColumn(parent, field) != ListOrderColumn(parent, field)
  {
    var base := ListIdentifier(parent, field);
    assert MakeListId(base)[|base| + 1] == 'i';
    assert MakeListOrder(base)[|base| + 1] == 'o';
  }

  /** Columns registered on a kind so far; a kind without any has none. */
  function ColumnsOf(cols: map<string, seq<Column>>, kind: string): seq<Column>
  {
    if kind in cols then cols[kind] else []
  }

  /** Appends `c` unless it is already there. */
  function AppendAbsent(cs: seq<Column>, c: Column): (r: seq<Column>)
    ensures c in r
    ensures c in cs ==> r == cs
    ensures c !in cs ==> r == cs + [c]
  {
    if c in cs then cs else cs + [c]
  }

  /** Registers the one-to-many relation `parent.field: List[child]`: the
      child kind gets the integer parent-link and order columns, each only
      if it is not there yet. */
  function RegisterList(cols: map<string, seq<Column>>, parent: string, child: string, field: string): (r: map<string, seq<Column>>)
    ensures r.Keys == cols.Keys + {child}
    ensures forall k :: k in cols && k != child ==> r[k] == cols[k]
    ensures ListIdColumn(parent, field) in r[child] && ListOrderColumn(parent, field) in r[child]
    ensures ColumnsOf(cols, child) <= r[child]
    ensures forall c :: c in r[child] ==>
      c in ColumnsOf(cols, child) || c == ListIdColumn(parent, field) || c == ListOrderColumn(parent, field)
    ensures ListIdColumn(parent, field) !in ColumnsOf(cols, child) && ListOrderColumn(parent, field) !in ColumnsOf(cols, child) ==>
      r[child] == ColumnsOf(cols, child) + [ListIdColumn(parent, field), ListOrderColumn(parent, field)]
    ensures ListIdColumn(parent, field) in ColumnsOf(cols, child) && ListOrderColumn(parent, field) in ColumnsOf(cols, child) ==>
      r == cols[child := ColumnsOf(cols, child)]
  {
    ListColumnsDistinct(parent, field);
    var withId := AppendAbsent(ColumnsOf(cols, child), ListIdColumn(parent, field));
    cols[child := AppendAbsent(withId, ListOrderColumn(parent, field))]
  }

  /** Registering the same list twice is the same as registering it once. */
  lemma RegisterListIdempotent(cols: map<string, seq<Column>>, parent: string, child: string, field: string)
    ensures RegisterList(RegisterList(cols, parent, child, field), parent, child, field)
         == RegisterList(cols, parent, child, field)
  {
    var once := RegisterList(cols, parent, child, field);
    assert ColumnsOf(once, child) == once[child];
    assert once[child := once[child]] == once;
  }

  /** The columns of the recognised fields, in declaration order. */
  function DeriveColumns(reg: Registry, fields: seq<Field>): (r: seq<Column>)
    ensures |r| <= |fields|
    ensures forall j :: 0 <= j < |r| ==> exists i :: 0 <= i < |fields| && ColumnFor(reg, fields[i]) == Some(r[j])
  {
    if |fields| == 0 then []
    else
      var n := |fields|;
      var init := DeriveColumns(reg, fields[..n - 1]);
      assert forall i :: 0 <= i < n - 1 ==> fields[..n - 1][i] == fields[i];
      match ColumnFor(reg, fields[n - 1])
      case Some(c) => init + [c]
      case None => init
  }

  /** The list registrations the fields make, in declaration order. */
  function RegisterLists(reg: Registry, cols: map<string, seq<Column>>, parent: string, fields: seq<Field>): (r: map<string, seq<Column>>)
    ensures cols.Keys <= r.Keys
    ensures forall k :: k in cols ==> cols[k] <= r[k]
  {
    if |fields| == 0 then cols
    else
      var n := |fields|;
      var prev := RegisterLists(reg, cols, parent, fields[..n - 1]);
      var f := fields[n - 1];
      if RegistersList(reg, f) then RegisterList(prev, parent, f.ftype.child, f.name) else prev
  }

  /** What deriving one kind's columns produces: its own columns and the
      column registry after the list registrations. */
  datatype Derivation = Derivation(derived: seq<Column>, columns: map<string, seq<Column>>)

  /** `MakeColumns`: each recognised field contributes its column, each list
      field registers its relation on the child kind; unrecognised fields
      are skipped. The two effects are independent, so they are computed
      separately. */
  function MakeColumns(reg: Registry, cols: map<string, seq<Column>>, parent: string, fields: seq<Field>): (r: Derivation)
    ensures |r.derived| <= |fields|
    ensures forall j :: 0 <= j < |r.derived| ==> exists i :: 0 <= i < |fields| && ColumnFor(reg, fields[i]) == Some(r.derived[j])
    ensures cols.Keys <= r.columns.Keys
    ensures forall k :: k in cols ==> cols[k] <= r.columns[k]
  {
    Derivation(DeriveColumns(reg, fields), RegisterLists(reg, cols, parent, fields))
  }

  /** Index of the field each derived column comes from. */
  function Origins(reg: Registry, fields: seq<Field>): (r: seq<nat>)
    ensures forall j :: 0 <= j < |r| ==> r[j] < |fields|
  {
    if |fields| == 0 then []
    else
      var init := Origins(reg, fields[..|fields| - 1]);
      if ColumnFor(reg, fields[|fields| - 1]).Some? then init + [|fields| - 1] else init
  }

  lemma {:induction false} OriginsLength(reg: Registry, fields: seq<Field>)
    ensures |Origins(reg, fields)| == |DeriveColumns(reg, fields)|
  {
    if |fields| > 0 {
      OriginsLength(reg, fields[..|fields| - 1]);
    }
  }

  /** Derived column `j` is the column of field `Origins[j]`. */
  lemma {:induction false} OriginsMatch(reg: Registry, fields: seq<Field>)
    ensures |Origins(reg, fields)| == |DeriveColumns(reg, fields)|
    ensures forall j :: 0 <= j < |Origins(reg, fields)| ==>
      ColumnFor(reg, fields[Origins(reg, fields)[j]]) == Some(DeriveColumns(reg, fields)[j])
  {
    OriginsLength(reg, fields);
    if |fields| > 0 {
      var n := |fields|;
      var init := fields[..n - 1];
      OriginsMatch(reg, init);
      var o0 := Origins(reg, init);
      var d0 := DeriveColumns(reg, init);
      var o := Origins(reg, fields);
      var d := DeriveColumns(reg, fields);
      assert o[..|o0|] == o0 && d[..|o0|] == d0;
      forall j | 0 <= j < |o|
        ensures ColumnFor(reg, fields[o[j]]) == Some(d[j])
      {
        if j < |o0| {
          assert o[j] == o0[j] && d[j] == d0[j];
          assert fields[o0[j]] == init[o0[j]];
        }
      }
    }
  }

  /** The origins strictly increase: columns keep declaration order. */
  lemma {:induction false} OriginsIncreasing(reg: Registry, fields: seq<Field>)
    ensures forall j, k :: 0 <= j < k < |Origins(reg, fields)| ==> Origins(reg, fields)[j] < Origins(reg, fields)[k]
  {
    if |fields| > 0 {
      OriginsIncreasing(reg, fields[..|fields| - 1]);
    }
  }

  /** Every recognised field is the origin of a derived column. */
  lemma {:induction false} OriginsComplete(reg: Registry, fields: seq<Field>)
    ensures forall i :: 0 <= i < |fields| && ColumnFor(reg, fields[i]).Some? ==> i in Origins(reg, fields)
  {
    if |fields| > 0 {
      var n := |fields|;
      OriginsComplete(reg, fields[..n - 1]);
      assert forall i :: 0 <= i < n - 1 ==> fields[i] == fields[..n - 1][i];
    }
  }

  /** The derived columns are exactly the recognised fields' columns, in
      declaration order: column `j` comes from field `Origins[j]`, the
      origins strictly increase, and every recognised field is an origin. */
  lemma DerivedInDeclarationOrder(reg: Registry, fields: seq<Field>)
    ensures var d := DeriveColumns(reg, fields);
            var o := Origins(reg, fields);
            && |o| == |d|
            && (forall j :: 0 <= j < |o| ==> ColumnFor(reg, fields[o[j]]) == Some(d[j]))
            && (forall j, k :: 0 <= j < k < |o| ==> o[j] < o[k])
            && (forall i :: 0 <= i < |fields| && ColumnFor(reg, fields[i]).Some? ==> i in o)
  {
    OriginsMatch(reg, fields);
    OriginsIncreasing(reg, fields);
    OriginsComplete(reg, fields);
  }

  /** Every list field leaves both of its columns registered on its child
      kind. */
  lemma {:induction false} RegisterListsAddsColumns(reg: Registry, cols: map<string, seq<Column>>, parent: string, fields: seq<Field>)
    ensures var r := RegisterLists(reg, cols, parent, fields);
            forall i :: 0 <= i < |fields| && RegistersList(reg, fields[i]) ==>
              && ListIdColumn(parent, fields[i].name) in ColumnsOf(r, fields[i].ftype.child)
              && ListOrderColumn(parent, fields[i].name) in ColumnsOf(r, fields[i].ftype.child)
  {
    if |fields| > 0 {
      var n := |fields|;
      var init := fields[..n - 1];
      RegisterListsAddsColumns(reg, cols, parent, init);
      RegisterListsStep(reg, cols, parent, fields);
      forall i | 0 <= i < n - 1 && RegistersList(reg, fields[i])
        ensures && ListIdColumn(parent, fields[i].name) in ColumnsOf(RegisterLists(reg, cols, parent, fields), fields[i].ftype.child)
                && ListOrderColumn(parent, fields[i].name) in ColumnsOf(RegisterLists(reg, cols, parent, fields), fields[i].ftype.child)
      {
        assert fields[i] == init[i];
      }
    }
  }

  /** One more field only adds columns, and a list field adds its own. */
  lemma RegisterListsStep(reg: Registry, cols: map<string, seq<Column>>, parent: string, fields: seq<Field>)
    requires |fields| > 0
    ensures var prev := RegisterLists(reg, cols, parent, fields[..|fields| - 1]);
            var r := RegisterLists(reg, cols, parent, fields);
            var f := fields[|fields| - 1];
            && (forall k :: ColumnsOf(prev, k) <= ColumnsOf(r, k))
            && (RegistersList(reg, f) ==>
                  && ListIdColumn(parent, f.name) in ColumnsOf(r, f.ftype.child)
                  && ListOrderColumn(parent, f.name) in ColumnsOf(r, f.ftype.child))
  {
  }

  /** `c` is one of the two columns a list field among `fields` registers
      on kind `child`. */
  ghost predicate ListColumnOf(reg: Registry, parent: string, fields: seq<Field>, child: string, c: Column)
  {
    exists i :: 0 <= i < |fields| && RegistersList(reg, fields[i]) && fields[i].ftype.child == child
                && (c == ListIdColumn(parent, fields[i].name) || c == ListOrderColumn(parent, fields[i].name))
  }

  /** The list registrations add nothing but the list fields' own columns,
      each on that field's child kind. */
  lemma {:induction false} RegisterListsOnly(reg: Registry, cols: map<string, seq<Column>>, parent: string, fields: seq<Field>)
    ensures forall j, c :: c in ColumnsOf(RegisterLists(reg, cols, parent, fields), j) ==>
              c in ColumnsOf(cols, j) || ListColumnOf(reg, parent, fields, j, c)
  {
    if |fields| > 0 {
      var n := |fields|;
      var init := fields[..n - 1];
      RegisterListsOnly(reg, cols, parent, init);
      var prev := RegisterLists(reg, cols, parent, init);
      var r := RegisterLists(reg, cols, parent, fields);
      var f := fields[n - 1];
      forall j, c | c in ColumnsOf(r, j)
        ensures c in ColumnsOf(cols, j) || ListColumnOf(reg, parent, fields, j, c)
      {
        if c !in ColumnsOf(prev, j) {
          assert RegistersList(reg, f) && j == f.ftype.child;
          assert c == ListIdColumn(parent, f.name) || c == ListOrderColumn(parent, f.name);
          assert fields[n - 1] == f;
        } else if c !in ColumnsOf(cols, j) {
          var i :| 0 <= i < |init| && RegistersList(reg, init[i]) && init[i].ftype.child == j
                   && (c == ListIdColumn(parent, init[i].name) || c == ListOrderColumn(parent, init[i].name));
          assert fields[i] == init[i];
        }
      }
    }
  }

  /** When every list column of `fields` is already registered, the
      registrations leave the registry as it is. */
  lemma {:induction false} RegisterListsSettled(reg: Registry, cols: map<string, seq<Column>>, parent: string, fields: seq<Field>)
    requires forall i :: 0 <= i < |fields| && RegistersList(reg, fields[i]) ==>
      && ListIdColumn(parent, fields[i].name) in ColumnsOf(cols, fields[i].ftype.child)
      && ListOrderColumn(parent, fields[i].name) in ColumnsOf(cols, fields[i].ftype.child)
    ensures RegisterLists(reg, cols, parent, fields) == cols
  {
    if |fields| > 0 {
      var n := |fields|;
      var init := fields[..n - 1];
      assert forall i :: 0 <= i < n - 1 ==> fields[i] == init[i];
      RegisterListsSettled(reg, cols, parent, init);
      var f := fields[n - 1];
      if RegistersList(reg, f) {
        assert f.ftype.child in cols;
        assert cols[f.ftype.child := ColumnsOf(cols, f.ftype.child)] == cols;
      }
    }
  }

  /** Deriving a kind's columns a second time over the result registers no
      further list columns: list registration is idempotent. */
  lemma MakeColumnsListsIdempotent(reg: Registry, cols: map<string, seq<Column>>, parent: string, fields: seq<Field>)
    ensures var once := MakeColumns(reg, cols, parent, fields).columns;
            MakeColumns(reg, once, parent, fields).columns == once
  {
    var once := MakeColumns(reg, cols, parent, fields).columns;
    RegisterListsAddsColumns(reg, cols, parent, fields);
    RegisterListsSettled(reg, once, parent, fields);
  }

  /** Default table name: the lower-cased kind name with `_table`. */
  function DefaultTableName(kind: string): string
  {
    Lower(kind) + "_table"
  }

  function ColumnDecls(cols: seq<Column>): (r: seq<string>)
    ensures |r| == |cols|
    ensures forall i :: 0 <= i < |cols| ==> r[i] == cols[i].name + " " + cols[i].sqlType
  {
    seq(|cols|, i requires 0 <= i < |cols| => cols[i].name + " " + cols[i].sqlType)
  }

  /** The `create table` command: the integer primary key `dbid` first,
      then every column as `name type`, separated by commas. The source
      indexes the last column, so at least one is required. */
  function CreateTableCommand(table: string, cols: seq<Column>): (r: string)
    requires |cols| > 0
    ensures r == "create table " + table + " ( dbid integer primary key, " + Join(ColumnDecls(cols), ", ") + ")"
  {
    LoopJoinIsJoin(ColumnDecls(cols), ", ");
    "create table " + table + " ( dbid integer primary key, " + LoopJoin(ColumnDecls(cols), ", ") + ")"
  }
}

=== FILE: store.dfy ===
/** The store of narwhal/sql.py (class `SQL`): kind registration, table
    creation and the write operations, over an explicit state record. The
    backing engine is abstract: each table is a sequence of positional rows
    (`dbid` first), and every statement the store sends is appended to a log
    together with the calls it makes into the child-list collaborators. */
module Store {
  import opened Values
  import opened Text
  import opened TypeRegistry
  import opened Schema

  /** Identity of an in-memory instance: two holders see the same instance
      exactly when they hold the same handle. */
  type Handle = int

  /** A stored row: the key first, then one value per column. */
  type Row = seq<Value>

  /** An entity instance: its kind, its `dbid` attribute if it has one, and
      its other attributes. */
  datatype Instance = Instance(kind: string, dbid: Option<int>, fields: map<string, Value>)

  /** What the store sends to the engine, and the calls it makes into an
      instance's child-list and reference helpers. */
  datatype Statement =
    | Execute(sql: string, args: seq<Value>)
    | ExecuteMany(sql: string, argRows: seq<seq<Value>>)
    | Commit
    | ListsAdded(item: Handle)
    | ListsUpdated(item: Handle)
    | ListsMarked(item: Handle)
    | ReferenceLoaded(item: Handle, field: string, raw: Value)

  datatype Store = Store(
    registry: Registry,
    columns: map<string, seq<Column>>,     // `__sql_columns__` of each kind
    tableNames: map<string, string>,       // `__tablename__` of each kind
    kinds: map<string, KindDecl>,
    registered: seq<string>,               // the kinds passed to `RegisterTables`
    cache: map<string, map<int, Handle>>,  // identity cache: kind -> dbid -> instance
    heap: map<Handle, Instance>,
    next: Handle,                          // first handle never allocated
    tables: map<string, seq<Row>>,         // the engine's tables
    log: seq<Statement>)

  /** The sentinel key of an instance that was never stored. */
  const Unsaved: int := -1

  /** A store over an engine that already holds `tables`, with an empty
      cache and nothing registered. */
  function Connect(reg: Registry, tables: map<string, seq<Row>>): (s: Store)
    ensures Valid(s)
    ensures s.cache == map[] && s.heap == map[] && s.log == []
    ensures s.registry == reg && s.tables == tables
    ensures s.columns == map[] && s.kinds == map[] && s.registered == []
  {
    Store(reg, map[], map[], map[], [], map[], map[], 0, tables, [])
  }

  /** Every cached handle is allocated and holds an instance of the bucket's
      kind; every allocated handle is below `next`. */
  predicate Valid(s: Store)
  {
    && (forall h :: h in s.heap ==> h < s.next)
    && (forall k, d :: k in s.cache && d in s.cache[k] ==>
          s.cache[k][d] in s.heap && s.heap[s.cache[k][d]].kind == k)
  }

  /** An instance created by application code, not yet stored. */
  datatype Allocation = Allocation(store: Store, handle: Handle)

  function New(s: Store, kind: string, fields: map<string, Value>): (r: Allocation)
    requires Valid(s)
    ensures Valid(r.store)
    ensures r.handle !in s.heap && r.store.heap == s.heap[r.handle := Instance(kind, None, fields)]
    ensures r.store == s.(heap := r.store.heap, next := r.store.next)
  {
    Allocation(s.(heap := s.heap[s.next := Instance(kind, None, fields)], next := s.next + 1), s.next)
  }

  predicate Registered(s: Store, k: string)
  {
    k in s.kinds && k in s.cache && k in s.columns && k in s.tableNames
  }

  /** The kind's table exists and has at least one column besides `dbid`;
      the statement builders index the last column. */
  predicate Ready(s: Store, k: string)
  {
    Registered(s, k) && s.tableNames[k] in s.tables && |s.columns[k]| > 0
  }

  /** Has a key that marks it as stored. */
  predicate Keyed(item: Instance)
  {
    item.dbid.Some? && item.dbid.value != Unsaved
  }

  /** Updates of an immutable kind are refused unless forced. */
  predicate Blocked(s: Store, k: string, force: bool)
    requires k in s.kinds
  {
    s.kinds[k].immutable && !force
  }

  /** Every column the instance lacks has a default for its storage type. */
  predicate Resolvable(reg: Registry, cols: seq<Column>, fields: map<string, Value>)
  {
    forall i :: 0 <= i < |cols| ==> cols[i].name in fields || cols[i].sqlType in reg.typeDefault
  }

  /** The row of `h` can be built and sent: its kind's table is ready and
      each column has a value or a default. */
  predicate Writable(s: Store, h: Handle)
  {
    && h in s.heap
    && Ready(s, s.heap[h].kind)
    && Resolvable(s.registry, s.columns[s.heap[h].kind], s.heap[h].fields)
  }

  /** Only the tables, the log, the cache and instance keys change: the
      schema, the kinds, the set of instances and their attributes stay. */
  predicate Preserves(s: Store, r: Store)
  {
    && r.registry == s.registry && r.columns == s.columns && r.tableNames == s.tableNames
    && r.kinds == s.kinds && r.registered == s.registered && r.next == s.next
    && r.cache.Keys == s.cache.Keys && r.tables.Keys == s.tables.Keys && r.heap.Keys == s.heap.Keys
    && (forall h :: h in s.heap ==> r.heap[h].kind == s.heap[h].kind && r.heap[h].fields == s.heap[h].fields)
    && s.log <= r.log
  }

  lemma PreservesTransitive(s: Store, t: Store, u: Store)
    requires Preserves(s, t) && Preserves(t, u)
    ensures Preserves(s, u)
  {
  }

  lemma PreservesWritable(s: Store, r: Store, h: Handle)
    requires Preserves(s, r) && Writable(s, h)
    ensures Writable(r, h)
  {
  }

  /** The value stored for one column: the field's value, through its
      adapter when it has one, or the storage type's default. */
  function ColumnValue(reg: Registry, c: Column, fields: map<string, Value>): Value
    requires c.name in fields || c.sqlType in reg.typeDefault
  {
    if c.name in fields then Adapt(fields[c.name]) else reg.typeDefault[c.sqlType]
  }

  function ColumnValues(reg: Registry, cols: seq<Column>, fields: map<string, Value>): (r: seq<Value>)
    requires Resolvable(reg, cols, fields)
    ensures |r| == |cols|
    ensures forall i :: 0 <= i < |cols| ==> r[i] == ColumnValue(reg, cols[i], fields)
  {
    seq(|cols|, i requires 0 <= i < |cols| => ColumnValue(reg, cols[i], fields))
  }

  /** The insert row: the key, then per column the adapted field value if
      the instance has the field, else the storage type's default. */
  function InsertRow(reg: Registry, cols: seq<Column>, fields: map<string, Value>, dbid: int): (r: Row)
    requires Resolvable(reg, cols, fields)
    ensures |r| == |cols| + 1
    ensures r[0] == Int(dbid)
    ensures forall i :: 0 <= i < |cols| && cols[i].name in fields ==> r[i + 1] == Adapt(fields[cols[i].name])
    ensures forall i :: 0 <= i < |cols| && cols[i].name !in fields ==> r[i + 1] == reg.typeDefault[cols[i].sqlType]
  {
    [Int(dbid)] + ColumnValues(reg, cols, fields)
  }

  /** The update arguments: the same per-column values as the insert row,
      with the key moved to the end to bind `where dbid = ?`. */
  function UpdateArgs(reg: Registry, cols: seq<Column>, fields: map<string, Value>, dbid: int): (r: seq<Value>)
    requires Resolvable(reg, cols, fields)
    ensures |r| == |cols| + 1
    ensures r[|cols|] == Int(dbid)
    ensures forall i :: 0 <= i < |cols| ==> r[i] == InsertRow(reg, cols, fields, dbid)[i + 1]
  {
    ColumnValues(reg, cols, fields) + [Int(dbid)]
  }

  /** `insert into <table> values (?, ?, ..., ?)`: the loop adds one `?, `
      for every column but the last, so there is one marker per column
      plus one for the key. Without columns the loop runs no time and the
      command still carries two markers (InsertCommandJoins). */
  function InsertCommand(table: string, ncols: nat): (r: string)
    ensures ncols > 0 && NoPlaceholders(table) ==> Placeholders(r) == ncols + 1
  {
    var k := if ncols == 0 then 0 else ncols - 1;
    InsertCommandPlaceholders(table, k);
    "insert into " + table + " values (" + "?, " + Repeat("?, ", k) + "?)"
  }

  /** The command the marker loop builds is the head followed by the joined
      markers and the closing parenthesis. */
  lemma InsertCommandJoins(table: string, ncols: nat)
    ensures InsertCommand(table, ncols)
            == "insert into " + table + " values (" + Join(Markers(if ncols == 0 then 2 else ncols + 1), ", ") + ")"
  {
    var k := if ncols == 0 then 0 else ncols - 1;
    var head := "insert into " + table + " values (";
    var rep := Repeat("?, ", k);
    JoinMarkers(k + 1);
    RepeatFront("?, ", k);
    assert "?)" == "?" + ")";
    Associative(head + "?, ", rep, "?" + ")");
    Associative(head, "?, ", rep + ("?" + ")"));
    Associative("?, ", rep, "?" + ")");
    Associative("?, " + rep, "?", ")");
    Associative(head, ("?, " + rep) + "?", ")");
  }

  lemma InsertCommandPlaceholders(table: string, k: nat)
    ensures Placeholders("insert into " + table + " values (" + "?, " + Repeat("?, ", k) + "?)") == Placeholders(table) + k + 2
  {
    var a := "insert into " + table;
    var b := a + " values (";
    var c := b + "?, ";
    var d := c + Repeat("?, ", k);
    InsertLiterals();
    PlaceholdersAppend("insert into ", table);
    PlaceholdersAppend(a, " values (");
    PlaceholdersAppend(b, "?, ");
    PlaceholdersAppend(c, Repeat("?, ", k));
    PlaceholdersAppend(d, "?)");
    PlaceholdersRepeat("?, ", k);
  }

  /** Marker counts of the fixed pieces of the insert command. */
  lemma InsertLiterals()
    ensures NoPlaceholders("insert into ") && NoPlaceholders(" values (")
    ensures Placeholders("?, ") == 1 && Placeholders("?)") == 1
  {
    CommandLiterals();
    MarkerLiteral(", ");
    MarkerLiteral(")");
  }

  /** A marker followed by a marker-free text. */
  lemma MarkerLiteral(tail: string)
    requires '?' !in tail
    ensures Placeholders(['?'] + tail) == 1
  {
    PlaceholdersAppend(['?'], tail);
  }

  function Assignments(cols: seq<Column>): (r: seq<string>)
    ensures |r| == |cols|
    ensures forall i :: 0 <= i < |cols| ==> r[i] == cols[i].name + " = ?"
  {
    seq(|cols|, i requires 0 <= i < |cols| => cols[i].name + " = ?")
  }

  predicate PlainNames(cols: seq<Column>)
  {
    forall i :: 0 <= i < |cols| ==> NoPlaceholders(cols[i].name)
  }

  /** `update <table> set c1 = ?, ..., cn = ? where dbid = ?`: one marker
      per column, then one for the key. */
  function UpdateCommand(table: string, cols: seq<Column>): (r: string)
    requires |cols| > 0
    ensures r == "update " + table + " set " + Join(Assignments(cols), ", ") + " where dbid = " + "?"
    ensures NoPlaceholders(table) && PlainNames(cols) ==> Placeholders(r) == |cols| + 1
  {
    LoopJoinIsJoin(Assignments(cols), ", ");
    UpdateCommandPlaceholders(table, cols);
    "update " + table + " set " + LoopJoin(Assignments(cols), ", ") + " where dbid = " + "?"
  }

  lemma AssignmentsPlaceholders(cols: seq<Column>)
    requires PlainNames(cols)
    ensures SumPlaceholders(Assignments(cols)) == |cols|
  {
    var parts := Assignments(cols);
    forall i | 0 <= i < |parts|
      ensures Placeholders(parts[i]) == 1
    {
      PlaceholdersAppend(cols[i].name, " = ?");
    }
    SumPlaceholdersOnes(parts);
  }

  lemma UpdateCommandPlaceholders(table: string, cols: seq<Column>)
    requires |cols| > 0
    ensures NoPlaceholders(table) && PlainNames(cols) ==>
      Placeholders("update " + table + " set " + LoopJoin(Assignments(cols), ", ") + " where dbid = " + "?") == |cols| + 1
  {
    if NoPlaceholders(table) && PlainNames(cols) {
      var body := LoopJoin(Assignments(cols), ", ");
      UpdateLiterals();
      PlaceholdersLoopJoin(Assignments(cols), ", ");
      AssignmentsPlaceholders(cols);
      PlaceholdersAppend("update ", table);
      PlaceholdersAppend("update " + table, " set ");
      PlaceholdersAppend("update " + table + " set ", body);
      PlaceholdersAppend("update " + table + " set " + body, " where dbid = ");
      PlaceholdersAppend("update " + table + " set " + body + " where dbid = ", "?");
    }
  }

  /** Marker counts of the fixed pieces of the update command. */
  lemma UpdateLiterals()
    ensures NoPlaceholders("update ") && NoPlaceholders(" set ") && NoPlaceholders(", ")
    ensures NoPlaceholders(" where dbid = ") && Placeholders("?") == 1
  {
    CommandLiterals();
  }

  /** The engine's effect of one update: every row whose key is the last
      argument takes the other arguments as its column values. */
  function ApplyUpdate(rows: seq<Row>, args: seq<Value>): (r: seq<Row>)
    requires |args| > 0
    ensures |r| == |rows|
    ensures forall i :: 0 <= i < |rows| && |rows[i]| > 0 && rows[i][0] == args[|args| - 1] ==>
      r[i] == [args[|args| - 1]] + args[..|args| - 1]
    ensures forall i :: 0 <= i < |rows| && !(|rows[i]| > 0 && rows[i][0] == args[|args| - 1]) ==> r[i] == rows[i]
  {
    var key := args[|args| - 1];
    seq(|rows|, i requires 0 <= i < |rows| =>
      if |rows[i]| > 0 && rows[i][0] == key then [key] + args[..|args| - 1] else rows[i])
  }

  /** Applying the same update twice has the effect of applying it once. */
  lemma ApplyUpdateIdempotent(rows: seq<Row>, args: seq<Value>)
    requires |args| > 0
    ensures ApplyUpdate(ApplyUpdate(rows, args), args) == ApplyUpdate(rows, args)
  {
  }

  /** The engine's effect of a batched update: each argument tuple in turn. */
  function ApplyUpdates(rows: seq<Row>, argRows: seq<seq<Value>>): (r: seq<Row>)
    requires forall i :: 0 <= i < |argRows| ==> |argRows[i]| > 0
    ensures |r| == |rows|
  {
    if |argRows| == 0 then rows
    else ApplyUpdate(ApplyUpdates(rows, argRows[..|argRows| - 1]), argRows[|argRows| - 1])
  }

  /** Whether an update's argument tuple addresses a row: its last argument
      is the row's key. */
  predicate Targets(row: Row, args: seq<Value>)
  {
    |args| > 0 && |row| > 0 && row[0] == args[|args| - 1]
  }

  /** The row an argument tuple writes: the key followed by the values. */
  function Written(args: seq<Value>): Row
    requires |args| > 0
  {
    [args[|args| - 1]] + args[..|args| - 1]
  }

  /** The position of the last tuple of a batch that addresses a row. */
  function LastTarget(row: Row, argRows: seq<seq<Value>>): (r: Option<nat>)
    ensures r.Some? ==> r.value < |argRows| && Targets(row, argRows[r.value])
    ensures r.Some? ==> forall j :: r.value < j < |argRows| ==> !Targets(row, argRows[j])
    ensures r.None? ==> forall j :: 0 <= j < |argRows| ==> !Targets(row, argRows[j])
  {
    if |argRows| == 0 then None
    else if Targets(row, argRows[|argRows| - 1]) then Some(|argRows| - 1)
    else LastTarget(row, argRows[..|argRows| - 1])
  }

  /** Which tuple addresses a row depends on the row's key alone. */
  lemma {:induction false} LastTargetKey(row: Row, other: Row, argRows: seq<seq<Value>>)
    requires |row| > 0 && |other| > 0 && row[0] == other[0]
    ensures LastTarget(row, argRows) == LastTarget(other, argRows)
  {
    if |argRows| > 0 {
      LastTargetKey(row, other, argRows[..|argRows| - 1]);
    }
  }

  /** A batched update leaves each row as the last tuple addressing it wrote
      it, and untouched when no tuple addresses it. */
  lemma {:induction false} ApplyUpdatesLast(rows: seq<Row>, argRows: seq<seq<Value>>)
    requires forall i :: 0 <= i < |argRows| ==> |argRows[i]| > 0
    ensures forall i :: 0 <= i < |rows| && LastTarget(rows[i], argRows).Some? ==>
      ApplyUpdates(rows, argRows)[i] == Written(argRows[LastTarget(rows[i], argRows).value])
    ensures forall i :: 0 <= i < |rows| && LastTarget(rows[i], argRows).None? ==>
      ApplyUpdates(rows, argRows)[i] == rows[i]
  {
    if |argRows| > 0 {
      var init := argRows[..|argRows| - 1];
      var a := argRows[|argRows| - 1];
      ApplyUpdatesLast(rows, init);
      var prev := ApplyUpdates(rows, init);
      forall i | 0 <= i < |rows|
        ensures Targets(prev[i], a) == Targets(rows[i], a)
      {
        if LastTarget(rows[i], init).Some? {
          assert prev[i] == Written(init[LastTarget(rows[i], init).value]);
        }
      }
    }
  }

  /** Re-sending tuples already sent changes nothing: a batch that contains
      every tuple of an earlier batch overrides it entirely. */
  lemma ApplyUpdatesAbsorb(rows: seq<Row>, earlier: seq<seq<Value>>, later: seq<seq<Value>>)
    requires forall i :: 0 <= i < |earlier| ==> |earlier[i]| > 0
    requires forall i :: 0 <= i < |later| ==> |later[i]| > 0
    requires forall i :: 0 <= i < |earlier| ==> earlier[i] in later
    ensures ApplyUpdates(ApplyUpdates(rows, earlier), later) == ApplyUpdates(rows, later)
  {
    var mid := ApplyUpdates(rows, earlier);
    ApplyUpdatesLast(rows, earlier);
    ApplyUpdatesLast(mid, later);
    ApplyUpdatesLast(rows, later);
    forall i | 0 <= i < |rows|
      ensures ApplyUpdates(mid, later)[i] == ApplyUpdates(rows, later)[i]
    {
      if LastTarget(rows[i], later).Some? {
        if LastTarget(rows[i], earlier).Some? {
          LastTargetKey(rows[i], mid[i], later);
        }
      } else if LastTarget(rows[i], earlier).Some? {
        assert false;
      }
    }
  }

  /** A batch applies its last tuple after all the others. */
  lemma ApplyUpdatesSnoc(rows: seq<Row>, argRows: seq<seq<Value>>, args: seq<Value>)
    requires forall i :: 0 <= i < |argRows| ==> |argRows[i]| > 0
    requires |args| > 0
    ensures ApplyUpdates(rows, argRows + [args]) == ApplyUpdate(ApplyUpdates(rows, argRows), args)
  {
    Text.Snoc(argRows, args);
  }

  function CommitIf(commit: bool): seq<Statement>
  {
    if commit then [Commit] else []
  }

  /** `TableLength`: the number of rows the kind's table holds. */
  function TableLength(s: Store, k: string): nat
    requires Registered(s, k) && s.tableNames[k] in s.tables
  {
    |s.tables[s.tableNames[k]]|
  }

  /** `Commit`: flushes the writes issued with `commit` false. Nothing but
      the statement log changes. */
  function CommitAll(s: Store): (r: Store)
    ensures Valid(s) ==> Valid(r)
    ensures Preserves(s, r) && r.tables == s.tables && r.heap == s.heap && r.cache == s.cache
    ensures r.log == s.log + [Commit]
  {
    s.(log := s.log + [Commit])
  }

  /** Gives `h` the key `d` and caches it under `d` in its kind's bucket,
      replacing whatever was cached there. No other instance, and no other
      bucket, changes. */
  function Bind(s: Store, h: Handle, d: int): (r: Store)
    requires Valid(s) && h in s.heap && s.heap[h].kind in s.cache
    ensures Valid(r) && Preserves(s, r)
    ensures r.heap[h].dbid == Some(d)
    ensures forall g :: g in s.heap && g != h ==> r.heap[g] == s.heap[g]
    ensures d in r.cache[s.heap[h].kind] && r.cache[s.heap[h].kind][d] == h
    ensures forall e :: e in s.cache[s.heap[h].kind] && e != d ==> e in r.cache[s.heap[h].kind] && r.cache[s.heap[h].kind][e] == s.cache[s.heap[h].kind][e]
    ensures r.cache[s.heap[h].kind].Keys == s.cache[s.heap[h].kind].Keys + {d}
    ensures forall k :: k in s.cache && k != s.heap[h].kind ==> r.cache[k] == s.cache[k]
    ensures r.tables == s.tables && r.log == s.log
  {
    var item := s.heap[h];
    var r := s.(heap := s.heap[h := item.(dbid := Some(d))],
                cache := s.cache[item.kind := s.cache[item.kind][d := h]]);
    BindValid(s, h, d, r);
    r
  }

  lemma BindValid(s: Store, h: Handle, d: int, r: Store)
    requires Valid(s) && h in s.heap && s.heap[h].kind in s.cache
    requires r == s.(heap := s.heap[h := s.heap[h].(dbid := Some(d))],
                     cache := s.cache[s.heap[h].kind := s.cache[s.heap[h].kind][d := h]])
    ensures Valid(r)
  {
    forall k, e | k in r.cache && e in r.cache[k]
      ensures r.cache[k][e] in r.heap && r.heap[r.cache[k][e]].kind == k
    {
      if k == s.heap[h].kind && e == d {
      } else {
        assert r.cache[k][e] == s.cache[k][e];
      }
    }
  }

  /** The engine's table `t` becomes `rows` and `stmts` are logged; the
      in-memory side does not change. */
  function Perform(s: Store, t: string, rows: seq<Row>, stmts: seq<Statement>): (r: Store)
    requires t in s.tables
    ensures Valid(s) ==> Valid(r)
    ensures Preserves(s, r) && r.heap == s.heap && r.cache == s.cache
    ensures r.tables == s.tables[t := rows] && r.log == s.log + stmts
  {
    s.(tables := s.tables[t := rows], log := s.log + stmts)
  }

  /** The insert path of `Add`: the instance gets the current row count as
      its key and is cached under it, its row is appended to the table, then
      its child lists are stored and the change committed if asked. */
  function AddFresh(s: Store, h: Handle, commit: bool): (r: Store)
    requires Valid(s) && Writable(s, h)
    ensures Valid(r) && Preserves(s, r)
    ensures var k := s.heap[h].kind;
            var t := s.tableNames[k];
            var n := |s.tables[t]|;
            var row := InsertRow(s.registry, s.columns[k], s.heap[h].fields, n);
            && r.heap[h].dbid == Some(n)
            && (forall g :: g in s.heap && g != h ==> r.heap[g] == s.heap[g])
            && n in r.cache[k] && r.cache[k][n] == h
            && r.cache[k].Keys == s.cache[k].Keys + {n}
            && (forall j :: j in s.cache && j != k ==> r.cache[j] == s.cache[j])
            && r.tables == s.tables[t := s.tables[t] + [row]]
            && r.log == s.log + ([Execute(InsertCommand(t, |s.columns[k]|), row), ListsAdded(h)] + CommitIf(commit))
  {
    var item := s.heap[h];
    var k := item.kind;
    var t := s.tableNames[k];
    var cols := s.columns[k];
    var n := TableLength(s, k);
    var row := InsertRow(s.registry, cols, item.fields, n);
    var s1 := Bind(s, h, n);
    var r := Perform(s1, t, s.tables[t] + [row], [Execute(InsertCommand(t, |cols|), row), ListsAdded(h)] + CommitIf(commit));
    PreservesTransitive(s, s1, r);
    r
  }

  /** The update path of `Update`: every row keyed by the instance's `dbid`
      takes the instance's current values. */
  function Rewrite(s: Store, h: Handle, commit: bool): (r: Store)
    requires Valid(s) && Writable(s, h) && s.heap[h].dbid.Some?
    ensures Valid(r) && Preserves(s, r)
    ensures r.heap == s.heap && r.cache == s.cache
    ensures var k := s.heap[h].kind;
            var t := s.tableNames[k];
            var args := UpdateArgs(s.registry, s.columns[k], s.heap[h].fields, s.heap[h].dbid.value);
            && r.tables == s.tables[t := ApplyUpdate(s.tables[t], args)]
            && r.log == s.log + ([Execute(UpdateCommand(t, s.columns[k]), args), ListsUpdated(h)] + CommitIf(commit))
  {
    var item := s.heap[h];
    var t := s.tableNames[item.kind];
    var cols := s.columns[item.kind];
    var args := UpdateArgs(s.registry, cols, item.fields, item.dbid.value);
    Perform(s, t, ApplyUpdate(s.tables[t], args), [Execute(UpdateCommand(t, cols), args), ListsUpdated(h)] + CommitIf(commit))
  }

  /** What `Update` needs: an instance without `dbid` goes to `Add`; one
      with it is either refused (immutable, not forced) or written. */
  predicate UpdateReady(s: Store, h: Handle, force: bool)
  {
    && h in s.heap
    && Registered(s, s.heap[h].kind)
    && (s.heap[h].dbid.None? ==> Writable(s, h))
    && (s.heap[h].dbid.Some? ==> Blocked(s, s.heap[h].kind, force) || Writable(s, h))
  }

  /** `Update`: checks only that `dbid` is present (the sentinel passes and
      matches no row); an immutable kind without `force` is left untouched;
      an instance without `dbid` is added instead. */
  function Update(s: Store, h: Handle, force: bool, commit: bool): (r: Store)
    requires Valid(s) && UpdateReady(s, h, force)
    ensures Valid(r) && Preserves(s, r)
    ensures s.heap[h].dbid.Some? ==> r.heap == s.heap && r.cache == s.cache
    ensures s.heap[h].dbid.Some? && Blocked(s, s.heap[h].kind, force) ==> r == s
    ensures s.heap[h].dbid.Some? && !Blocked(s, s.heap[h].kind, force) ==> r == Rewrite(s, h, commit)
    ensures s.heap[h].dbid.None? ==> r == AddFresh(s, h, commit)
  {
    var item := s.heap[h];
    if item.dbid.None? then AddFresh(s, h, commit)
    else if Blocked(s, item.kind, force) then s
    else Rewrite(s, h, commit)
  }

  /** What `Add` needs: a keyed instance goes to `Update`. */
  predicate AddReady(s: Store, h: Handle)
  {
    && h in s.heap
    && Registered(s, s.heap[h].kind)
    && (Keyed(s.heap[h]) ==> Blocked(s, s.heap[h].kind, false) || Writable(s, h))
    && (!Keyed(s.heap[h]) ==> Writable(s, h))
  }

  /** `Add`: an instance whose `dbid` is present and not the sentinel is
      updated instead (without `force`); any other is inserted. */
  function Add(s: Store, h: Handle, commit: bool): (r: Store)
    requires Valid(s) && AddReady(s, h)
    ensures Valid(r) && Preserves(s, r)
    ensures Keyed(s.heap[h]) ==> r == Update(s, h, false, commit)
    ensures !Keyed(s.heap[h]) ==> r == AddFresh(s, h, commit)
  {
    if Keyed(s.heap[h]) then Update(s, h, false, commit) else AddFresh(s, h, commit)
  }

  /** `Clear`: every row of the kind's table is deleted and committed, and
      the kind's bucket of the identity cache is emptied. Instances keep
      their keys. */
  function Clear(s: Store, k: string): (r: Store)
    requires Valid(s) && Registered(s, k) && s.tableNames[k] in s.tables
    ensures Valid(r) && Preserves(s, r) && r.heap == s.heap
    ensures r.tables[s.tableNames[k]] == [] && r.cache[k] == map[]
    ensures forall u :: u in s.tables && u != s.tableNames[k] ==> r.tables[u] == s.tables[u]
    ensures forall j :: j in s.cache && j != k ==> r.cache[j] == s.cache[j]
    ensures r.log == s.log + [Execute("delete from " + s.tableNames[k], []), Commit]
  {
    var t := s.tableNames[k];
    var s1 := Perform(s, t, [], [Execute("delete from " + t, []), Commit]);
    s1.(cache := s1.cache[k := map[]])
  }
}

=== FILE: text.dfy ===
/** Text and sequence helpers shared by the query builder and the statement
    builders: placeholder counting, the joining idiom used throughout the
    store, and left-to-right concatenation of value tuples. */
module Text {

  /** ASCII lower-casing of one character. */
  function LowerChar(c: char): char
  {
    if 'A' <= c <= 'Z' then (c as int + 32) as char else c
  }

  /** Lower-cases `s` character by character. */
  function Lower(s: string): (r: string)
    ensures |r| == |s|
    ensures forall i :: 0 <= i < |s| ==> r[i] == LowerChar(s[i])
  {
    if |s| == 0 then "" else [LowerChar(s[0])] + Lower(s[1..])
  }

  predicate AllDigits(s: string)
  {
    forall i :: 0 <= i < |s| ==> '0' <= s[i] <= '9'
  }

  /** The number a string of decimal digits denotes. */
  function DigitsValue(s: string): nat
    requires AllDigits(s)
  {
    if |s| == 0 then 0
    else DigitsValue(s[..|s| - 1]) * 10 + (s[|s| - 1] as int - '0' as int)
  }

  /** The decimal numeral of `n`, most significant digit first: it reads
      back as `n` and has no leading zero. */
  function Decimal(n: nat): (r: string)
    ensures |r| > 0 && AllDigits(r)
    ensures DigitsValue(r) == n
    ensures |r| == 1 || r[0] != '0'
  {
    var d := ('0' as int + n % 10) as char;
    if n < 10 then [d]
    else
      var init := Decimal(n / 10);
      assert (init + [d])[..|init|] == init;
      init + [d]
  }

  /** Number of `?` parameter markers in `s`. */
  function Placeholders(s: string): nat
  {
    multiset(s)['?']
  }

  predicate NoPlaceholders(s: string)
  {
    Placeholders(s) == 0
  }

  /** Reference definition of joining: the parts separated by `sep`,
      first part first. */
  function Join(parts: seq<string>, sep: string): string
    requires |parts| > 0
  {
    if |parts| == 1 then parts[0] else parts[0] + sep + Join(parts[1..], sep)
  }

  /** What the loop `for p in parts: acc += p + sep` appends to `acc`. */
  function Accumulate(parts: seq<string>, sep: string): string
  {
    if |parts| == 0 then ""
    else Accumulate(parts[..|parts| - 1], sep) + parts[|parts| - 1] + sep
  }

  /** The joining idiom of the source: every part but the last followed by
      `sep` (a loop over `range(len(parts) - 1)`), then the last part alone
      (an index of the last element, so the parts must not be empty). */
  function LoopJoin(parts: seq<string>, sep: string): string
    requires |parts| > 0
  {
    Accumulate(parts[..|parts| - 1], sep) + parts[|parts| - 1]
  }

  /** `s` repeated `n` times. */
  function Repeat(s: string, n: nat): string
  {
    if n == 0 then "" else Repeat(s, n - 1) + s
  }

  /** Total placeholder count of the parts. */
  function SumPlaceholders(parts: seq<string>): nat
  {
    if |parts| == 0 then 0
    else SumPlaceholders(parts[..|parts| - 1]) + Placeholders(parts[|parts| - 1])
  }

  /** Left-to-right concatenation of a sequence of tuples, as `acc += t`
      in a loop. */
  function Flatten<T>(tuples: seq<seq<T>>): seq<T>
  {
    if |tuples| == 0 then []
    else Flatten(tuples[..|tuples| - 1]) + tuples[|tuples| - 1]
  }

  /** Total length of the tuples. */
  function TotalLength<T>(tuples: seq<seq<T>>): nat
  {
    if |tuples| == 0 then 0
    else TotalLength(tuples[..|tuples| - 1]) + |tuples[|tuples| - 1]|
  }

  /** A non-empty sequence is its front followed by its last element. */
  lemma SplitLast<T>(xs: seq<T>)
    requires |xs| > 0
    ensures xs[..|xs| - 1] + [xs[|xs| - 1]] == xs
  {
  }

  /** The front of a sequence extended by one element is the sequence. */
  lemma Snoc<T>(xs: seq<T>, x: T)
    ensures |xs + [x]| == |xs| + 1 && (xs + [x])[..|xs|] == xs && (xs + [x])[|xs|] == x
  {
  }

  /** A prefix one longer is the prefix followed by the next element. */
  lemma TakeOneMore<T>(xs: seq<T>, n: nat)
    requires n < |xs|
    ensures xs[..n + 1] == xs[..n] + [xs[n]]
  {
  }

  lemma Associative<T>(a: seq<T>, b: seq<T>, c: seq<T>)
    ensures (a + b) + c == a + (b + c)
  {
  }

  lemma AppendSingletons<T>(x: T, y: T)
    ensures [x] + [y] == [x, y] && [x, y][..1] == [x]
  {
  }

  lemma PlaceholdersAppend(a: string, b: string)
    ensures Placeholders(a + b) == Placeholders(a) + Placeholders(b)
  {
    assert multiset(a + b) == multiset(a) + multiset(b);
  }

  /** A text without the marker character has no markers. */
  lemma MarkFree(s: string)
    requires '?' !in s
    ensures NoPlaceholders(s)
  {
    assert '?' !in multiset(s);
  }

  /** The fixed pieces of the insert, update and select commands carry no
      markers. */
  lemma CommandLiterals()
    ensures NoPlaceholders("insert into ") && NoPlaceholders(" values (")
    ensures NoPlaceholders("update ") && NoPlaceholders(" set ") && NoPlaceholders(", ")
    ensures NoPlaceholders(" where dbid = ")
    ensures NoPlaceholders("select * from ") && NoPlaceholders(" where ") && NoPlaceholders(" order by ")
  {
    LiteralsMarkFree();
    MarkFree("select * from ");
    MarkFree(" where ");
    MarkFree(" order by ");
    MarkFree("insert into ");
    MarkFree(" values (");
    MarkFree("update ");
    MarkFree(" set ");
    MarkFree(", ");
    MarkFree(" where dbid = ");
  }

  lemma LiteralsMarkFree()
    ensures '?' !in "insert into " && '?' !in " values (" && '?' !in "update "
    ensures '?' !in " set " && '?' !in ", " && '?' !in " where dbid = "
    ensures '?' !in "select * from " && '?' !in " where " && '?' !in " order by "
  {
  }

  /** Peeling the first part off the accumulated text. */
  lemma {:induction false} AccumulateCons(parts: seq<string>, sep: string)
    requires |parts| > 0
    ensures Accumulate(parts, sep) == parts[0] + sep + Accumulate(parts[1..], sep)
  {
    var n := |parts|;
    if n == 1 {
      assert parts[..0] == [];
      assert parts[1..] == [];
    } else {
      var init := parts[..n - 1];
      AccumulateCons(init, sep);
      assert init[1..] == parts[1..][..n - 2];
      assert init[0] == parts[0];
      assert parts[1..][n - 2] == parts[n - 1];
    }
  }

  /** The loop idiom computes the reference join. */
  lemma {:induction false} LoopJoinIsJoin(parts: seq<string>, sep: string)
    requires |parts| > 0
    ensures LoopJoin(parts, sep) == Join(parts, sep)
  {
    var n := |parts|;
    if n == 1 {
      assert parts[..0] == [];
    } else {
      var init := parts[..n - 1];
      AccumulateCons(init, sep);
      LoopJoinIsJoin(parts[1..], sep);
      assert init[1..] == parts[1..][..n - 2];
      assert parts[1..][n - 2] == parts[n - 1];
    }
  }

  /** `n` parameter markers, as parts to be joined. */
  function Markers(n: nat): (r: seq<string>)
    ensures |r| == n && forall i :: 0 <= i < n ==> r[i] == "?"
  {
    seq(n, _ => "?")
  }

  /** Repeating at the back is repeating at the front. */
  lemma {:induction false} RepeatFront(s: string, n: nat)
    ensures Repeat(s, n + 1) == s + Repeat(s, n)
  {
    if n > 0 {
      RepeatFront(s, n - 1);
      Associative(s, Repeat(s, n - 1), s);
    }
  }

  /** The marker loop `"?, "` repeated `m` times and closed by a last `"?"`
      is the reference join of `m + 1` markers. */
  lemma {:induction false} JoinMarkers(m: nat)
    ensures Join(Markers(m + 1), ", ") == Repeat("?, ", m) + "?"
  {
    if m > 0 {
      JoinMarkers(m - 1);
      assert Markers(m + 1)[1..] == Markers(m);
      RepeatFront("?, ", m - 1);
      Associative("?, ", Repeat("?, ", m - 1), "?");
    }
  }

  /** A separator without placeholders contributes none to the join. */
  lemma {:induction false} PlaceholdersAccumulate(parts: seq<string>, sep: string)
    requires NoPlaceholders(sep)
    ensures Placeholders(Accumulate(parts, sep)) == SumPlaceholders(parts)
  {
    if |parts| > 0 {
      var n := |parts|;
      PlaceholdersAccumulate(parts[..n - 1], sep);
      PlaceholdersAppend(Accumulate(parts[..n - 1], sep), parts[n - 1]);
      PlaceholdersAppend(Accumulate(parts[..n - 1], sep) + parts[n - 1], sep);
    }
  }

  lemma PlaceholdersLoopJoin(parts: seq<string>, sep: string)
    requires |parts| > 0
    requires NoPlaceholders(sep)
    ensures Placeholders(LoopJoin(parts, sep)) == SumPlaceholders(parts)
  {
    var n := |parts|;
    PlaceholdersAccumulate(parts[..n - 1], sep);
    PlaceholdersAppend(Accumulate(parts[..n - 1], sep), parts[n - 1]);
    assert parts[..n][..n - 1] == parts[..n - 1];
    assert parts[..n] == parts;
  }

  lemma {:induction false} PlaceholdersRepeat(s: string, n: nat)
    requires Placeholders(s) == 1
    ensures Placeholders(Repeat(s, n)) == n
  {
    if n > 0 {
      PlaceholdersRepeat(s, n - 1);
      PlaceholdersAppend(Repeat(s, n - 1), s);
    }
  }

  /** Parts with one marker each hold as many markers as there are parts. */
  lemma {:induction false} SumPlaceholdersOnes(parts: seq<string>)
    requires forall i :: 0 <= i < |parts| ==> Placeholders(parts[i]) == 1
    ensures SumPlaceholders(parts) == |parts|
  {
    if |parts| > 0 {
      var n := |parts|;
      var init := parts[..n - 1];
      assert forall i :: 0 <= i < |init| ==> init[i] == parts[i];
      SumPlaceholdersOnes(init);
    }
  }

  /** The text accumulated over a shorter prefix is a prefix of the text
      accumulated over a longer one. */
  lemma {:induction false} AccumulatePrefix(parts: seq<string>, sep: string, i: nat, j: nat)
    requires i <= j <= |parts|
    ensures Accumulate(parts[..i], sep) <= Accumulate(parts[..j], sep)
  {
    if i < j {
      AccumulatePrefix(parts, sep, i, j - 1);
      assert parts[..j][..j - 1] == parts[..j - 1];
    }
  }

  /** Part `i` sits right after the text accumulated over the parts before
      it. */
  lemma LoopJoinPart(parts: seq<string>, sep: string, i: nat)
    requires i < |parts|
    ensures Accumulate(parts[..i], sep) + parts[i] <= LoopJoin(parts, sep)
  {
    var n := |parts|;
    if i < n - 1 {
      AccumulatePrefix(parts, sep, i + 1, n - 1);
      assert parts[..i + 1][..i] == parts[..i];
    } else {
      assert parts[..n - 1] == parts[..i];
    }
  }

  lemma {:induction false} FlattenLength<T>(tuples: seq<seq<T>>)
    ensures |Flatten(tuples)| == TotalLength(tuples)
  {
    if |tuples| > 0 {
      FlattenLength(tuples[..|tuples| - 1]);
    }
  }

  lemma {:induction false} FlattenPrefix<T>(tuples: seq<seq<T>>, i: nat, j: nat)
    requires i <= j <= |tuples|
    ensures Flatten(tuples[..i]) <= Flatten(tuples[..j])
  {
    if i < j {
      FlattenPrefix(tuples, i, j - 1);
      assert tuples[..j][..j - 1] == tuples[..j - 1];
    }
  }

  /** Tuple `i` occupies the slots that follow the tuples before it. */
  lemma FlattenSlice<T>(tuples: seq<seq<T>>, i: nat)
    requires i < |tuples|
    ensures var start := |Flatten(tuples[..i])|;
      start + |tuples[i]| <= |Flatten(tuples)| &&
      Flatten(tuples)[start..start + |tuples[i]|] == tuples[i]
  {
    var n := |tuples|;
    FlattenPrefix(tuples, i + 1, n);
    assert tuples[..i + 1][..i] == tuples[..i];
    assert tuples[..n] == tuples;
    var start := |Flatten(tuples[..i])|;
    assert Flatten(tuples[..i + 1]) == Flatten(tuples[..i]) + tuples[i];
    assert Flatten(tuples[..i + 1])[start..start + |tuples[i]|] == tuples[i];
  }
}

=== FILE: typeregistry.dfy ===
/** The type registry of narwhal/sql.py: `TYPE_TABLE` maps a declared
    scalar class name to a storage type, `TYPE_DEFAULT` maps a storage type
    to the value stored for a field that an instance does not have. */
module TypeRegistry {
  import opened Values
  import opened Text

  datatype Registry = Registry(typeTable: map<string, string>, typeDefault: map<string, Value>)

  /** Every storage type the table can produce has a default. */
  predicate Closed(reg: Registry)
  {
    forall t :: t in reg.typeTable ==> reg.typeTable[t] in reg.typeDefault
  }

  /** The built-in seed: text, integer (also for bool), real, date and
      timestamp, with the empty string, -1, 0.0 and the year-1000 epoch as
      defaults. The integer default coincides with the "not persisted"
      key sentinel. */
  function Builtin(): (r: Registry)
    ensures Closed(r)
    ensures r.typeTable.Keys == {"str", "int", "bool", "float", "date", "datetime"}
    ensures r.typeDefault.Keys == {"text", "integer", "real", "date", "timestamp"}
    ensures r.typeTable["int"] == r.typeTable["bool"] == "integer"
    ensures r.typeDefault["integer"] == Int(-1)
  {
    Registry(
      map["str" := "text", "int" := "integer", "bool" := "integer",
          "float" := "real", "date" := "date", "datetime" := "timestamp"],
      map["text" := Str(""), "integer" := Int(-1), "real" := Real(0.0),
          "date" := Date(1000, 1, 1), "timestamp" := Timestamp(1000, 1, 1)])
  }

  /** Registers a custom scalar class: its storage type is its lower-cased
      class name, and `default` becomes that storage type's default. The
      adapter and converter are handed to the engine and are not part of
      the registry. */
  function RegisterTypeConversion(reg: Registry, className: string, default: Value): (r: Registry)
    ensures className in r.typeTable && r.typeTable[className] == Lower(className)
    ensures Lower(className) in r.typeDefault && r.typeDefault[Lower(className)] == default
    ensures r.typeTable.Keys == reg.typeTable.Keys + {className}
    ensures r.typeDefault.Keys == reg.typeDefault.Keys + {Lower(className)}
    ensures forall t :: t in reg.typeTable && t != className ==> r.typeTable[t] == reg.typeTable[t]
    ensures forall t :: t in reg.typeDefault && t != Lower(className) ==> r.typeDefault[t] == reg.typeDefault[t]
    ensures Closed(reg) ==> Closed(r)
  {
    var sqlType := Lower(className);
    Registry(reg.typeTable[className := sqlType], reg.typeDefault[sqlType := default])
  }
}

=== FILE: values.dfy ===
/** Values stored in fields, bound to parameters and read back from rows. */
module Values {

  datatype Option<+T> = None | Some(value: T)

  /** A value as the mapping layer sees it. Floating point and calendar
      values are opaque constants; `Object` stands for an instance of a user
      class, which may expose an adapter (`adapted`) that turns it into a
      storable value. */
  datatype Value =
    | Null
    | Int(i: int)
    | Bool(b: bool)
    | Real(r: real)
    | Str(s: string)
    | Date(year: int, month: int, day: int)
    | Timestamp(year: int, month: int, day: int)
    | Object(className: string, adapted: Option<Value>)

  /** The value handed to the engine for a field: the adapter's result when
      the value exposes an adapter, the value itself otherwise. */
  function Adapt(v: Value): (r: Value)
    ensures v.Object? && v.adapted.Some? ==> r == v.adapted.value
    ensures !(v.Object? && v.adapted.Some?) ==> r == v
  {
    match v
    case Object(_, Some(a)) => a
    case _ => v
  }
}
